=== FILE: README.md ===
# Training progress portal, modelled in Dafny

This project models the training-progress logic of a company training portal: a
React front end over a hosted database that holds `employee_progress`,
`training_modules` and `user_profiles` tables. Employees work through training
modules, and company admins create modules, assign them and follow progress on
several dashboards. The model covers the logic those screens share:

- **Progress writes.** `updateProgress` turns a requested status and an optional
  percentage into a payload, which the store upserts on (employee, module).
  `assignToAllEmployees` upserts one `not_started`/0 row per employee.
  The table is a map from (employee, module) to a row, and an upsert merges the
  supplied columns over the stored row. Time is a natural number `now`.
- **Aggregation.** The same counting and rate rules appear on several
  dashboards: per-module and per-employee counts and completion rates, the
  company-wide average percentage, the group-by-module fold of the assignments
  view, the overview's counts and its "recent" and "upcoming" lists, and the
  status filters of the training tabs.
- **Module lists.** The in-memory lists of modules change by prepend on
  create, replace on update, remove on delete and flip of `is_active`. The
  search and status filters select from them.
- **Small helpers.** Breadcrumbs from a URL path, the sidebar's active-route
  test and role-dependent menus, profile initials and labels, the module
  creation checks, and the empty-string/null conversions of the company form.

Each Dafny module follows one source file. `Common`, `Text`, `Rates` and
`Tally` hold shared pieces:
- `Common`: option and result types, and filter, count and map over sequences.
- `Text`: ASCII case mapping, `trim` over the full ECMAScript white-space set
  (including the no-break space and the other Unicode space separators),
  `includes`, `split` and `join`.
- `Rates`: `Math.round(c / t * 100)`, written with integers as
  `(200c + t) / (2t)`, which is round-half-up.
- `Tally`: counting rows by status.

Component state that the source updates in place is a class, with `modifies`
clauses and the new state in the `ensures` clauses. This covers the two hooks,
the admin panel, the dashboards' fetched lists, the profile editor and the two
forms. The group-by-module `reduce` and the breadcrumb `forEach` are methods
with loops, each proved equal to a function; the properties are then proved
about that function. A database call is an input to the operation: either the
rows it returned or an error.

Three behaviours of the source are kept as they are, and a lemma exhibits each:
- An `in_progress` write stamps `started_at` again each time, because the guard
  tests the object being built.
- The bulk assignment puts an employee's existing progress back to
  `not_started`/0.
- A supplied percentage is stored without clamping.

Other consequences of the code that the lemmas make explicit:
- Saving an unedited company form does not always give back the stored
  company: a stored "" comes back as null (`UneditedSaveRoundTrip`).
- The per-employee rate can exceed 100 when the table holds two rows for one
  (employee, module) pair (`RateAboveHundredWithDuplicates`).
- Rounding shows 199 of 200 completed as 100% (`NearlyCompleteShowsDefault`).
- The admin panel sends the title untrimmed, while the "Create Training Module"
  dialog trims it (`CreatePayload`, `InsertFor`).

## Model

| member | source | states |
|---|---|---|
| Types.ParseStatus | src/integrations/supabase/types.ts:265 | a string is a progress_status exactly when it is one of the three names, and parses back to the status with that name |
| Types.ParseRole | src/integrations/supabase/types.ts:266 | a string is a user_role exactly when it is one of the two names, and parses back to the role with that name |
| Types.ParseMaterial | src/integrations/supabase/types.ts:264 | a string is a material_type exactly when it is one of the four names, and parses back to the type with that name |
| Types.StatusConstantsMatch | src/integrations/supabase/types.ts:383 | the Constants array lists the three status names once each in the order of the union type, and each parses back |
| Types.RoleConstantsMatch | src/integrations/supabase/types.ts:384 | the Constants array lists the two role names in order, and each parses back |
| Types.MaterialConstantsMatch | src/integrations/supabase/types.ts:382 | the Constants array lists the four material names in order, and each parses back |
| Types.PercentOrZero | src/components/training/ActiveTrainings.tsx:99-101 | a null percentage is shown as 0, any other as stored |
| Types.StatusLabel | src/components/profile/TrainingProgress.tsx:109 | nothing for a null status, else the stored name with its first underscore replaced |
| Types.NotStartedLabel | src/components/profile/TrainingProgress.tsx:109 | not_started reads "not started" |
| Types.InProgressLabel | src/components/profile/TrainingProgress.tsx:109 | in_progress reads "in progress" |
| Types.CompletedLabel | src/components/profile/TrainingProgress.tsx:109 | completed reads "completed" |
| Types.RoleLabel | src/components/profile/ProfileInfo.tsx:155 | the role with its underscore replaced: company_admin reads "company admin" and employee reads "employee" |
| ActiveTrainingsView.ActiveTrainings | src/components/training/ActiveTrainings.tsx:15-17 | exactly the rows that are in_progress or not_started; never a completed or null-status row |
| ActiveTrainingsView.ActiveKeepsOrder | src/components/training/ActiveTrainings.tsx:15-17 | the filter splits over concatenation, so list order is kept |
| ActiveTrainingsView.CountActive | src/components/training/ActiveTrainings.tsx:15-17 | the number of active rows is the in_progress count plus the not_started count |
| ActiveTrainingsView.ActiveCount | src/components/training/ActiveTrainings.tsx:69 | the heading's number is the in_progress count plus the not_started count |
| ActiveTrainingsView.EmptyIffNoActive | src/components/training/ActiveTrainings.tsx:48 | the empty state is drawn exactly when no row is in_progress or not_started |
| ActiveTrainingsView.HandleStartTraining | src/components/training/ActiveTrainings.tsx:19-22 | no call without a profile id; otherwise updateProgress(profile id, module, in_progress, 0) |
| ActiveTrainingsView.StartResetsProgress | src/components/training/ActiveTrainings.tsx:19-22 | Start puts the row in progress at 0% and stamps started_at, keeps completed_at, and leaves every other row alone |
| ActiveTrainingsView.ActionFor | src/components/training/ActiveTrainings.tsx:112-130 | Start exactly for a not_started row, Continue otherwise |
| ActiveTrainingsView.BadgeFor | src/components/training/ActiveTrainings.tsx:89-90 | "In Progress" with the default variant exactly for an in_progress row, else "Not Started" with the secondary variant |
| ActiveTrainingsView.ActionMatchesBadge | src/components/training/ActiveTrainings.tsx:89-130 | on an active row, Start goes with "Not Started" and Continue with "In Progress" |
| ActiveTrainingsView.CardTitle | src/components/training/ActiveTrainings.tsx:80 | the module title when not empty, else "Untitled Module"; never empty |
| ActiveTrainingsView.FetchedRowsHaveTitles | src/components/training/ActiveTrainings.tsx:80 | on a fetched row the fallback never shows, because the fetch already filled the title |
| ActiveTrainingsView.CardFor | src/components/training/ActiveTrainings.tsx:74-134 | the employee line only for an admin and a non-empty name; the percentage with null as 0; the start date exactly when started_at is set |
| ActiveTrainingsView.Render | src/components/training/ActiveTrainings.tsx:29-137 | six placeholders exactly while loading; the role's empty message exactly when no row is active; otherwise a heading count equal to the number of cards, one per active row in order |
| CompletedTrainingsView.CompletedTrainings | src/components/training/CompletedTrainings.tsx:14 | exactly the completed rows of the list |
| CompletedTrainingsView.CompletedKeepsOrder | src/components/training/CompletedTrainings.tsx:14 | the filter splits over concatenation, so list order is kept |
| CompletedTrainingsView.CompletedCount | src/components/training/CompletedTrainings.tsx:60 | the heading's number is the completed count |
| CompletedTrainingsView.EmptyIffNoneCompleted | src/components/training/CompletedTrainings.tsx:39 | the empty state is drawn exactly when no row is completed |
| CompletedTrainingsView.TabsPartitionRows | src/components/training/CompletedTrainings.tsx:14 | with the active tab's filter, every row that has a status is on exactly one tab: active + completed + null-status = all rows |
| CompletedTrainingsView.CardFor | src/components/training/CompletedTrainings.tsx:65-110 | always "100% Complete" whatever is stored; the active tab's title rule; the employee line only for an admin and a non-empty name; each date exactly when set |
| CompletedTrainingsView.Render | src/components/training/CompletedTrainings.tsx:21-62 | six placeholders exactly while loading; the role's empty message exactly when nothing is completed; otherwise one card per completed row, in order, under a count of them |
| ProfileTrainingProgressView.IconFor | src/components/profile/TrainingProgress.tsx:22-31 | the tick icon for "completed", the clock for "in_progress", the book for any other string |
| ProfileTrainingProgressView.ColorFor | src/components/profile/TrainingProgress.tsx:33-42 | green for "completed", yellow for "in_progress", gray for any other string |
| ProfileTrainingProgressView.StatusKey | src/components/profile/TrainingProgress.tsx:103 | a null status reads "not_started", any other its stored name |
| ProfileTrainingProgressView.IconAndColorByStatus | src/components/profile/TrainingProgress.tsx:103-108 | icon and colour follow the stored status, and a null status looks exactly like not_started |
| ProfileTrainingProgressView.BadgeText | src/components/profile/TrainingProgress.tsx:109 | never empty: "Not Started" for a null status, the status label otherwise |
| ProfileTrainingProgressView.BadgeTexts | src/components/profile/TrainingProgress.tsx:109 | the four badge texts; a null status reads "Not Started" but a stored not_started reads "not started" |
| ProfileTrainingProgressView.CountsFor | src/components/profile/TrainingProgress.tsx:44-46 | the completed and in_progress counts and the row count, and the first two never exceed the third |
| ProfileTrainingProgressView.LineFor | src/components/profile/TrainingProgress.tsx:99-126 | icon and colour by status key, the badge text, the title with the "Unknown Module" fallback, the percentage with null as 0, the completion date exactly when set |
| ProfileTrainingProgressView.Render | src/components/profile/TrainingProgress.tsx:12-130 | a spinner exactly while loading; otherwise the counts, and the "nothing assigned" message exactly when there are no rows, else one line per row |
| EmployeeProgressHook.BuildUpdateData | src/hooks/useEmployeeProgress.ts:66-82 | status and updated_at always; a supplied percentage as given; in_progress always stamps started_at (the guard reads the object being built, so it never blocks); completed stamps completed_at and forces 100 |
| EmployeeProgressHook.UpdatePayload | src/hooks/useEmployeeProgress.ts:86-90 | the payload targets (employee_id, module_id) and always carries the status and updated_at |
| EmployeeProgressHook.Merge | src/hooks/useEmployeeProgress.ts:84-92 | the upserted row takes every supplied column and keeps every other stored column |
| EmployeeProgressHook.Upsert | src/hooks/useEmployeeProgress.ts:84-92 | the key gets the merged row whether or not it existed; no other key changes |
| EmployeeProgressHook.ProgressState.UpdateProgress | src/hooks/useEmployeeProgress.ts:59-104 | on a store error the error message is returned and the table and the hook's state are unchanged; otherwise the table is the upsert of the request's payload, the stored row is returned with the requested status, the write time and the completed/in_progress stamps, and the list is re-read: the refetched rows decorated in order on success, the error recorded on failure, loading cleared |
| EmployeeProgressHook.UpdateEffects | src/hooks/useEmployeeProgress.ts:66-92 | column by column, what one write does to the stored row and that no other key changes |
| EmployeeProgressHook.PercentageNotClamped | src/hooks/useEmployeeProgress.ts:71-73 | any integer percentage, even outside 0..100, is stored as given |
| EmployeeProgressHook.StartedAtRestamped | src/hooks/useEmployeeProgress.ts:75-77 | a second in_progress write moves an existing started_at |
| EmployeeProgressHook.StartedAtNeverCleared | src/hooks/useEmployeeProgress.ts:75-90 | no write clears a started_at once set |
| EmployeeProgressHook.ResetKeepsCompletionColumns | src/hooks/useEmployeeProgress.ts:79-90 | writing not_started over a completed row keeps its completed_at and its 100% |
| EmployeeProgressHook.UpdateKeepsStoreValid | src/hooks/useEmployeeProgress.ts:66-92 | every write keeps each row under its own key, completed rows at 100% with completed_at, in_progress rows with started_at |
| EmployeeProgressHook.EmployeeName | src/hooks/useEmployeeProgress.ts:44-46 | "first last" trimmed with a missing name read as "", or "Unknown" when the profile join missed |
| EmployeeProgressHook.EmployeeNameShape | src/hooks/useEmployeeProgress.ts:45 | a joined name has no white space at either end, and is "" without names |
| EmployeeProgressHook.ModuleTitle | src/hooks/useEmployeeProgress.ts:47 | the joined title when not empty, else "Unknown Module"; never empty |
| EmployeeProgressHook.Transform | src/hooks/useEmployeeProgress.ts:42-48 | the decorated row keeps the stored row, takes the employee name by `EmployeeName` ("Unknown" without a profile) and the title by `ModuleTitle` ("Unknown Module" when missing or empty), so always has a title |
| EmployeeProgressHook.QueryFor | src/hooks/useEmployeeProgress.ts:32-35 | a non-admin's query is filtered on their own id; an admin's is not filtered |
| EmployeeProgressHook.QueryScope | src/hooks/useEmployeeProgress.ts:32-35 | an employee's query selects exactly their own rows; an admin's selects every row |
| EmployeeProgressHook.ProgressState.constructor | src/hooks/useEmployeeProgress.ts:16-18 | no rows, loading, no error |
| EmployeeProgressHook.ProgressState.FetchProgress | src/hooks/useEmployeeProgress.ts:21-57 | on success every row is decorated in the order received; on failure the error is recorded and the rows kept; loading is false afterwards |
| EmployeeProgressHook.GetModuleProgress | src/hooks/useEmployeeProgress.ts:106-108 | exactly the rows of that module |
| EmployeeProgressHook.GetEmployeeProgress | src/hooks/useEmployeeProgress.ts:110-112 | exactly the rows of that employee |
| EmployeeProgressHook.GettersKeepOrder | src/hooks/useEmployeeProgress.ts:106-112 | both getters split over concatenation, so relative order is kept |
| TrainingModulesHook.InsertFor | src/hooks/useTrainingModules.ts:42-45 | the insert carries the profile's company |
| TrainingModulesHook.InsertKeepsDraft | src/hooks/useTrainingModules.ts:42-45 | the spread keeps every field of the caller's draft; only company_id is added |
| TrainingModulesHook.ReplaceById | src/hooks/useTrainingModules.ts:70-72 | same length; every entry with the id becomes the returned row, the others are unchanged |
| TrainingModulesHook.RemoveById | src/hooks/useTrainingModules.ts:89 | no entry with the id remains, and every other entry does |
| TrainingModulesHook.RemoveAbsent | src/hooks/useTrainingModules.ts:89 | removing an id not in the list changes nothing |
| TrainingModulesHook.RemoveKeepsOrder | src/hooks/useTrainingModules.ts:89 | removal splits over concatenation, so relative order is kept |
| TrainingModulesHook.RemoveUndoesPrepend | src/hooks/useTrainingModules.ts:51-89 | deleting a freshly created row whose id was new gives back the list as it was |
| TrainingModulesHook.RemoveAfterReplace | src/hooks/useTrainingModules.ts:70-89 | a replacement that keeps the id is invisible once that id is removed |
| TrainingModulesHook.ReplaceIdempotent | src/hooks/useTrainingModules.ts:70-72 | replacing twice with the same row is replacing once |
| TrainingModulesHook.TrainingModulesState.constructor | src/hooks/useTrainingModules.ts:11-13 | no modules, loading, no error |
| TrainingModulesHook.TrainingModulesState.FetchModules | src/hooks/useTrainingModules.ts:16-32 | on success the rows replace the list; on failure the error is recorded and the list kept; loading is false afterwards |
| TrainingModulesHook.TrainingModulesState.CreateModule | src/hooks/useTrainingModules.ts:34-57 | without a company nothing is sent and the fixed message is returned; otherwise the insert carries the company and a returned row is prepended |
| TrainingModulesHook.TrainingModulesState.UpdateModule | src/hooks/useTrainingModules.ts:59-78 | on success every entry with the id becomes the returned row; on failure the list is unchanged |
| TrainingModulesHook.TrainingModulesState.DeleteModule | src/hooks/useTrainingModules.ts:80-95 | on success every entry with the id is dropped; the store's error, if any, is returned and the list kept |
| Rates.RoundDiv | src/components/company/EmployeeManagement.tsx:103 | the integer nearest to a/b, halves rounded up, as Math.round does for positive quotients |
| Rates.RoundDivUnique | src/components/company/EmployeeManagement.tsx:103 | the rounded value is the only integer within half a unit of a/b, ties going up |
| Rates.CompletionRate | src/components/company/EmployeeManagement.tsx:102-103 | 0 for no modules; otherwise the rounded percentage, which lies in 0..100 whenever completed lies in 0..total |
| Rates.RatePercentBounds | src/components/company/EmployeeManagement.tsx:103 | a rounded percentage of a part of a whole lies in 0..100 |
| Rates.RoundDivWithin | src/components/company/EmployeeManagement.tsx:103 | rounding keeps any integer bounds the exact quotient lies in |
| Rates.RateAllCompleted | src/components/company/EmployeeManagement.tsx:103 | everything completed is exactly 100 |
| Rates.RateNoneCompleted | src/components/company/EmployeeManagement.tsx:102-103 | nothing completed is exactly 0 |
| Rates.RateMonotone | src/components/company/EmployeeManagement.tsx:103 | more completed never lowers the rate |
| Rates.RateExamples | src/components/company/EmployeeManagement.tsx:103 | 3 of 4 is 75, 1 of 3 is 33, 2 of 3 is 67, 1 of 8 rounds up to 13 |
| Tally.CountStatus | src/components/company/TrainingManagement.tsx:88-90 | a status count never exceeds the number of rows |
| Tally.StatusPartition | src/components/company/TrainingManagement.tsx:87-90 | the three status counts and the null-status count add up to the number of rows |
| Tally.StatusCountsBound | src/components/company/TrainingManagement.tsx:87-90 | the three status counts never exceed the rows, and fill them exactly when no status is null |
| EmployeeManagementView.EmployeeRowWithCount | src/components/company/EmployeeManagement.tsx:80-86 | counting a status among one employee's rows is counting, in all rows, that employee's rows with that status |
| EmployeeManagementView.StatsFor | src/components/company/EmployeeManagement.tsx:80-88 | the employee's summary: total_modules is the number of active modules; `completed` is the number of rows of that employee with status completed and `in_progress` the number with status in_progress; the two never exceed that employee's rows |
| EmployeeManagementView.ProgressStats | src/components/company/EmployeeManagement.tsx:80-88 | one summary per employee in employee order, all with the same total_modules |
| EmployeeManagementView.GetEmployeeProgress | src/components/company/EmployeeManagement.tsx:96-98 | nothing exactly when no summary names the employee; otherwise a summary of the list for that employee |
| EmployeeManagementView.CalculateCompletionRate | src/components/company/EmployeeManagement.tsx:100-104 | 0 without a summary; otherwise the completion rate of its completed count over its total_modules |
| EmployeeManagementView.EmployeeRowsBound | src/components/company/EmployeeManagement.tsx:72-75 | an employee whose rows name distinct modules, all from a set, has at most as many rows as the set |
| EmployeeManagementView.RateAtMostHundred | src/components/company/EmployeeManagement.tsx:72-104 | with at most one row per (employee, module) and rows read only for active modules, every rate shown lies in 0..100 |
| EmployeeManagementView.DuplicateRowStats | src/components/company/EmployeeManagement.tsx:81-86 | two copies of one completed row give two completed modules |
| EmployeeManagementView.RateAboveHundredWithDuplicates | src/components/company/EmployeeManagement.tsx:80-104 | without the uniqueness the rate can pass 100: two copies of a completed row against one active module show 200% |
| EmployeeManagementView.FilteredEmployees | src/components/company/EmployeeManagement.tsx:106-111 | exactly the employees matching the search, taken from the list |
| EmployeeManagementView.SearchName | src/components/company/EmployeeManagement.tsx:107 | "first last", a missing name read as "" (defined directly; used by MatchesSearchMeaning) |
| EmployeeManagementView.MatchesSearch | src/components/company/EmployeeManagement.tsx:107-110 | the lower-cased term in the lower-cased name or email (defined directly; its meaning is MatchesSearchMeaning) |
| EmployeeManagementView.MatchesSearchMeaning | src/components/company/EmployeeManagement.tsx:107-110 | an employee matches exactly when the lower-cased term occurs in the lower-cased "first last" or email |
| EmployeeManagementView.EmptySearchKeepsAll | src/components/company/EmployeeManagement.tsx:106-111 | an empty search keeps everybody, in order |
| EmployeeManagementView.SearchKeepsOrder | src/components/company/EmployeeManagement.tsx:106-111 | the search splits over concatenation, so relative order is kept |
| EmployeeManagementView.EmptyNoticeFor | src/components/company/EmployeeManagement.tsx:165-184 | "No employees found" exactly with a search term; without one "No employees yet" and the invite button |
| EmployeeManagementView.NoEmployeesYetMeansNone | src/components/company/EmployeeManagement.tsx:165-170 | "No employees yet" is drawn only when the company has no employee at all |
| EmployeeManagementView.DisplayName | src/components/company/EmployeeManagement.tsx:202-204 | "first last" when both names are present, else the email |
| EmployeeManagementView.AvatarLetter | src/components/company/EmployeeManagement.tsx:197 | the first name's first character, else the upper-cased first character of the email; none when both are empty |
| EmployeeManagementView.EmployeeManagementState.constructor | src/components/company/EmployeeManagement.tsx:29-32 | no employees, no summaries, loading, empty search |
| EmployeeManagementView.EmployeeManagementState.FetchEmployees | src/components/company/EmployeeManagement.tsx:39-56 | nothing without a company; a successful read replaces the list; loading drops either way |
| EmployeeManagementView.EmployeeManagementState.FetchEmployeeProgress | src/components/company/EmployeeManagement.tsx:58-94 | with a company and both reads successful the summaries are recomputed for the employees held; otherwise they are kept |
| EmployeeManagementView.EmployeeManagementState.SetSearchTerm | src/components/company/EmployeeManagement.tsx:158 | only the search term changes |
| TrainingManagementView.ModuleRowWithCount | src/components/company/TrainingManagement.tsx:83-90 | counting a status among one module's rows is counting, in all rows, that module's rows with that status |
| TrainingManagementView.StatsFor | src/components/company/TrainingManagement.tsx:83-91 | total_assigned is the module's row count; `completed`, `in_progress` and `not_started` are each the number of that module's rows with that status; the three never exceed total_assigned |
| TrainingManagementView.StatsExactWithoutNulls | src/components/company/TrainingManagement.tsx:87-90 | without null statuses the three counters add up to total_assigned |
| TrainingManagementView.ProgressStats | src/components/company/TrainingManagement.tsx:83-92 | one summary per module, in module order |
| TrainingManagementView.GetModuleProgress | src/components/company/TrainingManagement.tsx:100-102 | nothing exactly when no summary names the module; otherwise a summary of the list for that module |
| TrainingManagementView.CalculateCompletionRate | src/components/company/TrainingManagement.tsx:104-108 | 0 without a summary; otherwise the completion rate of completed over total_assigned |
| TrainingManagementView.LookupFindsOwnStats | src/components/company/TrainingManagement.tsx:83-102 | every module of the list finds its own summary, even when its id is repeated |
| TrainingManagementView.RateIsPercentage | src/components/company/TrainingManagement.tsx:83-108 | the rate shown for any module lies in 0..100 |
| TrainingManagementView.CardFor | src/components/company/TrainingManagement.tsx:167-247 | "Active" with the default variant exactly for an active module, a null flag reading inactive; the description only when not empty; the progress block and rate only for an admin with a summary |
| TrainingManagementView.AdminCardShowsRate | src/components/company/TrainingManagement.tsx:194-220 | on the view's own summaries an admin always sees the module's own summary and a rate in 0..100 |
| TrainingManagementView.TrainingManagementState.constructor | src/components/company/TrainingManagement.tsx:31-33 | no modules, no summaries, loading |
| TrainingManagementView.TrainingManagementState.FetchTrainingModules | src/components/company/TrainingManagement.tsx:43-60 | nothing without a company; a successful read replaces the list; loading drops either way |
| TrainingManagementView.TrainingManagementState.FetchProgressData | src/components/company/TrainingManagement.tsx:62-98 | with a company and both reads successful the summaries are recomputed for the modules held; otherwise they are kept |
| Tally.CountStatusZero | src/components/company/TrainingManagement.tsx:88-90 | a status no element has counts 0 |
| Tally.CountStatusAll | src/components/company/TrainingManagement.tsx:88-90 | a status every element has counts them all |
| CompanyOverviewView.SumPercent | src/components/company/CompanyOverview.tsx:77 | the `reduce` sum of the percentages, null read as 0 (defined directly; bounded by SumPercentBounds) |
| CompanyOverviewView.SumPercentBounds | src/components/company/CompanyOverview.tsx:77 | percentages in 0..100 add up to between 0 and 100 per row |
| CompanyOverviewView.AverageProgress | src/components/company/CompanyOverview.tsx:76-85 | 0 without rows; otherwise the integer nearest to the mean percentage, nulls counted as 0 and halves rounded up |
| CompanyOverviewView.AverageIsPercentage | src/components/company/CompanyOverview.tsx:76-85 | when every percentage is in 0..100, so is the average |
| CompanyOverviewView.StatsFrom | src/components/company/CompanyOverview.tsx:74-86 | every profile of the company counted, admins included; only active modules counted; completed and in-progress are the counts of rows with exactly those statuses and together never exceed the rows |
| CompanyOverviewView.FetchDashboardStats | src/components/company/CompanyOverview.tsx:45-92 | without a company or after any failed read the stats shown stay; otherwise they are the stats of the three reads |
| TrainingAssignmentsView.OrElse | src/components/training/TrainingAssignments.tsx:19 | the fallback replaces only an empty string, so the result is never empty when the fallback is not |
| TrainingAssignmentsView.AddCounter | src/components/training/TrainingAssignments.tsx:28 | a row bumps the counter of its own status and no other; a null status bumps none |
| TrainingAssignmentsView.BucketCounts | src/components/training/TrainingAssignments.tsx:27-28 | each counter of a bucket is the number of its rows with that status |
| TrainingAssignmentsView.BucketShape | src/components/training/TrainingAssignments.tsx:17-35 | the title comes from the first row or is "Unknown Module", the total is the row count, and the employee list has one entry per row in order |
| TrainingAssignmentsView.BucketOfMeaning | src/components/training/TrainingAssignments.tsx:15-37 | everything a bucket holds, in terms of its rows |
| TrainingAssignmentsView.BucketCountersFillTotal | src/components/training/TrainingAssignments.tsx:27-28 | without null statuses the three counters add up to the total |
| TrainingAssignmentsView.SnocModuleRows | src/components/training/TrainingAssignments.tsx:15-16 | one more row extends only its own module's rows |
| TrainingAssignmentsView.NoRowsYet | src/components/training/TrainingAssignments.tsx:17 | a module not seen yet has no rows |
| TrainingAssignmentsView.BucketSnoc | src/components/training/TrainingAssignments.tsx:27-35 | a bucket takes its rows one at a time |
| TrainingAssignmentsView.AddRowKeys | src/components/training/TrainingAssignments.tsx:16-26 | one more row keeps the keys equal to the module ids seen |
| TrainingAssignmentsView.AddRowBucket | src/components/training/TrainingAssignments.tsx:16-35 | after one more row each module's entry is still the bucket of its rows |
| TrainingAssignmentsView.AddRowBuckets | src/components/training/TrainingAssignments.tsx:16-35 | the same for every module at once |
| TrainingAssignmentsView.GroupAllMeaning | src/components/training/TrainingAssignments.tsx:15-37 | the folded object has one key per distinct module id, each holding the bucket of that module's rows in input order |
| TrainingAssignmentsView.Bump | src/components/training/TrainingAssignments.tsx:27-35 | the in-place increments and push give the bucket with one more row |
| TrainingAssignmentsView.ModuleOrderMembers | src/components/training/TrainingAssignments.tsx:15-37 | the keys the fold creates name each module of the rows once and nothing else |
| TrainingAssignmentsView.ModuleOrderFirstAppearance | src/components/training/TrainingAssignments.tsx:15-59 | the keys, and so the cards `Object.entries` walks, come in order of first appearance: every row of a later module is preceded by a row of each earlier one |
| TrainingAssignmentsView.GroupByModule | src/components/training/TrainingAssignments.tsx:15-37 | the loop's map is the fold's result, and its key list is ModuleOrder: each module once, in order of first appearance, exactly the keys of the map |
| TrainingAssignmentsView.GroupByModuleMeaning | src/components/training/TrainingAssignments.tsx:15-59 | a module has an entry exactly when some row names it, and that entry is the bucket of its rows |
| TrainingAssignmentsView.CardRate | src/components/training/TrainingAssignments.tsx:93 | 0 for an empty bucket, else the rounded share of completed rows |
| TrainingAssignmentsView.Badge | src/components/training/TrainingAssignments.tsx:107 | the default variant exactly at 100% |
| TrainingAssignmentsView.AllCompletedShowsDefault | src/components/training/TrainingAssignments.tsx:93-107 | a module whose rows are all completed shows 100% and the default badge |
| TrainingAssignmentsView.CardRateIsPercentage | src/components/training/TrainingAssignments.tsx:93 | every card shows a percentage in 0..100 |
| TrainingAssignmentsView.NearlyCompleteShowsDefault | src/components/training/TrainingAssignments.tsx:93-107 | rounding shows the default badge before everyone is done: 199 of 200 completed is 100% |
| TrainingOverviewView.Counts | src/components/training/TrainingOverview.tsx:32-36 | the row count, the three status counts (together at most the row count), and the rounded share of completed rows, 0 without rows |
| TrainingOverviewView.OverallIsPercentage | src/components/training/TrainingOverview.tsx:36 | the overall progress is always in 0..100 |
| TrainingOverviewView.ConsNewestFirst | src/components/training/TrainingOverview.tsx:40 | a row put in front of rows no newer than it keeps the list newest first |
| TrainingOverviewView.TailNoNewer | src/components/training/TrainingOverview.tsx:40 | rows taken from the tail of a newest-first list, plus one row older than its head, are no newer than that head |
| TrainingOverviewView.InsertByStamp | src/components/training/TrainingOverview.tsx:40 | inserting a row into a newest-first list keeps it newest first and adds exactly that row |
| TrainingOverviewView.SortNewestFirst | src/components/training/TrainingOverview.tsx:40 | the sort by descending `updated_at` gives a newest-first permutation of its input |
| TrainingOverviewView.InsertByStampStable | src/components/training/TrainingOverview.tsx:40 | inserting a row keeps the rows of each stamp in their order, the new row in front of those sharing its stamp |
| TrainingOverviewView.SortKeepsTiesInOrder | src/components/training/TrainingOverview.tsx:40 | the sort is stable: the rows sharing any one `updated_at` come out in the order they came in, which decides the tied rows kept by `.slice(0, 5)` |
| TrainingOverviewView.RecentActivity | src/components/training/TrainingOverview.tsx:38-41 | at most five rows, newest first |
| TrainingOverviewView.RecentAreUpdatedRows | src/components/training/TrainingOverview.tsx:38-41 | every recent row is a row of the list that has an `updated_at` |
| TrainingOverviewView.RecentAreNewest | src/components/training/TrainingOverview.tsx:38-41 | a row with an `updated_at` left out of the recent list is not newer than any row in it |
| TrainingOverviewView.RecentShowsAllWhenFew | src/components/training/TrainingOverview.tsx:38-41 | with at most five updated rows the recent list shows all of them |
| TrainingOverviewView.UpcomingDeadlines | src/components/training/TrainingOverview.tsx:43-45 | at most three rows, all from the list and none completed |
| TrainingOverviewView.UpcomingTakesEarliest | src/components/training/TrainingOverview.tsx:43-45 | a row not completed (a null status included) is listed at its rank among such rows when fewer than three come before it; otherwise the list is already full from earlier rows |
| TrainingOverviewView.ActivityItemFor | src/components/training/TrainingOverview.tsx:119-143 | a recent row shows its module title; a default badge exactly for completed and secondary exactly for in progress; the status text with its underscore replaced, empty exactly for a null status; the employee only for an admin with a non-empty name; the percentage with null shown as 0; the update time |
| TrainingOverviewView.UpcomingItemFor | src/components/training/TrainingOverview.tsx:166-181 | an upcoming row shows "Not Started" exactly when its status is null, otherwise the status text; the percentage with null shown as 0; the employee only for an admin with a non-empty name |
| TrainingOverviewView.RecentCard | src/components/training/TrainingOverview.tsx:115-146 | "No recent activity" exactly when no row has an update time, otherwise one entry per recent row in order |
| TrainingOverviewView.UpcomingCard | src/components/training/TrainingOverview.tsx:162-184 | "All caught up!" exactly when every row is completed, otherwise one entry per upcoming row in order |
| TrainingManagementPanelView.CanCreate | src/components/training/TrainingManagementPanel.tsx:118 | a company and a title that is not blank after trimming (defined directly; Creation refuses exactly its negation) |
| TrainingManagementPanelView.CreatePayload | src/components/training/TrainingManagementPanel.tsx:123-128 | title and description go as typed; a 0 duration and an empty due date are sent as null, anything else as entered |
| TrainingManagementPanelView.Creation | src/components/training/TrainingManagementPanel.tsx:118-128 | nothing is sent exactly when the company is missing or the trimmed title is empty; otherwise the payload for the profile's company |
| TrainingManagementPanelView.SetActiveById | src/components/training/TrainingManagementPanel.tsx:167-171 | every module with the id takes the new flag and nothing else of it changes; every other module is left alone; length kept |
| TrainingManagementPanelView.ToggleRoundTrip | src/components/training/TrainingManagementPanel.tsx:167-171 | hiding a module and showing it again gives back the list |
| TrainingManagementPanelView.RemoveById | src/components/training/TrainingManagementPanel.tsx:200 | no module with the id remains, and every other module does |
| TrainingManagementPanelView.RemoveKeepsOrder | src/components/training/TrainingManagementPanel.tsx:200 | removal splits over concatenation, so the rest keep their order |
| TrainingManagementPanelView.DeleteUndoesCreate | src/components/training/TrainingManagementPanel.tsx:134-200 | deleting a just-created module with a fresh id gives back the list before the create |
| TrainingManagementPanelView.MatchesSearch | src/components/training/TrainingManagementPanel.tsx:246-247 | the lower-cased term in the lower-cased title or description, a missing description read as "" (defined directly; FilteredModules and NoFilterShowsAll state its use) |
| TrainingManagementPanelView.MatchesFilter | src/components/training/TrainingManagementPanel.tsx:248-250 | `all`, or `active` with an active module, or `inactive` with an inactive one (defined directly; ActiveInactiveSplit and UnknownFilterShowsNothing state its meaning) |
| TrainingManagementPanelView.FilteredModules | src/components/training/TrainingManagementPanel.tsx:245-252 | exactly the modules whose lower-cased title or description (null read as "") contains the lower-cased term and that pass the status filter |
| TrainingManagementPanelView.NoFilterShowsAll | src/components/training/TrainingManagementPanel.tsx:245-252 | an empty search with `all` lists every module, in order |
| TrainingManagementPanelView.ActiveInactiveSplit | src/components/training/TrainingManagementPanel.tsx:248-250 | for one search, the `active` and `inactive` lists together are as long as the `all` list |
| TrainingManagementPanelView.UnknownFilterShowsNothing | src/components/training/TrainingManagementPanel.tsx:248-250 | a filter value other than `all`, `active` and `inactive` keeps nothing |
| TrainingManagementPanelView.EmptyListNotice | src/components/training/TrainingManagementPanel.tsx:329-346 | the create button and "No Training Modules" exactly without a search term and with `all`; "No matching modules found" otherwise |
| TrainingManagementPanelView.NoModulesNoticeMeansNone | src/components/training/TrainingManagementPanel.tsx:329-346 | "No Training Modules" is drawn only when there is no module at all |
| TrainingManagementPanelView.AssignInsert | src/components/training/TrainingManagementPanel.tsx:218-223 | the row for one employee: that (employee, module) key, `not_started`, 0%, no timestamps supplied |
| TrainingManagementPanelView.AssignmentRows | src/components/training/TrainingManagementPanel.tsx:218-223 | one row per employee, in employee order |
| TrainingManagementPanelView.MergeIdempotent | src/components/training/TrainingManagementPanel.tsx:225-227 | merging the same payload twice is merging it once |
| TrainingManagementPanelView.FanOutKeys | src/components/training/TrainingManagementPanel.tsx:225-227 | after the bulk upsert the table holds exactly its old keys plus the assigned (employee, module) pairs: no duplicates |
| TrainingManagementPanelView.FanOutEffect | src/components/training/TrainingManagementPanel.tsx:218-227 | each assigned pair gets `not_started`/0 merged over what it held; every other row is unchanged |
| TrainingManagementPanelView.FanOutResetsProgress | src/components/training/TrainingManagementPanel.tsx:218-227 | an employee already part-way through the module is put back to `not_started` at 0%, its timestamps kept |
| TrainingManagementPanelView.FanOutIdempotent | src/components/training/TrainingManagementPanel.tsx:225-227 | assigning the same module twice leaves the table as assigning it once |
| TrainingManagementPanelView.FanOutKeepsStoreValid | src/components/training/TrainingManagementPanel.tsx:218-227 | the bulk assignment keeps every row filed under its own key and consistent with its status |
| TrainingManagementPanelView.PanelState.constructor | src/components/training/TrainingManagementPanel.tsx:53-67 | empty lists, the default form, `all`, loading, both dialogs closed, nothing selected |
| TrainingManagementPanelView.PanelState.FetchTrainingModules | src/components/training/TrainingManagementPanel.tsx:76-98 | nothing without a company; a successful read replaces the list; loading drops either way |
| TrainingManagementPanelView.PanelState.FetchEmployees | src/components/training/TrainingManagementPanel.tsx:100-115 | with a company and a successful read the employees are replaced; otherwise kept |
| TrainingManagementPanelView.PanelState.CreateModule | src/components/training/TrainingManagementPanel.tsx:117-156 | sends what Creation gives; on success the new module goes first, the rest keep their order, the form resets and the dialog closes; otherwise nothing changes |
| TrainingManagementPanelView.PanelState.ToggleModuleVisibility | src/components/training/TrainingManagementPanel.tsx:158-185 | after the store accepts, the list is SetActiveById with the negated flag; after a failure it is unchanged |
| TrainingManagementPanelView.PanelState.DeleteModule | src/components/training/TrainingManagementPanel.tsx:187-214 | a declined confirmation or a failed delete changes nothing; otherwise the list is RemoveById of it |
| TrainingManagementPanelView.PanelState.AssignToAllEmployees | src/components/training/TrainingManagementPanel.tsx:216-243 | the batch is AssignmentRows for the employees held; the table after is the bulk upsert, or unchanged on failure |
| TrainingManagementPanelView.PanelState.SetTitle | src/components/training/TrainingManagementPanel.tsx:453 | only the form's title changes |
| TrainingManagementPanelView.PanelState.SetDescription | src/components/training/TrainingManagementPanel.tsx:463 | only the form's description changes |
| TrainingManagementPanelView.PanelState.SetDueDate | src/components/training/TrainingManagementPanel.tsx:475 | only the form's due date changes |
| TrainingManagementPanelView.PanelState.SetEstimatedDuration | src/components/training/TrainingManagementPanel.tsx:485 | only the form's duration changes, an unparsable entry becoming 0 |
| TrainingManagementPanelView.PanelState.SetActive | src/components/training/TrainingManagementPanel.tsx:494 | only the form's active flag changes |
| TrainingManagementPanelView.PanelState.SetCreateDialogOpen | src/components/training/TrainingManagementPanel.tsx:442 | only the create dialog's flag changes; the form is kept |
| TrainingManagementPanelView.PanelState.OpenAssignDialog | src/components/training/TrainingManagementPanel.tsx:405-408 | the module is selected and the assign dialog opens |
| TrainingManagementPanelView.PanelState.CloseAssignDialog | src/components/training/TrainingManagementPanel.tsx:547 | the assign dialog closes and the selection is kept |
| TrainingManagementPanelView.PanelState.ConfirmAssignAll | src/components/training/TrainingManagementPanel.tsx:523-529 | with a non-empty selection the batch for it is sent and the dialog closes whatever the store answers; without one nothing happens |
| TrainingManagementPanelView.PanelState.SetSearchTerm | src/components/training/TrainingManagementPanel.tsx:303 | only the search term changes |
| TrainingManagementPanelView.PanelState.SetFilterStatus | src/components/training/TrainingManagementPanel.tsx:308 | only the status filter changes |
| TrainingManagementPanelView.PanelState.Visible | src/components/training/TrainingManagementPanel.tsx:245-252 | the listed modules are all held modules |
| ProfileInfoView.FirstLetter | src/components/profile/ProfileInfo.tsx:86-87 | the first character of a name, or "" for a null or empty name |
| ProfileInfoView.Initials | src/components/profile/ProfileInfo.tsx:85-89 | one or two characters, none of them a lower-case letter |
| ProfileInfoView.InitialsCases | src/components/profile/ProfileInfo.tsx:85-89 | case by case: both first letters upper-cased, or the one that exists, else the upper-cased first character of the email, else "U" |
| ProfileInfoView.FormatDate | src/components/profile/ProfileInfo.tsx:91-98 | "N/A" exactly for a missing date, otherwise that date |
| ProfileInfoView.CardFor | src/components/profile/ProfileInfo.tsx:133-224 | the initials; "first last" as heading when both names are present, else the email; the role with its underscore replaced; "Not provided" for a missing name; company and member-since lines only for a company admin, with "No company assigned" for a missing company |
| ProfileInfoView.ApplyPatch | src/components/profile/ProfileInfo.tsx:27-33 | a saved profile holds both names as typed and is otherwise unchanged |
| ProfileInfoView.UntouchedSaveStoresEmptyNames | src/components/profile/ProfileInfo.tsx:17-33 | saving an untouched form over a profile without names stores "" instead of null in both columns, and the heading and initials do not change |
| ProfileInfoView.ProfileEditor.constructor | src/components/profile/ProfileInfo.tsx:16-20 | not editing, not updating, the inputs start from the profile's names with null as "" |
| ProfileInfoView.ProfileEditor.ToggleEditing | src/components/profile/ProfileInfo.tsx:117-125 | the Edit/Cancel button flips editing unless a save is under way; the inputs are kept |
| ProfileInfoView.ProfileEditor.CancelEditing | src/components/profile/ProfileInfo.tsx:229-235 | the lower Cancel ends editing unless a save is under way, and keeps what was typed |
| ProfileInfoView.ProfileEditor.SetFirstName | src/components/profile/ProfileInfo.tsx:167 | only the first-name input changes |
| ProfileInfoView.ProfileEditor.SetLastName | src/components/profile/ProfileInfo.tsx:183 | only the last-name input changes |
| ProfileInfoView.ProfileEditor.HandleUpdateProfile | src/components/profile/ProfileInfo.tsx:22-52 | nothing without a profile; otherwise both inputs are sent for the profile's id, editing ends only when the store accepts, and updating is down afterwards either way |
| CreateModuleDialogView.RefusalFor | src/components/company/CreateModuleDialog.tsx:35-51 | a blank title is refused first; a non-blank title without a company is refused next; otherwise nothing is refused |
| CreateModuleDialogView.InsertFor | src/components/company/CreateModuleDialog.tsx:57-62 | the trimmed title, the trimmed description or null exactly when it is blank, the switch's value and the profile's company |
| CreateModuleDialogView.InsertIsTrimmed | src/components/company/CreateModuleDialog.tsx:35-62 | an accepted insert has a non-empty title and no white space (the ECMAScript set, no-break space included) at either end of the title or the description |
| CreateModuleDialogView.OutcomeFor | src/components/company/CreateModuleDialog.tsx:34-90 | a refusal sends nothing; otherwise the insert is sent and the store's answer decides between created and failed |
| CreateModuleDialogView.CreateModuleDialog.constructor | src/components/company/CreateModuleDialog.tsx:23-28 | a blank form (empty title and description, active) and not creating |
| CreateModuleDialogView.CreateModuleDialog.SetTitle | src/components/company/CreateModuleDialog.tsx:30-32 | only the title changes |
| CreateModuleDialogView.CreateModuleDialog.SetDescription | src/components/company/CreateModuleDialog.tsx:30-32 | only the description changes |
| CreateModuleDialogView.CreateModuleDialog.SetActive | src/components/company/CreateModuleDialog.tsx:30-32 | only the switch changes |
| CreateModuleDialogView.CreateModuleDialog.HandleCreate | src/components/company/CreateModuleDialog.tsx:34-90 | the outcome is the one OutcomeFor gives for the form as it was; a created module resets the form, closes the dialog and notifies the parent; a refusal or failure keeps the form and the dialog open state, and does not notify |
| CreateModuleDialogView.TitleCheckedFirst | src/components/company/CreateModuleDialog.tsx:35-51 | a blank title is the reason given even when the company is missing too |
| CompanySettingsView.EmptyIfNull | src/components/company/CompanySettings.tsx:29-31 | a null column shows as "", any other as stored |
| CompanySettingsView.NullIfEmpty | src/components/company/CompanySettings.tsx:47-49 | "" is sent as null, any other input as typed |
| CompanySettingsView.NullRoundTrip | src/components/company/CompanySettings.tsx:29-49 | showing then sending gives the stored value back except for a stored "", which comes back as null |
| CompanySettingsView.InitForm | src/components/company/CompanySettings.tsx:27-32 | the name as stored and the three nullable columns with null shown as "" |
| CompanySettingsView.WithField | src/components/company/CompanySettings.tsx:36-38 | the named input shows the new value and every other input is unchanged |
| CompanySettingsView.FormsByInputs | src/components/company/CompanySettings.tsx:27-32 | two forms whose four inputs agree are the same form |
| CompanySettingsView.EditLaws | src/components/company/CompanySettings.tsx:36-38 | typing the shown value changes nothing, and of two edits to one input the later wins |
| CompanySettingsView.SavePayload | src/components/company/CompanySettings.tsx:45-50 | the name as typed (even "") and the three other inputs with "" sent as null |
| CompanySettingsView.ApplyUpdate | src/components/company/CompanySettings.tsx:43-51 | the company keeps its id and creation date and takes the four sent columns |
| CompanySettingsView.UneditedSaveRoundTrip | src/components/company/CompanySettings.tsx:27-51 | saving an unedited form leaves the company unchanged exactly when none of the nullable columns holds "" |
| CompanySettingsView.SaveThenReopen | src/components/company/CompanySettings.tsx:27-51 | reopening the form on the saved company shows what was typed |
| CompanySettingsView.CompanySettingsEditor.constructor | src/components/company/CompanySettings.tsx:27-33 | the form from the company, not saving |
| CompanySettingsView.CompanySettingsEditor.HandleInputChange | src/components/company/CompanySettings.tsx:36-38 | only the named input changes |
| CompanySettingsView.CompanySettingsEditor.HandleSave | src/components/company/CompanySettings.tsx:40-71 | the save payload of the form is sent for the company's id; the parent is notified exactly when the store accepts; the form is kept and saving is down afterwards |
| DashboardHeaderView.DropEmpty | src/components/dashboard/DashboardHeader.tsx:15 | the non-empty pieces only, and slash-free pieces stay slash-free |
| DashboardHeaderView.DropEmptyKeepsFull | src/components/dashboard/DashboardHeader.tsx:15 | pieces that are all non-empty are kept as they are |
| DashboardHeaderView.Segments | src/components/dashboard/DashboardHeader.tsx:15 | every segment is non-empty and free of "/" |
| DashboardHeaderView.CrumbName | src/components/dashboard/DashboardHeader.tsx:37 | a crumb's label (defined directly; CrumbNameShape states its meaning) |
| DashboardHeaderView.CrumbNameShape | src/components/dashboard/DashboardHeader.tsx:37 | a segment in pathMap shows its entry; any other keeps its length, its first character upper-cased and the rest as typed |
| DashboardHeaderView.CrumbPath | src/components/dashboard/DashboardHeader.tsx:38 | the link of a crumb, built segment by segment (defined directly; CrumbPathEnds and CrumbPathIsJoin state its meaning) |
| DashboardHeaderView.CrumbPathEnds | src/components/dashboard/DashboardHeader.tsx:38 | a crumb's link starts with "/" and ends with "/" followed by its own segment |
| DashboardHeaderView.CrumbPathIsJoin | src/components/dashboard/DashboardHeader.tsx:38 | a crumb's link is "/" and the segments up to its own joined by "/" |
| DashboardHeaderView.Trail | src/components/dashboard/DashboardHeader.tsx:21-40 | one crumb per segment after the Dashboard crumb |
| DashboardHeaderView.Breadcrumbs | src/components/dashboard/DashboardHeader.tsx:13-43 | Dashboard alone for a path without segments and for exactly "/dashboard"; otherwise Dashboard followed by the trail of the segments |
| DashboardHeaderView.GetBreadcrumbs | src/components/dashboard/DashboardHeader.tsx:13-43 | the forEach loop builds exactly the trail Breadcrumbs describes |
| DashboardHeaderView.CrumbPathPrefix | src/components/dashboard/DashboardHeader.tsx:38 | a crumb's link depends only on the segments up to its own |
| DashboardHeaderView.TrailAt | src/components/dashboard/DashboardHeader.tsx:36-40 | crumb i + 1 is the label of segment i and the path up to and including it |
| DashboardHeaderView.PathsArePrefixes | src/components/dashboard/DashboardHeader.tsx:38 | each segment crumb's link is the previous one's plus "/" and the next segment, so a strictly shorter prefix of it |
| DashboardHeaderView.CanonicalPathSegments | src/components/dashboard/DashboardHeader.tsx:15 | a path "/a/b" written without empty pieces has exactly its pieces as segments |
| DashboardHeaderView.LastCrumbIsWholePath | src/components/dashboard/DashboardHeader.tsx:38 | the last crumb links to "/" and every segment joined by "/" |
| DashboardHeaderView.TrailingSlashSameSegments | src/components/dashboard/DashboardHeader.tsx:15 | a trailing slash does not change the segments |
| DashboardHeaderView.TrailingSlashTrail | src/components/dashboard/DashboardHeader.tsx:15-17 | a path with a trailing slash is never taken for "/dashboard": it gets the full trail of its segments |
| DashboardHeaderView.RootShowsDashboard | src/components/dashboard/DashboardHeader.tsx:17-19 | "/" and "/dashboard" both show Dashboard alone |
| DashboardHeaderView.TrailingSlashRepeatsDashboard | src/components/dashboard/DashboardHeader.tsx:17-40 | "/dashboard/" shows Dashboard twice, the second linking to "/dashboard" |
| DashboardHeaderView.MappedLabel | src/components/dashboard/DashboardHeader.tsx:27 | a segment in pathMap shows its entry: "company" reads "Company" |
| DashboardHeaderView.DashboardLabel | src/components/dashboard/DashboardHeader.tsx:37 | "dashboard" is not in pathMap and is capitalised to "Dashboard" |
| DashboardHeaderView.UnmappedLabel | src/components/dashboard/DashboardHeader.tsx:37 | a segment outside pathMap is capitalised: "reports" reads "Reports" |
| DashboardHeaderView.Render | src/components/dashboard/DashboardHeader.tsx:53-64 | one item per crumb with its label; only the last is the current page, every other one links to its path |
| AppSidebarView.CorePages | src/components/dashboard/AppSidebar.tsx:35-66 | Dashboard, My Trainings, Manage Trainings, Company and Team Management, in that order, for an admin; Dashboard, My Trainings and Company for an employee |
| AppSidebarView.AdminPages | src/components/dashboard/AppSidebar.tsx:98-117 | three entries for an admin, none otherwise |
| AppSidebarView.Groups | src/components/dashboard/AppSidebar.tsx:139-230 | the core, profile and support groups in that order, and a fourth for an admin |
| AppSidebarView.AdminGroupOnlyForAdmins | src/components/dashboard/AppSidebar.tsx:208 | the admin group is drawn exactly for an admin; the profile and support groups do not depend on the role |
| AppSidebarView.EmployeeCoreIsAdminCoreWithout | src/components/dashboard/AppSidebar.tsx:35-66 | an employee's core entries are the admin's in the same order without Manage Trainings and Team Management |
| AppSidebarView.IsActiveRoute | src/components/dashboard/AppSidebar.tsx:119-121 | the location equals the URL or starts with the URL and "/" (defined directly; its meaning is ActiveRouteMeaning) |
| AppSidebarView.ActiveRouteMeaning | src/components/dashboard/AppSidebar.tsx:119-121 | an entry is active exactly when its URL is a prefix of the location and the location ends there or continues with "/" |
| AppSidebarView.ActiveRouteExamples | src/components/dashboard/AppSidebar.tsx:119-121 | "/dashboard" is active under "/dashboard/x" but not at "/dashboardx" |
| AppSidebarView.OneSegmentActiveUnique | src/components/dashboard/AppSidebar.tsx:119-121 | two one-segment URLs active at the same location are the same URL |
| AppSidebarView.CoreUrlsOneSegment | src/components/dashboard/AppSidebar.tsx:35-66 | every core entry's URL is a single segment |
| AppSidebarView.OneCoreEntryActive | src/components/dashboard/AppSidebar.tsx:142-146 | at most one core entry is highlighted at any location |
| EmployeeProgressHook.UpsertAll | src/components/training/TrainingManagementPanel.tsx:225-227 | after a batch upsert the table's keys are its old keys plus the batch's keys |
| Text.TrimShape | src/components/company/CreateModuleDialog.tsx:58-59 | `trim` gives a slice of its input with no white space at either end, white space being the ECMAScript WhiteSpace and LineTerminator characters (tab, VT, FF, BOM, every Zs space such as U+00A0, LF, CR, U+2028, U+2029) |
| Text.TrimIdempotent | src/components/company/CreateModuleDialog.tsx:58-59 | trimming twice is trimming once |
| Text.TrimEmptyIffBlank | src/components/company/CreateModuleDialog.tsx:35 | the trimmed string is empty exactly when the input is all white space in the ECMAScript sense, so a title of no-break spaces is blank |
| Text.Capitalize | src/components/dashboard/DashboardHeader.tsx:37 | the first character upper-cased and the rest unchanged |
| Text.SplitJoin | src/components/dashboard/DashboardHeader.tsx:15 | splitting on a separator undoes joining on it, for pieces without the separator |

## Left out

- The database itself is not modelled. Its row-level security, cascades, defaults and generated `id`/`created_at` columns are invisible to the client. Columns an insert leaves out are taken as null.
- The conflict target of `updateProgress`'s upsert, which passes no `onConflict`, is assumed to be (employee_id, module_id), the same as the bulk assignment's. The store decides it, and it is not visible in the client.
- EmployeeProgressHook.QueryFor: the read's `order('updated_at', descending)` is not part of the modelled query. Rows are taken in the order the store returns them, and the order lemmas of the getters and the overview are stated over that order.
- Company scoping of admin reads is a store property and is not claimed: the client does not filter by company.
- React effects, their ordering, asynchronous races and stale closures are left out. Each fetch method computes from the state it is given. For example, the per-module and per-employee summaries are computed from the module or employee list held when the progress read returns, even if that list is still empty on first load.
- The loading flags and skeletons of the company overview, training overview and assignments screens are left out.
- Toasts, icons, CSS classes, tab switching and the window event bus of the profile page are presentation and are left out. The `confirm()` dialog is a boolean input.
- Dates are abstract natural numbers. ISO strings, `new Date()` arithmetic and `toLocaleDateString` formatting are left out, including the "Joined", "Created", "Due" and "Company established" lines.
- `toLowerCase` and `toUpperCase` are modelled on ASCII letters only. Unicode case mapping is not modelled.
- EmployeeProgressHook.ProgressState.UpdateProgress: percentages are modelled as integers. The generated column type is `number | null`, so a client outside this portal could store a fraction such as 33.5; every writer in the portal sends 0, 100 or an integer argument (src/hooks/useEmployeeProgress.ts:81, src/components/training/ActiveTrainings.tsx:21, src/components/training/TrainingManagementPanel.tsx:222).
- EmployeeProgressHook.PercentageNotClamped: stated for integer percentages only, for the same reason.
- CompanyOverviewView.AverageProgress: the average, and SumPercentBounds beneath it, are stated over integer percentages; a stored fraction would be summed and rounded the same way but is not modelled.
- `Math.round` on floating-point ratios is modelled as exact integer round-half-up. Floating-point error on ratios is not captured.
- In the assignments view, a row with a null status makes the `reduce` increment a stray `"null"` key on its bucket. That key is never shown and is not modelled.
- Breadcrumb labels for segments such as `constructor` or `toString`, which an object lookup would find on `pathMap`'s prototype, are not modelled. `pathMap` is a plain map.
- Avatar upload and removal, file names built from `Date.now`/`Math.random`, and password reset are left out as storage and authentication calls.
- `handleContinueTraining`, the certificate download, `handleAssignTraining`, and the panel's Edit, Settings, "Select Specific Employees" and "Assign by Department" buttons only log or do nothing, and are left out.
- The buttons on the Team Management and Training Modules cards have no handlers, and are left out.
- The "Create Module" button of the Training Modules screen only opens the dialog modelled in `CreateModuleDialogView`. Its `open` flag is the parent's state, held here as a field of the dialog.
- `filterStatus` is any string, as the select's value type allows. The three offered values and every other value are all modelled.
- The company form's `handleInputChange` takes a field name string. Here it takes an enumeration of the four inputs.
- Marketing pages, routing, redirect guards and the dashboard tab wiring are outside this model.

=== FILE: active_trainings.dfy ===
/** The "Active Trainings" tab: the rows still to be finished, and the
    Start button that moves a row to `in_progress`. */
module ActiveTrainingsView {
  import opened Common
  import opened Types
  import opened Tally
  import opened EmployeeProgressHook

  /** A row is active when it is in progress or not started; completed rows
      and rows with a null status are not. */
  predicate IsActive(v: ProgressView) {
    v.row.status == Some(InProgress) || v.row.status == Some(NotStarted)
  }

  function Active(): ProgressView -> bool {
    (v: ProgressView) => IsActive(v)
  }

  /** `activeTrainings`: the active rows of the list, in list order. */
  function ActiveTrainings(progress: seq<ProgressView>): (r: seq<ProgressView>)
    ensures forall i :: 0 <= i < |r| ==> r[i] in progress && IsActive(r[i])
    ensures forall i :: 0 <= i < |progress| && IsActive(progress[i]) ==> progress[i] in r
    ensures forall i :: 0 <= i < |r| ==>
      r[i].row.status != Some(Completed) && r[i].row.status != None
  {
    var r := Filter(progress, Active());
    assert forall i :: 0 <= i < |r| ==> Active()(r[i]);
    r
  }

  /** Filtering splits over concatenation, so the relative order of the
      active rows is the order of the list. */
  lemma ActiveKeepsOrder(a: seq<ProgressView>, b: seq<ProgressView>)
    ensures ActiveTrainings(a + b) == ActiveTrainings(a) + ActiveTrainings(b)
  {
    FilterAppend(a, b, Active());
  }

  /** The heading's number is the count of `in_progress` rows plus the count
      of `not_started` rows. */
  lemma ActiveCount(progress: seq<ProgressView>)
    ensures |ActiveTrainings(progress)| ==
      CountStatus(progress, ViewStatus, Some(InProgress)) + CountStatus(progress, ViewStatus, Some(NotStarted))
  {
    CountActive(progress);
  }

  lemma {:induction false} CountActive(progress: seq<ProgressView>)
    ensures Count(progress, Active()) ==
      Count(progress, HasStatus(ViewStatus, Some(InProgress))) + Count(progress, HasStatus(ViewStatus, Some(NotStarted)))
  {
    if progress != [] {
      CountActive(progress[1..]);
      CountCons(progress, Active());
      CountCons(progress, HasStatus(ViewStatus, Some(InProgress)));
      CountCons(progress, HasStatus(ViewStatus, Some(NotStarted)));
      var v := progress[0];
      assert Active()(v) == IsActive(v);
      assert HasStatus(ViewStatus, Some(InProgress))(v) == (ViewStatus(v) == Some(InProgress));
      assert HasStatus(ViewStatus, Some(NotStarted))(v) == (ViewStatus(v) == Some(NotStarted));
    }
  }

  /** The empty state is drawn exactly when no row is in progress or not
      started. */
  lemma EmptyIffNoActive(progress: seq<ProgressView>)
    ensures ActiveTrainings(progress) == [] <==> forall i :: 0 <= i < |progress| ==> !IsActive(progress[i])
  {
    var r := ActiveTrainings(progress);
    if r != [] {
      assert r[0] in progress && IsActive(r[0]);
    }
  }

  /** The `updateProgress` call a button makes. */
  datatype ProgressCall = ProgressCall(employeeId: string, moduleId: string,
                                       status: ProgressStatus, percentage: Option<int>)

  /** `handleStartTraining`: nothing without a profile id; otherwise the
      signed-in user's row for the module is set to `in_progress` at 0%. */
  function HandleStartTraining(profileId: Option<string>, moduleId: string): (call: Option<ProgressCall>)
    ensures call.None? <==> !Present(profileId)
    ensures call.Some? ==> call.value.employeeId == profileId.value && call.value.moduleId == moduleId
    ensures call.Some? ==> call.value.status == InProgress && call.value.percentage == Some(0)
  {
    if !Present(profileId) then None
    else Some(ProgressCall(profileId.value, moduleId, InProgress, Some(0)))
  }

  /** The write a call makes to the progress table. */
  function Apply(store: Store, call: ProgressCall, now: nat): Store {
    Upsert(store, RequestPayload(call.employeeId, call.moduleId, call.status, call.percentage, now))
  }

  /** Pressing Start puts the row in progress at 0%, stamps `started_at`, and
      keeps `completed_at`; pressing it again on a row already worked on
      sends the percentage back to 0. Other rows are unchanged. */
  lemma StartResetsProgress(store: Store, profileId: Option<string>, moduleId: string, now: nat)
    requires Present(profileId)
    ensures var call := HandleStartTraining(profileId, moduleId).value;
            var k := Key(profileId.value, moduleId);
            var after := Apply(store, call, now);
            && k in after
            && after[k].status == Some(InProgress)
            && after[k].progressPercentage == Some(0)
            && after[k].startedAt == Some(now)
            && after[k].completedAt == Current(store, k).completedAt
            && (forall k' :: k' in store && k' != k ==> after[k'] == store[k'])
  {
    UpdateEffects(store, profileId.value, moduleId, InProgress, Some(0), now);
  }

  /** `handleContinueTraining` only logs the module id; it changes nothing. */
  datatype CardAction = Start | Continue

  /** A `not_started` row offers Start; any other row on the tab offers Continue. */
  function ActionFor(v: ProgressView): (a: CardAction)
    ensures a == Start <==> v.row.status == Some(NotStarted)
  {
    if v.row.status == Some(NotStarted) then Start else Continue
  }

  /** The badge: "In Progress" (default variant) for an `in_progress` row,
      otherwise "Not Started" (secondary). */
  function BadgeFor(v: ProgressView): (b: (string, BadgeVariant))
    ensures b.0 == "In Progress" <==> v.row.status == Some(InProgress)
    ensures b.0 == "In Progress" <==> b.1 == Default
    ensures b.0 != "In Progress" ==> b.0 == "Not Started" && b.1 == Secondary
  {
    if v.row.status == Some(InProgress) then ("In Progress", Default) else ("Not Started", Secondary)
  }

  /** On an active row the button and the badge agree: Start with "Not
      Started", Continue with "In Progress". */
  lemma ActionMatchesBadge(v: ProgressView)
    requires IsActive(v)
    ensures ActionFor(v) == Start <==> BadgeFor(v).0 == "Not Started"
  {
  }

  /** `module_title || 'Untitled Module'`. */
  function CardTitle(v: ProgressView): (t: string)
    ensures t != []
    ensures v.moduleTitle != [] ==> t == v.moduleTitle
  {
    if v.moduleTitle != [] then v.moduleTitle else "Untitled Module"
  }

  /** The fetch already replaces a missing title with "Unknown Module", so a
      fetched row never shows "Untitled Module". */
  lemma FetchedRowsHaveTitles(j: JoinedRow)
    ensures CardTitle(Transform(j)) == Transform(j).moduleTitle
  {
  }

  /** One card of the tab. */
  datatype TrainingCard = TrainingCard(
    title: string,
    employeeLine: Option<string>,
    badge: string,
    variant: BadgeVariant,
    percent: int,
    startedAt: Option<nat>,
    action: CardAction,
    moduleId: string)

  /** A card: the employee's name only for an admin and only when it is not
      empty, the percentage with null shown as 0, the start date only when
      set. */
  function CardFor(isCompanyAdmin: bool, v: ProgressView): (c: TrainingCard)
    ensures c.employeeLine.Some? <==> isCompanyAdmin && v.employeeName != []
    ensures c.employeeLine.Some? ==> c.employeeLine.value == v.employeeName
    ensures c.percent == PercentOrZero(v.row.progressPercentage)
    ensures c.startedAt.Some? <==> v.row.startedAt.Some?
    ensures c.moduleId == v.row.moduleId
  {
    var b := BadgeFor(v);
    TrainingCard(
      CardTitle(v),
      if isCompanyAdmin && v.employeeName != [] then Some(v.employeeName) else None,
      b.0, b.1,
      PercentOrZero(v.row.progressPercentage),
      v.row.startedAt,
      ActionFor(v),
      v.row.moduleId)
  }

  /** What the tab draws: six placeholders while loading, an empty state
      whose text depends on the role, or the heading count and the cards. */
  datatype Screen =
    | Skeleton(placeholders: nat)
    | EmptyState(message: string)
    | Cards(heading: nat, cards: seq<TrainingCard>)

  const AdminEmpty: string := "No employees have active training modules at the moment."
  const EmployeeEmpty: string := "You don't have any active training modules. Check back later for new assignments."

  /** The tab: the empty state exactly when there is no active row, otherwise
      one card per active row with the count in the heading. */
  function Render(loading: bool, isCompanyAdmin: bool, progress: seq<ProgressView>): (s: Screen)
    ensures loading <==> s.Skeleton?
    ensures loading ==> s.placeholders == 6
    ensures !loading ==> (s.EmptyState? <==> ActiveTrainings(progress) == [])
    ensures s.EmptyState? ==> s.message == if isCompanyAdmin then AdminEmpty else EmployeeEmpty
    ensures s.Cards? ==> s.heading == |s.cards| == |ActiveTrainings(progress)|
    ensures s.Cards? ==> forall i :: 0 <= i < |s.cards| ==>
      s.cards[i] == CardFor(isCompanyAdmin, ActiveTrainings(progress)[i])
  {
    var active := ActiveTrainings(progress);
    if loading then Skeleton(6)
    else if active == [] then EmptyState(if isCompanyAdmin then AdminEmpty else EmployeeEmpty)
    else Cards(|active|, Map(active, (v: ProgressView) => CardFor(isCompanyAdmin, v)))
  }
}

=== FILE: app_sidebar.dfy ===
/** The dashboard sidebar: which pages each role sees, and which entry is
    highlighted for the current location. */
module AppSidebarView {
  import opened Common
  import Text

  /** The sidebar's entries. */
  datatype Entry =
    | Dashboard | MyTrainings | ManageTrainings | Company | TeamManagement
    | MyProfile | AccountSettings | HelpCenter | Documentation
    | UserAccessControl | TrainingAnalytics | HrNotifications

  /** What an entry shows and links to (its icon is presentation and left out). */
  datatype Page = Page(title: string, url: string, description: string)

  /** The entry's title. */
  function Title(e: Entry): string {
    match e
    case Dashboard => "Dashboard"
    case MyTrainings => "My Trainings"
    case ManageTrainings => "Manage Trainings"
    case Company => "Company"
    case TeamManagement => "Team Management"
    case MyProfile => "My Profile"
    case AccountSettings => "Account Settings"
    case HelpCenter => "Help Center"
    case Documentation => "Documentation"
    case UserAccessControl => "User Access Control"
    case TrainingAnalytics => "Training Analytics"
    case HrNotifications => "HR Notifications"
  }

  /** The page the entry links to. */
  function Url(e: Entry): string {
    match e
    case Dashboard => "/dashboard"
    case MyTrainings => "/my-training"
    case ManageTrainings => "/manage-trainings"
    case Company => "/company"
    case TeamManagement => "/team-management"
    case MyProfile => "/profile"
    case AccountSettings => "/account-settings"
    case HelpCenter => "/help"
    case Documentation => "/docs"
    case UserAccessControl => "/admin/users"
    case TrainingAnalytics => "/admin/analytics"
    case HrNotifications => "/admin/notifications"
  }

  /** The line under the title. */
  function Description(e: Entry): string {
    match e
    case Dashboard => "Overview and metrics"
    case MyTrainings => "Your assigned trainings"
    case ManageTrainings => "Create and assign trainings"
    case Company => "Company resources"
    case TeamManagement => "Manage team members"
    case MyProfile => "Personal information"
    case AccountSettings => "Security and preferences"
    case HelpCenter => "Get assistance"
    case Documentation => "Platform guides"
    case UserAccessControl => "Manage user permissions"
    case TrainingAnalytics => "Performance insights"
    case HrNotifications => "System alerts"
  }

  function PageOf(e: Entry): Page {
    Page(Title(e), Url(e), Description(e))
  }

  /** `corePages`: the two admin-only entries are spread in at their places. */
  function CorePages(isCompanyAdmin: bool): (pages: seq<Entry>)
    ensures isCompanyAdmin ==> pages == [Dashboard, MyTrainings, ManageTrainings, Company, TeamManagement]
    ensures !isCompanyAdmin ==> pages == [Dashboard, MyTrainings, Company]
  {
    [Dashboard, MyTrainings]
    + (if isCompanyAdmin then [ManageTrainings] else [])
    + [Company]
    + (if isCompanyAdmin then [TeamManagement] else [])
  }

  /** `profilePages`. */
  function ProfilePages(): seq<Entry> {
    [MyProfile, AccountSettings]
  }

  /** `supportPages`. */
  function SupportPages(): seq<Entry> {
    [HelpCenter, Documentation]
  }

  /** `adminPages`: three entries for an admin, none otherwise. */
  function AdminPages(isCompanyAdmin: bool): (pages: seq<Entry>)
    ensures isCompanyAdmin <==> pages != []
    ensures isCompanyAdmin ==> |pages| == 3
  {
    if isCompanyAdmin then [UserAccessControl, TrainingAnalytics, HrNotifications] else []
  }

  /** The sidebar's groups in order: the core group, the profile group, the
      support group, and the "Admin Tools" group when `adminPages` is not empty. */
  function Groups(isCompanyAdmin: bool): (groups: seq<seq<Entry>>)
    ensures |groups| == if isCompanyAdmin then 4 else 3
    ensures groups[0] == CorePages(isCompanyAdmin)
    ensures groups[1] == ProfilePages() && groups[2] == SupportPages()
  {
    var admin := AdminPages(isCompanyAdmin);
    [CorePages(isCompanyAdmin), ProfilePages(), SupportPages()] + (if |admin| > 0 then [admin] else [])
  }

  /** The admin group is drawn exactly for an admin, and only it depends on
      the role: the profile and support groups are the same for everyone. */
  lemma AdminGroupOnlyForAdmins()
    ensures |Groups(true)| == 4 && Groups(true)[3] == AdminPages(true)
    ensures |Groups(false)| == 3
    ensures Groups(true)[1..3] == Groups(false)[1..3]
  {
  }

  predicate AdminOnly(p: Entry) {
    p == ManageTrainings || p == TeamManagement
  }

  /** An employee's core entries are the admin's with the two admin-only
      entries taken out, the rest in the same order. */
  lemma EmployeeCoreIsAdminCoreWithout()
    ensures CorePages(false) == CorePages(true)[..2] + CorePages(true)[3..4]
    ensures AdminOnly(CorePages(true)[2]) && AdminOnly(CorePages(true)[4])
    ensures forall e :: e in CorePages(false) <==> e in CorePages(true) && !AdminOnly(e)
  {
    var all := CorePages(true);
    assert all == [Dashboard, MyTrainings, ManageTrainings, Company, TeamManagement];
    assert CorePages(false) == [Dashboard, MyTrainings, Company];
  }

  /** `isActiveRoute(url)`: the location is the entry's URL or lies under it. */
  predicate IsActiveRoute(pathname: string, url: string) {
    pathname == url || Text.IsPrefix(url + "/", pathname)
  }

  /** Active means: the URL is a prefix of the location, which either ends
      there or continues with "/". */
  lemma ActiveRouteMeaning(pathname: string, url: string)
    ensures IsActiveRoute(pathname, url) <==>
      Text.IsPrefix(url, pathname) && (|pathname| == |url| || pathname[|url|] == '/')
  {
    if Text.IsPrefix(url, pathname) && |pathname| > |url| && pathname[|url|] == '/' {
      assert pathname[..|url| + 1] == pathname[..|url|] + [pathname[|url|]];
    }
    if Text.IsPrefix(url + "/", pathname) {
      assert pathname[..|url|] == (url + "/")[..|url|];
    }
  }

  /** "/dashboard" is active under "/dashboard/x" but not at "/dashboardx". */
  lemma ActiveRouteExamples()
    ensures IsActiveRoute("/dashboard/x", "/dashboard")
    ensures !IsActiveRoute("/dashboardx", "/dashboard")
  {
    ActiveRouteMeaning("/dashboard/x", "/dashboard");
    ActiveRouteMeaning("/dashboardx", "/dashboard");
    assert "/dashboard/x"[..10] == "/dashboard";
  }

  /** A URL of one segment: "/" and a word without "/". */
  predicate OneSegment(url: string) {
    |url| >= 2 && url[0] == '/' && forall k :: 1 <= k < |url| ==> url[k] != '/'
  }

  /** Two one-segment entries are never highlighted together: a location is
      under at most one of them. */
  lemma OneSegmentActiveUnique(pathname: string, u: string, v: string)
    requires OneSegment(u) && OneSegment(v)
    requires IsActiveRoute(pathname, u) && IsActiveRoute(pathname, v)
    ensures u == v
  {
    ActiveRouteMeaning(pathname, u);
    ActiveRouteMeaning(pathname, v);
    if |u| != |v| {
      assert false;
    }
    assert u == pathname[..|u|] == v;
  }

  /** Whether the entry is drawn highlighted at `pathname`. */
  predicate IsActive(pathname: string, e: Entry) {
    IsActiveRoute(pathname, Url(e))
  }

  /** Every core entry's URL is a single segment. */
  lemma CoreUrlsOneSegment(e: Entry)
    requires e in CorePages(true)
    ensures OneSegment(Url(e))
  {
  }

  /** At most one core entry is highlighted at any location. */
  lemma OneCoreEntryActive(pathname: string, e1: Entry, e2: Entry)
    requires e1 in CorePages(true) && e2 in CorePages(true)
    requires IsActive(pathname, e1) && IsActive(pathname, e2)
    ensures e1 == e2
  {
    CoreUrlsOneSegment(e1);
    CoreUrlsOneSegment(e2);
    OneSegmentActiveUnique(pathname, Url(e1), Url(e2));
  }
}

=== FILE: common.dfy ===
/** Shared value types and sequence combinators used by every view of the
    training portal: optional values, store outcomes, "key present or absent"
    payload fields, and order-preserving filtering and counting. */
module Common {

  datatype Option<+T> = None | Some(value: T) {
    function GetOr(default: T): T {
      match this
      case Some(v) => v
      case None => default
    }
  }

  /** The result of a call into the hosted store: a value or an error message. */
  datatype Result<+T> = Ok(value: T) | Err(message: string)

  /** One key of an upsert/update payload: either left out of the object
      (the stored column is kept) or written with the given value. */
  datatype Field<+T> = Absent | Given(value: T)

  /** Array.prototype.filter: the elements satisfying `f`, in their original order. */
  function Filter<T>(s: seq<T>, f: T -> bool): (r: seq<T>)
    ensures |r| <= |s|
    ensures forall i :: 0 <= i < |r| ==> f(r[i]) && r[i] in s
    ensures forall i :: 0 <= i < |s| && f(s[i]) ==> s[i] in r
    ensures multiset(r) <= multiset(s)
  {
    if s == [] then []
    else
      assert s == [s[0]] + s[1..];
      (if f(s[0]) then [s[0]] else []) + Filter(s[1..], f)
  }

  /** Filtering distributes over concatenation, so relative order is kept. */
  lemma {:induction false} FilterAppend<T>(a: seq<T>, b: seq<T>, f: T -> bool)
    ensures Filter(a + b, f) == Filter(a, f) + Filter(b, f)
  {
    if a == [] {
      assert a + b == b;
    } else {
      assert (a + b)[1..] == a[1..] + b;
      FilterAppend(a[1..], b, f);
    }
  }

  /** A one-element list keeps its element exactly when it passes. */
  lemma FilterSingle<T>(x: T, f: T -> bool)
    ensures Filter([x], f) == if f(x) then [x] else []
  {
    assert [x][1..] == [];
  }

  /** A kept first element stays first. */
  lemma FilterKeptHead<T>(x: T, b: seq<T>, f: T -> bool)
    requires f(x)
    ensures Filter([x] + b, f) == [x] + Filter(b, f)
  {
    assert ([x] + b)[1..] == b;
  }

  /** Filtering around a kept element: the kept elements before it, the
      element, the kept elements after it. */
  lemma FilterAround<T>(s: seq<T>, i: nat, f: T -> bool)
    requires i < |s| && f(s[i])
    ensures Filter(s, f) == Filter(s[..i], f) + [s[i]] + Filter(s[i + 1..], f)
  {
    assert s[i..] == [s[i]] + s[i + 1..];
    assert s == s[..i] + s[i..];
    FilterAppend(s[..i], s[i..], f);
    FilterKeptHead(s[i], s[i + 1..], f);
  }

  /** Filtering keeps everything exactly when every element passes. */
  lemma {:induction false} FilterAll<T>(s: seq<T>, f: T -> bool)
    requires forall i :: 0 <= i < |s| ==> f(s[i])
    ensures Filter(s, f) == s
  {
    if s != [] {
      FilterAll(s[1..], f);
    }
  }

  /** Filtering keeps nothing when no element passes. */
  lemma {:induction false} FilterNone<T>(s: seq<T>, f: T -> bool)
    requires forall i :: 0 <= i < |s| ==> !f(s[i])
    ensures Filter(s, f) == []
  {
    if s != [] {
      FilterNone(s[1..], f);
    }
  }

  /** The number of elements satisfying `f` (`s.filter(f).length`). */
  function Count<T>(s: seq<T>, f: T -> bool): (n: nat)
    ensures n <= |s|
  {
    |Filter(s, f)|
  }

  /** Counting peels off the first element. */
  lemma CountCons<T>(s: seq<T>, f: T -> bool)
    requires s != []
    ensures Count(s, f) == (if f(s[0]) then 1 else 0) + Count(s[1..], f)
  {
  }

  /** Counting peels off the last element. */
  lemma CountSnoc<T>(s: seq<T>, f: T -> bool)
    requires s != []
    ensures Count(s, f) == Count(s[..|s| - 1], f) + (if f(s[|s| - 1]) then 1 else 0)
  {
    assert s == s[..|s| - 1] + [s[|s| - 1]];
    CountAppend(s[..|s| - 1], [s[|s| - 1]], f);
  }

  lemma {:induction false} CountAppend<T>(a: seq<T>, b: seq<T>, f: T -> bool)
    ensures Count(a + b, f) == Count(a, f) + Count(b, f)
  {
    FilterAppend(a, b, f);
  }

  /** Counting the elements of a filtered list that pass a second test is
      counting, in the whole list, the elements that pass both. */
  lemma {:induction false} CountOfFilter<T>(s: seq<T>, f: T -> bool, g: T -> bool, both: T -> bool)
    requires forall i :: 0 <= i < |s| ==> both(s[i]) == (f(s[i]) && g(s[i]))
    ensures Count(Filter(s, f), g) == Count(s, both)
  {
    if s != [] {
      var head := if f(s[0]) then [s[0]] else [];
      assert Filter(s, f) == head + Filter(s[1..], f);
      CountAppend(head, Filter(s[1..], f), g);
      FilterSingle(s[0], g);
      CountCons(s, both);
      CountOfFilter(s[1..], f, g, both);
    }
  }

  /** Array.prototype.find: the first element satisfying `f`, if any. */
  function Find<T>(s: seq<T>, f: T -> bool): (r: Option<T>)
    ensures r.None? <==> forall i :: 0 <= i < |s| ==> !f(s[i])
    ensures r.Some? ==> exists i :: 0 <= i < |s| && s[i] == r.value && f(s[i]) && forall j :: 0 <= j < i ==> !f(s[j])
  {
    if s == [] then None
    else if f(s[0]) then Some(s[0])
    else
      var r := Find(s[1..], f);
      assert r.Some? ==> exists i :: 0 <= i < |s| && s[i] == r.value && f(s[i]) && forall j :: 0 <= j < i ==> !f(s[j]) by {
        if r.Some? {
          var k :| 0 <= k < |s[1..]| && s[1..][k] == r.value && f(s[1..][k]) && forall j :: 0 <= j < k ==> !f(s[1..][j]);
          assert s[k + 1] == r.value && forall j :: 0 <= j < k + 1 ==> !f(s[j]);
        }
      }
      r
  }

  /** The set of values a sequence holds; never larger than the sequence. */
  function Elements<T>(s: seq<T>): (r: set<T>)
    ensures |r| <= |s|
    ensures forall i :: 0 <= i < |s| ==> s[i] in r
    ensures forall x :: x in r ==> x in s
  {
    if s == [] then {} else {s[0]} + Elements(s[1..])
  }

  /** Array.prototype.slice(0, n). */
  function Take<T>(s: seq<T>, n: nat): (r: seq<T>)
    ensures |r| == if |s| <= n then |s| else n
    ensures forall i :: 0 <= i < |r| ==> r[i] == s[i]
  {
    if |s| <= n then s else s[..n]
  }

  /** Array.prototype.map. */
  function Map<T, U>(s: seq<T>, f: T -> U): (r: seq<U>)
    ensures |r| == |s|
    ensures forall i :: 0 <= i < |s| ==> r[i] == f(s[i])
  {
    seq(|s|, i requires 0 <= i < |s| => f(s[i]))
  }
}

=== FILE: company_overview.dfy ===
/** The company dashboard's headline numbers: employees, active modules,
    completed and in-progress rows, and the rounded average percentage. */
module CompanyOverviewView {
  import opened Common
  import opened Types
  import opened Rates
  import opened Tally

  /** `DashboardStats`. */
  datatype DashboardStats = DashboardStats(
    totalEmployees: nat,
    totalModules: nat,
    completedTrainings: nat,
    inProgressTrainings: nat,
    averageProgress: int)

  /** The state before any fetch. */
  const InitialStats: DashboardStats := DashboardStats(0, 0, 0, 0, 0)

  /** The `reduce` of the percentages, nulls counted as 0. */
  function SumPercent(rows: seq<ProgressRow>): int {
    if rows == [] then 0 else SumPercent(rows[..|rows| - 1]) + PercentOrZero(rows[|rows| - 1].progressPercentage)
  }

  predicate PercentagesInRange(rows: seq<ProgressRow>) {
    forall i :: 0 <= i < |rows| ==> 0 <= PercentOrZero(rows[i].progressPercentage) <= 100
  }

  /** Percentages in 0..100 add up to between 0 and 100 per row. */
  lemma {:induction false} SumPercentBounds(rows: seq<ProgressRow>)
    requires PercentagesInRange(rows)
    ensures 0 <= SumPercent(rows) <= 100 * |rows|
  {
    if rows != [] {
      SumPercentBounds(rows[..|rows| - 1]);
    }
  }

  /** `Math.round(sum / rows)`, or 0 without rows. */
  function AverageProgress(rows: seq<ProgressRow>): (avg: int)
    ensures rows == [] ==> avg == 0
    ensures rows != [] ==>
      2 * |rows| * avg <= 2 * SumPercent(rows) + |rows| < 2 * |rows| * avg + 2 * |rows|
  {
    if |rows| > 0 then RoundDiv(SumPercent(rows), |rows|) else 0
  }

  /** When every percentage is in 0..100, so is the average. */
  lemma AverageIsPercentage(rows: seq<ProgressRow>)
    requires PercentagesInRange(rows)
    ensures 0 <= AverageProgress(rows) <= 100
  {
    if rows != [] {
      SumPercentBounds(rows);
      RoundDivWithin(SumPercent(rows), |rows|, 0, 100);
    }
  }

  /** The numbers from the three reads: every profile of the company (admins
      included), the active modules, and the progress rows of those profiles. */
  function StatsFrom(employees: seq<UserProfile>, activeModuleIds: seq<string>, progress: seq<ProgressRow>)
    : (s: DashboardStats)
    ensures s.totalEmployees == |employees| && s.totalModules == |activeModuleIds|
    ensures s.completedTrainings == CountStatus(progress, RowStatus, Some(Completed))
    ensures s.inProgressTrainings == CountStatus(progress, RowStatus, Some(InProgress))
    ensures s.completedTrainings + s.inProgressTrainings <= |progress|
    ensures s.averageProgress == AverageProgress(progress)
  {
    StatusCountsBound(progress, RowStatus);
    DashboardStats(
      |employees|,
      |activeModuleIds|,
      CountStatus(progress, RowStatus, Some(Completed)),
      CountStatus(progress, RowStatus, Some(InProgress)),
      AverageProgress(progress))
  }

  /** `fetchDashboardStats`: without a company, or when any of the three
      reads fails, the stats already shown stay. */
  function FetchDashboardStats(companyId: Option<string>, employees: Result<seq<UserProfile>>,
                               activeModuleIds: Result<seq<string>>, progress: Result<seq<ProgressRow>>,
                               current: DashboardStats): (s: DashboardStats)
    ensures !Present(companyId) || employees.Err? || activeModuleIds.Err? || progress.Err? ==> s == current
    ensures Present(companyId) && employees.Ok? && activeModuleIds.Ok? && progress.Ok? ==>
      s == StatsFrom(employees.value, activeModuleIds.value, progress.value)
  {
    if !Present(companyId) || employees.Err? || activeModuleIds.Err? || progress.Err? then current
    else StatsFrom(employees.value, activeModuleIds.value, progress.value)
  }
}

=== FILE: company_settings.dfy ===
/** The company settings form: it starts from the stored company with nulls
    shown as empty inputs, edits one field at a time, and saves with empty
    inputs sent back as null. */
module CompanySettingsView {
  import opened Common

  /** The `Company` the form is opened on. */
  datatype Company = Company(
    id: string,
    name: string,
    logoUrl: Option<string>,
    description: Option<string>,
    mission: Option<string>,
    createdAt: Option<nat>)

  /** `formData`: every input holds a string. */
  datatype SettingsForm = SettingsForm(name: string, description: string, mission: string, logoUrl: string)

  /** The inputs `handleInputChange` is called with. */
  datatype CompanyField = Name | Description | Mission | LogoUrl

  /** `value || ''`. */
  function EmptyIfNull(v: Option<string>): (s: string)
    ensures v.Some? ==> s == v.value
    ensures v.None? ==> s == ""
  {
    v.GetOr("")
  }

  /** `value || null`. */
  function NullIfEmpty(s: string): (v: Option<string>)
    ensures v.None? <==> s == ""
    ensures v.Some? ==> v.value == s
  {
    if s == "" then None else Some(s)
  }

  /** The two conversions undo each other except on a stored "", which comes
      back as null. */
  lemma NullRoundTrip(v: Option<string>)
    ensures NullIfEmpty(EmptyIfNull(v)) == v <==> v != Some("")
    ensures EmptyIfNull(NullIfEmpty(EmptyIfNull(v))) == EmptyIfNull(v)
  {
  }

  /** The form's starting values: the name as stored, and the three nullable
      columns with null shown as "". */
  function InitForm(c: Company): (f: SettingsForm)
    ensures f.name == c.name
    ensures f.description == EmptyIfNull(c.description)
    ensures f.mission == EmptyIfNull(c.mission)
    ensures f.logoUrl == EmptyIfNull(c.logoUrl)
  {
    SettingsForm(c.name, EmptyIfNull(c.description), EmptyIfNull(c.mission), EmptyIfNull(c.logoUrl))
  }

  /** What an input shows. */
  function Get(f: SettingsForm, field: CompanyField): string {
    match field
    case Name => f.name
    case Description => f.description
    case Mission => f.mission
    case LogoUrl => f.logoUrl
  }

  /** `{ ...prev, [field]: value }`. */
  function WithField(f: SettingsForm, field: CompanyField, value: string): (g: SettingsForm)
    ensures Get(g, field) == value
    ensures forall other :: other != field ==> Get(g, other) == Get(f, other)
  {
    match field
    case Name => f.(name := value)
    case Description => f.(description := value)
    case Mission => f.(mission := value)
    case LogoUrl => f.(logoUrl := value)
  }

  /** Two forms are the same when every input shows the same value. */
  lemma FormsByInputs(f: SettingsForm, g: SettingsForm)
    requires forall field :: Get(f, field) == Get(g, field)
    ensures f == g
  {
    assert Get(f, Name) == Get(g, Name) && Get(f, Description) == Get(g, Description);
    assert Get(f, Mission) == Get(g, Mission) && Get(f, LogoUrl) == Get(g, LogoUrl);
  }

  /** Typing the value an input already shows changes nothing, and of two
      edits to the same input the later one wins. */
  lemma EditLaws(f: SettingsForm, field: CompanyField, a: string, b: string)
    ensures WithField(f, field, Get(f, field)) == f
    ensures WithField(WithField(f, field, a), field, b) == WithField(f, field, b)
  {
    FormsByInputs(WithField(f, field, Get(f, field)), f);
    FormsByInputs(WithField(WithField(f, field, a), field, b), WithField(f, field, b));
  }

  /** The `update` sent for the company. */
  datatype CompanyUpdate = CompanyUpdate(
    name: string,
    description: Option<string>,
    mission: Option<string>,
    logoUrl: Option<string>)

  /** The save: the name as typed (even ""), and "" sent as null for the
      three other columns. */
  function SavePayload(f: SettingsForm): (u: CompanyUpdate)
    ensures u.name == f.name
    ensures u.description == NullIfEmpty(f.description)
    ensures u.mission == NullIfEmpty(f.mission)
    ensures u.logoUrl == NullIfEmpty(f.logoUrl)
  {
    CompanyUpdate(f.name, NullIfEmpty(f.description), NullIfEmpty(f.mission), NullIfEmpty(f.logoUrl))
  }

  /** The stored company after the store accepts an update. */
  function ApplyUpdate(c: Company, u: CompanyUpdate): (d: Company)
    ensures d.id == c.id && d.createdAt == c.createdAt
    ensures d.name == u.name && d.description == u.description
    ensures d.mission == u.mission && d.logoUrl == u.logoUrl
  {
    c.(name := u.name, description := u.description, mission := u.mission, logoUrl := u.logoUrl)
  }

  /** Saving an unedited form leaves the company as it was, null included,
      exactly when none of the three nullable columns holds "" (a stored ""
      comes back as null). */
  lemma UneditedSaveRoundTrip(c: Company)
    ensures ApplyUpdate(c, SavePayload(InitForm(c))) == c <==>
      c.description != Some("") && c.mission != Some("") && c.logoUrl != Some("")
  {
    NullRoundTrip(c.description);
    NullRoundTrip(c.mission);
    NullRoundTrip(c.logoUrl);
  }

  /** Reopening the form on the saved company shows what was typed. */
  lemma SaveThenReopen(c: Company, f: SettingsForm)
    ensures InitForm(ApplyUpdate(c, SavePayload(f))) == f
  {
  }

  /** The form's state. */
  class CompanySettingsEditor {
    var form: SettingsForm
    var saving: bool

    constructor (company: Company)
      ensures form == InitForm(company) && !saving
    {
      form := InitForm(company);
      saving := false;
    }

    /** `handleInputChange`: only the named input changes. */
    method HandleInputChange(field: CompanyField, value: string)
      modifies this
      ensures form == WithField(old(form), field, value)
      ensures saving == old(saving)
    {
      form := WithField(form, field, value);
    }

    /** `handleSave`: sends the normalised form for the company's id; the
        parent's `onCompanyUpdate` runs (`notified`) only when the store
        accepts it; the form is kept and the saving flag is down either way. */
    method HandleSave(company: Company, storeError: Option<string>)
      returns (target: string, sent: CompanyUpdate, notified: bool)
      modifies this
      ensures target == company.id && sent == SavePayload(old(form))
      ensures notified <==> storeError.None?
      ensures form == old(form) && !saving
    {
      saving := true;
      target, sent := company.id, SavePayload(form);
      notified := storeError.None?;
      saving := false;
    }
  }
}

=== FILE: completed_trainings.dfy ===
/** The "Completed Trainings" tab: the finished rows, each drawn as 100%
    complete with its dates. */
module CompletedTrainingsView {
  import opened Common
  import opened Types
  import opened Tally
  import opened EmployeeProgressHook
  import ActiveTrainingsView

  function IsCompleted(): ProgressView -> bool {
    (v: ProgressView) => v.row.status == Some(Completed)
  }

  /** `completedTrainings`: the rows whose status is `completed`, in list order. */
  function CompletedTrainings(progress: seq<ProgressView>): (r: seq<ProgressView>)
    ensures forall i :: 0 <= i < |r| ==> r[i] in progress && r[i].row.status == Some(Completed)
    ensures forall i :: 0 <= i < |progress| && progress[i].row.status == Some(Completed) ==> progress[i] in r
  {
    var r := Filter(progress, IsCompleted());
    assert forall i :: 0 <= i < |r| ==> IsCompleted()(r[i]);
    r
  }

  /** The completed rows keep their relative order. */
  lemma CompletedKeepsOrder(a: seq<ProgressView>, b: seq<ProgressView>)
    ensures CompletedTrainings(a + b) == CompletedTrainings(a) + CompletedTrainings(b)
  {
    FilterAppend(a, b, IsCompleted());
  }

  /** The heading's number is the count of `completed` rows. */
  lemma {:induction false} CompletedCount(progress: seq<ProgressView>)
    ensures |CompletedTrainings(progress)| == CountStatus(progress, ViewStatus, Some(Completed))
  {
    if progress != [] {
      CompletedCount(progress[1..]);
      CountCons(progress, IsCompleted());
      CountCons(progress, HasStatus(ViewStatus, Some(Completed)));
      var v := progress[0];
      assert IsCompleted()(v) == (v.row.status == Some(Completed));
      assert HasStatus(ViewStatus, Some(Completed))(v) == (ViewStatus(v) == Some(Completed));
    }
  }

  /** The empty state is drawn exactly when no row is completed. */
  lemma EmptyIffNoneCompleted(progress: seq<ProgressView>)
    ensures CompletedTrainings(progress) == [] <==>
      forall i :: 0 <= i < |progress| ==> progress[i].row.status != Some(Completed)
  {
    var r := CompletedTrainings(progress);
    if r != [] {
      assert r[0] in progress;
    }
  }

  /** The two tabs split the list: every row with a status is on exactly one
      of them, so their counts add up to the row count less the null-status
      rows. */
  lemma TabsPartitionRows(progress: seq<ProgressView>)
    ensures |ActiveTrainingsView.ActiveTrainings(progress)| + |CompletedTrainings(progress)|
          + CountStatus(progress, ViewStatus, None) == |progress|
    ensures forall i :: 0 <= i < |progress| ==>
      !(progress[i] in ActiveTrainingsView.ActiveTrainings(progress) && progress[i].row.status == Some(Completed))
  {
    ActiveTrainingsView.ActiveCount(progress);
    CompletedCount(progress);
    StatusPartition(progress, ViewStatus);
    forall i | 0 <= i < |progress|
      ensures !(progress[i] in ActiveTrainingsView.ActiveTrainings(progress) && progress[i].row.status == Some(Completed))
    {
      var active := ActiveTrainingsView.ActiveTrainings(progress);
      if progress[i] in active {
        var j :| 0 <= j < |active| && active[j] == progress[i];
      }
    }
  }

  /** One card of the tab. */
  datatype CompletedCard = CompletedCard(
    title: string,
    employeeLine: Option<string>,
    completion: string,
    startedAt: Option<nat>,
    completedAt: Option<nat>,
    moduleId: string)

  /** A card: always "100% Complete", whatever percentage is stored; the
      employee's name for an admin when not empty; each date only when set. */
  function CardFor(isCompanyAdmin: bool, v: ProgressView): (c: CompletedCard)
    ensures c.completion == "100% Complete"
    ensures c.title == ActiveTrainingsView.CardTitle(v)
    ensures c.employeeLine.Some? <==> isCompanyAdmin && v.employeeName != []
    ensures c.employeeLine.Some? ==> c.employeeLine.value == v.employeeName
    ensures c.startedAt == v.row.startedAt
    ensures c.completedAt.Some? <==> v.row.completedAt.Some?
    ensures c.completedAt.Some? ==> c.completedAt == v.row.completedAt
  {
    CompletedCard(
      ActiveTrainingsView.CardTitle(v),
      if isCompanyAdmin && v.employeeName != [] then Some(v.employeeName) else None,
      "100% Complete",
      v.row.startedAt,
      v.row.completedAt,
      v.row.moduleId)
  }

  datatype Screen =
    | Skeleton(placeholders: nat)
    | EmptyState(message: string)
    | Cards(heading: nat, cards: seq<CompletedCard>)

  const AdminEmpty: string := "No employees have completed training modules yet."
  const EmployeeEmpty: string := "You haven't completed any training modules yet. Keep working on your active trainings!"

  /** The tab: placeholders while loading, the empty state exactly when no
      row is completed, otherwise one card per completed row. */
  function Render(loading: bool, isCompanyAdmin: bool, progress: seq<ProgressView>): (s: Screen)
    ensures loading <==> s.Skeleton?
    ensures loading ==> s.placeholders == 6
    ensures !loading ==> (s.EmptyState? <==> CompletedTrainings(progress) == [])
    ensures s.EmptyState? ==> s.message == if isCompanyAdmin then AdminEmpty else EmployeeEmpty
    ensures s.Cards? ==> s.heading == |s.cards| == |CompletedTrainings(progress)|
    ensures s.Cards? ==> forall i :: 0 <= i < |s.cards| ==>
      s.cards[i] == CardFor(isCompanyAdmin, CompletedTrainings(progress)[i])
  {
    var done := CompletedTrainings(progress);
    if loading then Skeleton(6)
    else if done == [] then EmptyState(if isCompanyAdmin then AdminEmpty else EmployeeEmpty)
    else Cards(|done|, Map(done, (v: ProgressView) => CardFor(isCompanyAdmin, v)))
  }
}

=== FILE: create_module_dialog.dfy ===
/** The "Create Training Module" dialog: its form, the two checks made
    before anything is sent, the insert it sends, and the reset after a
    successful create. */
module CreateModuleDialogView {
  import opened Common
  import opened Types
  import Text

  /** `formData`. */
  datatype DialogForm = DialogForm(title: string, description: string, isActive: bool)

  /** The form when the dialog first opens and after a successful create. */
  const BlankForm: DialogForm := DialogForm("", "", true)

  /** The two reasons a create is refused before anything is sent. */
  datatype Refusal = BlankTitle | NoCompany

  /** The error toast for each refusal. */
  function Message(r: Refusal): string {
    match r
    case BlankTitle => "Please enter a module title."
    case NoCompany => "No company associated with your account."
  }

  /** The reason a create is refused, if any: a blank title is reported
      first, then a missing company. */
  function RefusalFor(form: DialogForm, companyId: Option<string>): (r: Option<Refusal>)
    ensures r == Some(BlankTitle) <==> Text.AllSpace(form.title)
    ensures r == Some(NoCompany) <==> !Text.AllSpace(form.title) && !Present(companyId)
    ensures r.None? <==> !Text.AllSpace(form.title) && Present(companyId)
  {
    Text.TrimEmptyIffBlank(form.title);
    if Text.Trim(form.title) == "" then Some(BlankTitle)
    else if !Present(companyId) then Some(NoCompany)
    else None
  }

  /** The insert: the title trimmed, the description trimmed with "" sent as
      null, the switch's value, and the profile's company. */
  function InsertFor(form: DialogForm, companyId: string): (ins: ModuleInsert)
    ensures ins.companyId == companyId
    ensures ins.title == Text.Trim(form.title)
    ensures ins.isActive == Given(Some(form.isActive))
    ensures ins.description.Given?
    ensures ins.description.value.None? <==> Text.AllSpace(form.description)
    ensures ins.description.value.Some? ==> ins.description.value.value == Text.Trim(form.description)
  {
    Text.TrimEmptyIffBlank(form.description);
    var d := Text.Trim(form.description);
    ModuleInsert(companyId, Text.Trim(form.title), Given(if d == "" then None else Some(d)), Given(Some(form.isActive)))
  }

  /** What is sent has no white space at either end and is already in the
      form a second trim would give, and an accepted title is never empty. */
  lemma InsertIsTrimmed(form: DialogForm, companyId: Option<string>)
    requires RefusalFor(form, companyId).None?
    ensures var ins := InsertFor(form, companyId.value);
            ins.title != "" && Text.Trim(ins.title) == ins.title
            && (ins.description.value.Some? ==>
                  ins.description.value.value != "" && Text.Trim(ins.description.value.value) == ins.description.value.value)
  {
    Text.TrimEmptyIffBlank(form.title);
    Text.TrimIdempotent(form.title);
    Text.TrimIdempotent(form.description);
  }

  /** How a press of Create ended. */
  datatype CreateOutcome =
    | Refused(reason: Refusal)
    | Failed(sent: ModuleInsert)
    | Created(sent: ModuleInsert)

  /** The outcome of pressing Create: a refusal sends nothing; otherwise the
      insert is sent, and the store's answer decides between success and
      failure. */
  function OutcomeFor(form: DialogForm, companyId: Option<string>, storeError: Option<string>): (o: CreateOutcome)
    ensures RefusalFor(form, companyId).Some? ==> o == Refused(RefusalFor(form, companyId).value)
    ensures RefusalFor(form, companyId).None? && storeError.None? ==> o == Created(InsertFor(form, companyId.value))
    ensures RefusalFor(form, companyId).None? && storeError.Some? ==> o == Failed(InsertFor(form, companyId.value))
  {
    var refusal := RefusalFor(form, companyId);
    if refusal.Some? then Refused(refusal.value)
    else if storeError.None? then Created(InsertFor(form, companyId.value))
    else Failed(InsertFor(form, companyId.value))
  }

  /** The dialog's state; `open` is the parent's flag the dialog closes
      through `onOpenChange(false)`. */
  class CreateModuleDialog {
    var form: DialogForm
    var creating: bool
    var open: bool

    constructor (open: bool)
      ensures form == BlankForm && !creating && this.open == open
    {
      form := BlankForm;
      creating := false;
      this.open := open;
    }

    /** `handleInputChange('title', value)`. */
    method SetTitle(value: string)
      modifies this
      ensures form == old(form).(title := value)
      ensures creating == old(creating) && open == old(open)
    {
      form := form.(title := value);
    }

    /** `handleInputChange('description', value)`. */
    method SetDescription(value: string)
      modifies this
      ensures form == old(form).(description := value)
      ensures creating == old(creating) && open == old(open)
    {
      form := form.(description := value);
    }

    /** `handleInputChange('is_active', value)`. */
    method SetActive(value: bool)
      modifies this
      ensures form == old(form).(isActive := value)
      ensures creating == old(creating) && open == old(open)
    {
      form := form.(isActive := value);
    }

    /** `handleCreate`: a refused create sends nothing and changes nothing;
        otherwise the insert is sent; when the store accepts it the form is
        reset, the dialog closes and the parent is told (`notified`); when
        the store refuses it the form is kept and the parent is not told. */
    method HandleCreate(companyId: Option<string>, storeError: Option<string>)
      returns (outcome: CreateOutcome, notified: bool)
      modifies this
      ensures outcome == OutcomeFor(old(form), companyId, storeError)
      ensures outcome.Created? ==> form == BlankForm && !open
      ensures !outcome.Created? ==> form == old(form) && open == old(open)
      ensures creating == (old(creating) && outcome.Refused?)
      ensures notified <==> outcome.Created?
    {
      outcome := OutcomeFor(form, companyId, storeError);
      if outcome.Refused? {
        return outcome, false;
      }
      creating := true;
      if outcome.Created? {
        form := BlankForm;
        open := false;
      }
      notified := outcome.Created?;
      creating := false;
    }
  }

  /** A blank title is refused even when the company is missing too: the
      title is checked first. */
  lemma TitleCheckedFirst(form: DialogForm)
    requires Text.AllSpace(form.title)
    ensures RefusalFor(form, None) == Some(BlankTitle)
  {
  }
}

=== FILE: dashboard_header.dfy ===
/** The dashboard header's breadcrumb trail, derived from the current URL path. */
module DashboardHeaderView {
  import opened Common
  import Text

  /** One breadcrumb: the text shown and the link it points to. */
  datatype Crumb = Crumb(name: string, path: string)

  /** The first crumb of every trail. */
  const Home: Crumb := Crumb("Dashboard", "/dashboard")

  /** `.filter(Boolean)` on the pieces: the non-empty ones, in order. */
  function DropEmpty(pieces: seq<string>): (r: seq<string>)
    ensures |r| <= |pieces|
    ensures forall i :: 0 <= i < |r| ==> r[i] != ""
    ensures (forall k :: 0 <= k < |pieces| ==> '/' !in pieces[k]) ==> forall i :: 0 <= i < |r| ==> '/' !in r[i]
  {
    if pieces == [] then []
    else (if pieces[0] == "" then [] else [pieces[0]]) + DropEmpty(pieces[1..])
  }

  /** Pieces that are all non-empty are kept as they are. */
  lemma {:induction false} DropEmptyKeepsFull(pieces: seq<string>)
    requires forall k :: 0 <= k < |pieces| ==> pieces[k] != ""
    ensures DropEmpty(pieces) == pieces
  {
    if pieces != [] {
      DropEmptyKeepsFull(pieces[1..]);
    }
  }

  /** `path.split('/').filter(Boolean)`. */
  function Segments(path: string): (segs: seq<string>)
    ensures forall i :: 0 <= i < |segs| ==> segs[i] != "" && '/' !in segs[i]
  {
    DropEmpty(Text.Split(path, '/'))
  }

  /** The `pathMap` record. */
  const PathMap: map<string, string> := map[
    "my-training" := "My Training",
    "manage-trainings" := "Manage Trainings",
    "company" := "Company",
    "team-management" := "Team Management",
    "profile" := "My Profile",
    "account-settings" := "Account Settings",
    "help" := "Help Center",
    "docs" := "Documentation",
    "admin" := "Admin"]

  /** A segment's label: its `pathMap` entry, or the segment with its first
      character upper-cased. */
  function CrumbName(segment: string): string
  {
    if segment in PathMap then PathMap[segment] else Text.Capitalize(segment)
  }

  /** A mapped segment shows its entry; any other keeps its length, with its
      first character upper-cased and the rest as typed. */
  lemma CrumbNameShape(segment: string)
    ensures segment in PathMap ==> CrumbName(segment) == PathMap[segment]
    ensures segment !in PathMap ==> |CrumbName(segment)| == |segment|
    ensures segment !in PathMap && segment != [] ==>
      CrumbName(segment)[0] == Text.UpperChar(segment[0]) && CrumbName(segment)[1..] == segment[1..]
  {
  }

  /** The link of crumb `i + 1`: "/" and the segments up to and including
      segment `i`, each preceded by "/". */
  function CrumbPath(segs: seq<string>, i: nat): string
    requires i < |segs|
  {
    if i == 0 then "/" + segs[0] else CrumbPath(segs, i - 1) + "/" + segs[i]
  }

  /** A crumb's link starts with "/" and ends with "/" and its own segment. */
  lemma {:induction false} CrumbPathEnds(segs: seq<string>, i: nat)
    requires i < |segs|
    ensures var path := CrumbPath(segs, i);
      |path| > |segs[i]| && path[0] == '/' &&
      path[|path| - |segs[i]| - 1] == '/' && path[|path| - |segs[i]|..] == segs[i]
  {
    if i > 0 {
      CrumbPathEnds(segs, i - 1);
    }
  }

  /** That is the source's `'/' + segments.slice(0, i + 1).join('/')`. */
  lemma {:induction false} CrumbPathIsJoin(segs: seq<string>, i: nat)
    requires i < |segs|
    ensures CrumbPath(segs, i) == "/" + Text.Join(segs[..i + 1], '/')
  {
    if i > 0 {
      CrumbPathIsJoin(segs, i - 1);
      assert segs[..i + 1] == segs[..i] + [segs[i]];
      Text.JoinSnoc(segs[..i], segs[i], '/');
    } else {
      assert segs[..1] == [segs[0]];
    }
  }

  /** Dashboard followed by one crumb per segment, each named by `name` and
      linking to the path up to and including its segment. */
  function Trail(segs: seq<string>, name: string -> string): (crumbs: seq<Crumb>)
    ensures |crumbs| == |segs| + 1 && crumbs[0] == Home
  {
    if segs == [] then [Home]
    else Trail(segs[..|segs| - 1], name) + [Crumb(name(segs[|segs| - 1]), CrumbPath(segs, |segs| - 1))]
  }

  /** The trail `getBreadcrumbs` returns for a path: Dashboard alone for the
      root and for exactly "/dashboard", otherwise the trail of its segments. */
  function Breadcrumbs(path: string): (crumbs: seq<Crumb>)
    ensures |crumbs| >= 1 && crumbs[0] == Home
    ensures Segments(path) == [] || path == "/dashboard" ==> crumbs == [Home]
    ensures Segments(path) != [] && path != "/dashboard" ==> crumbs == Trail(Segments(path), CrumbName)
  {
    var segs := Segments(path);
    if segs == [] || path == "/dashboard" then [Home] else Trail(segs, CrumbName)
  }

  /** `getBreadcrumbs`: the `forEach` that pushes one crumb per segment. */
  method GetBreadcrumbs(path: string) returns (crumbs: seq<Crumb>)
    ensures crumbs == Breadcrumbs(path)
  {
    var segments := Segments(path);
    if |segments| == 0 || path == "/dashboard" {
      return [Home];
    }
    crumbs := [Home];
    var index := 0;
    while index < |segments|
      invariant 0 <= index <= |segments|
      invariant crumbs == Trail(segments[..index], CrumbName)
    {
      var segment := segments[index];
      crumbs := crumbs + [Crumb(CrumbName(segment), "/" + Text.Join(segments[..index + 1], '/'))];
      CrumbPathIsJoin(segments, index);
      CrumbPathPrefix(segments, index + 1, index);
      assert segments[..index + 1][..index] == segments[..index];
      index := index + 1;
    }
    assert segments[..index] == segments;
  }

  /** A crumb's link only depends on the segments up to its own. */
  lemma {:induction false} CrumbPathPrefix(segs: seq<string>, n: nat, j: nat)
    requires j < n <= |segs|
    ensures CrumbPath(segs[..n], j) == CrumbPath(segs, j)
  {
    if j > 0 {
      CrumbPathPrefix(segs, n, j - 1);
    }
  }

  /** Crumb `i + 1` of the trail is the label of segment `i` and the path up
      to and including it. */
  lemma {:induction false} TrailAt(segs: seq<string>, name: string -> string, i: nat)
    requires i < |segs|
    ensures Trail(segs, name)[i + 1] == Crumb(name(segs[i]), CrumbPath(segs, i))
  {
    var n := |segs|;
    var short := segs[..n - 1];
    var last := Crumb(name(segs[n - 1]), CrumbPath(segs, n - 1));
    assert Trail(segs, name) == Trail(short, name) + [last];
    if i < n - 1 {
      TrailAt(short, name, i);
      CrumbPathPrefix(segs, n - 1, i);
      assert short[i] == segs[i];
      assert Trail(segs, name)[i + 1] == Trail(short, name)[i + 1];
    } else {
      assert Trail(segs, name)[n] == last;
    }
  }

  /** A string is a proper prefix of itself extended by "/" and more. */
  lemma ExtendedPrefix(a: string, b: string)
    ensures Text.IsPrefix(a, a + "/" + b) && |a| < |a + "/" + b|
  {
    assert (a + "/" + b)[..|a|] == a;
  }

  /** From the first segment crumb on, each crumb's link is the previous
      one's with "/" and the next segment appended, so it is a proper prefix
      of the next one's. */
  lemma PathsArePrefixes(segs: seq<string>, name: string -> string, i: nat)
    requires 1 <= i < |segs|
    ensures Trail(segs, name)[i].path == CrumbPath(segs, i - 1)
    ensures Trail(segs, name)[i + 1].path == CrumbPath(segs, i) == CrumbPath(segs, i - 1) + "/" + segs[i]
    ensures Text.IsPrefix(Trail(segs, name)[i].path, Trail(segs, name)[i + 1].path)
    ensures |Trail(segs, name)[i].path| < |Trail(segs, name)[i + 1].path|
  {
    TrailAt(segs, name, i - 1);
    TrailAt(segs, name, i);
    ExtendedPrefix(CrumbPath(segs, i - 1), segs[i]);
  }

  /** Dropping empty pieces ignores a trailing empty piece. */
  lemma {:induction false} DropEmptySnocEmpty(pieces: seq<string>)
    ensures DropEmpty(pieces + [""]) == DropEmpty(pieces)
  {
    if pieces == [] {
      assert [] + [""] == [""];
    } else {
      assert (pieces + [""])[1..] == pieces[1..] + [""];
      DropEmptySnocEmpty(pieces[1..]);
    }
  }

  /** The pieces of "/" followed by non-empty, slash-free parts joined by "/". */
  lemma SlashJoinSplits(parts: seq<string>)
    requires |parts| >= 1
    requires forall k :: 0 <= k < |parts| ==> parts[k] != "" && '/' !in parts[k]
    ensures Text.Split("/" + Text.Join(parts, '/'), '/') == [""] + parts
  {
    var all := [""] + parts;
    assert all[1..] == parts;
    assert Text.Join(all, '/') == "/" + Text.Join(parts, '/');
    Text.SplitJoin(all, '/');
  }

  /** For a path written without empty pieces ("/a/b", no doubled or trailing
      slash), the segments are its pieces. */
  lemma CanonicalPathSegments(parts: seq<string>)
    requires |parts| >= 1
    requires forall k :: 0 <= k < |parts| ==> parts[k] != "" && '/' !in parts[k]
    ensures Segments("/" + Text.Join(parts, '/')) == parts
  {
    SlashJoinSplits(parts);
    assert ([""] + parts)[1..] == parts;
    DropEmptyKeepsFull(parts);
  }

  /** The last crumb of the trail links to the whole path: "/" and every
      segment joined by "/". */
  lemma LastCrumbIsWholePath(segs: seq<string>, name: string -> string)
    requires |segs| >= 1
    ensures Trail(segs, name)[|segs|].path == "/" + Text.Join(segs, '/')
  {
    TrailAt(segs, name, |segs| - 1);
    CrumbPathIsJoin(segs, |segs| - 1);
    assert segs[..|segs|] == segs;
  }

  /** Joining with an empty piece at each end puts a slash at each end. */
  lemma JoinBetweenSlashes(parts: seq<string>)
    requires |parts| >= 1
    ensures Text.Join([""] + parts + [""], '/') == "/" + Text.Join(parts, '/') + "/"
  {
    var front := [""] + parts;
    var j := Text.Join(parts, '/');
    Text.JoinConsEmpty(parts, '/');
    Text.JoinSnoc(front, "", '/');
    assert front + [""] == [""] + parts + [""];
    assert ['/'] + j + ['/'] + "" == "/" + j + "/";
  }

  /** The pieces of the same path with a trailing slash: one more empty piece. */
  lemma SlashJoinSlashSplits(parts: seq<string>)
    requires |parts| >= 1
    requires forall k :: 0 <= k < |parts| ==> parts[k] != "" && '/' !in parts[k]
    ensures Text.Split("/" + Text.Join(parts, '/') + "/", '/') == [""] + parts + [""]
  {
    var all := [""] + parts + [""];
    JoinBetweenSlashes(parts);
    forall k | 0 <= k < |all| ensures '/' !in all[k] {
      if 0 < k < |all| - 1 {
        assert all[k] == parts[k - 1];
      }
    }
    Text.SplitJoin(all, '/');
  }

  /** A trailing slash adds an empty piece, which is dropped: the segments are
      the same as without it. */
  lemma TrailingSlashSameSegments(parts: seq<string>)
    requires |parts| >= 1
    requires forall k :: 0 <= k < |parts| ==> parts[k] != "" && '/' !in parts[k]
    ensures Segments("/" + Text.Join(parts, '/') + "/") == parts
  {
    SlashJoinSlashSplits(parts);
    DropEmptySnocEmpty([""] + parts);
    assert ([""] + parts)[1..] == parts;
    DropEmptyKeepsFull(parts);
  }

  /** So a path with a trailing slash is never taken for "/dashboard": its
      trail has one crumb per part, as without the slash. */
  lemma TrailingSlashTrail(parts: seq<string>)
    requires |parts| >= 1
    requires forall k :: 0 <= k < |parts| ==> parts[k] != "" && '/' !in parts[k]
    ensures Breadcrumbs("/" + Text.Join(parts, '/') + "/") == Trail(parts, CrumbName)
  {
    var path := "/" + Text.Join(parts, '/') + "/";
    TrailingSlashSameSegments(parts);
    assert path[|path| - 1] == '/';
    assert "/dashboard"[9] == 'd';
  }

  /** The root and "/dashboard" show Dashboard alone. */
  lemma RootShowsDashboard()
    ensures Breadcrumbs("/") == [Home]
    ensures Breadcrumbs("/dashboard") == [Home]
  {
    assert Text.Split("/", '/') == ["", ""] by {
      assert "/"[1..] == "";
    }
    assert ["", ""][1..] == [""];
  }

  /** A trailing slash defeats the "/dashboard" test: "/dashboard/" shows
      Dashboard twice, the second one linking to "/dashboard". */
  lemma TrailingSlashRepeatsDashboard()
    ensures Breadcrumbs("/dashboard/") == [Home, Crumb("Dashboard", "/dashboard")]
  {
    var parts := ["dashboard"];
    assert "/" + Text.Join(parts, '/') + "/" == "/dashboard/" by {
      assert Text.Join(parts, '/') == "dashboard";
    }
    TrailingSlashTrail(parts);
    DashboardLabel();
    assert CrumbPath(parts, 0) == "/dashboard";
    assert Trail(parts, CrumbName) == [Home, Crumb(CrumbName("dashboard"), CrumbPath(parts, 0))] by {
      assert parts[..0] == [];
    }
  }

  /** A mapped segment shows its table label: "company" reads "Company". */
  lemma MappedLabel()
    ensures CrumbName("company") == "Company"
  {
  }

  /** "dashboard" is not in the table, so its crumb reads "Dashboard". */
  lemma DashboardLabel()
    ensures CrumbName("dashboard") == "Dashboard"
  {
    assert Text.UpperChar('d') == 'D';
  }

  /** A segment outside the table is capitalised: "reports" reads "Reports". */
  lemma UnmappedLabel()
    ensures CrumbName("reports") == "Reports"
  {
    assert Text.UpperChar('r') == 'R';
  }

  /** How a crumb is drawn: the current page, or a link. */
  datatype Item = Page(text: string) | Link(text: string, href: string)

  /** Only the last crumb is drawn as the current page; every other one is a
      link to its path. */
  function Render(crumbs: seq<Crumb>): (items: seq<Item>)
    ensures |items| == |crumbs|
    ensures forall i :: 0 <= i < |crumbs| ==> (items[i].Page? <==> i == |crumbs| - 1)
    ensures forall i :: 0 <= i < |crumbs| ==> items[i].text == crumbs[i].name
    ensures forall i :: 0 <= i < |crumbs| - 1 ==> items[i] == Link(crumbs[i].name, crumbs[i].path)
  {
    seq(|crumbs|, i requires 0 <= i < |crumbs| =>
      if i == |crumbs| - 1 then Page(crumbs[i].name) else Link(crumbs[i].name, crumbs[i].path))
  }
}

=== FILE: employee_management.dfy ===
/** The admin's "Team Management" view: one progress summary per employee
    against the company's active modules, the completion rate, the search
    box, and the name and avatar shown on each card. */
module EmployeeManagementView {
  import opened Common
  import opened Types
  import opened Rates
  import opened Tally
  import Text

  /** `EmployeeProgress`: the per-employee counters. */
  datatype EmployeeProgress = EmployeeProgress(
    employeeId: string,
    totalModules: nat,
    completed: nat,
    inProgress: nat)

  function OfEmployee(employeeId: string): ProgressRow -> bool {
    (r: ProgressRow) => r.employeeId == employeeId
  }

  /** The rows of one employee that have status `s`. */
  function EmployeeRowWith(employeeId: string, s: Option<ProgressStatus>): ProgressRow -> bool {
    (r: ProgressRow) => r.employeeId == employeeId && r.status == s
  }

  /** Counting one status among the employee's own rows is counting, in all
      rows, those of the employee with that status. */
  lemma EmployeeRowWithCount(progress: seq<ProgressRow>, employeeId: string, s: Option<ProgressStatus>)
    ensures CountStatus(Filter(progress, OfEmployee(employeeId)), RowStatus, s) == Count(progress, EmployeeRowWith(employeeId, s))
  {
    forall i | 0 <= i < |progress|
      ensures EmployeeRowWith(employeeId, s)(progress[i]) == (OfEmployee(employeeId)(progress[i]) && HasStatus(RowStatus, s)(progress[i]))
    {
      assert HasStatus(RowStatus, s)(progress[i]) == (RowStatus(progress[i]) == s);
    }
    CountOfFilter(progress, OfEmployee(employeeId), HasStatus(RowStatus, s), EmployeeRowWith(employeeId, s));
  }

  /** One employee's summary: `total_modules` is the number of active modules
      of the company, whatever the employee's own rows; each counter is the
      number of that employee's rows with its status. */
  function StatsFor(progress: seq<ProgressRow>, moduleCount: nat, employeeId: string): (p: EmployeeProgress)
    ensures p.employeeId == employeeId && p.totalModules == moduleCount
    ensures p.completed == Count(progress, EmployeeRowWith(employeeId, Some(Completed)))
    ensures p.inProgress == Count(progress, EmployeeRowWith(employeeId, Some(InProgress)))
    ensures p.completed + p.inProgress <= Count(progress, OfEmployee(employeeId))
  {
    var rows := Filter(progress, OfEmployee(employeeId));
    StatusCountsBound(rows, RowStatus);
    EmployeeRowWithCount(progress, employeeId, Some(Completed));
    EmployeeRowWithCount(progress, employeeId, Some(InProgress));
    EmployeeProgress(
      employeeId,
      moduleCount,
      CountStatus(rows, RowStatus, Some(Completed)),
      CountStatus(rows, RowStatus, Some(InProgress)))
  }

  /** `progressStats`: one summary per employee, in employee order, all with
      the same `total_modules`. */
  function ProgressStats(employees: seq<UserProfile>, activeModuleIds: seq<string>, progress: seq<ProgressRow>)
    : (r: seq<EmployeeProgress>)
    ensures |r| == |employees|
    ensures forall i :: 0 <= i < |employees| ==> r[i] == StatsFor(progress, |activeModuleIds|, employees[i].id)
    ensures forall i :: 0 <= i < |r| ==> r[i].totalModules == |activeModuleIds|
  {
    Map(employees, (e: UserProfile) => StatsFor(progress, |activeModuleIds|, e.id))
  }

  function ForEmployee(employeeId: string): EmployeeProgress -> bool {
    (p: EmployeeProgress) => p.employeeId == employeeId
  }

  /** `getEmployeeProgress`: the first summary for that employee, if any. */
  function GetEmployeeProgress(data: seq<EmployeeProgress>, employeeId: string): (r: Option<EmployeeProgress>)
    ensures r.None? <==> forall i :: 0 <= i < |data| ==> data[i].employeeId != employeeId
    ensures r.Some? ==> r.value.employeeId == employeeId && r.value in data
  {
    Find(data, ForEmployee(employeeId))
  }

  /** `calculateCompletionRate`: 0 without a summary or without active
      modules, else the rounded percentage of completed modules. */
  function CalculateCompletionRate(data: seq<EmployeeProgress>, employeeId: string): (rate: int)
    ensures GetEmployeeProgress(data, employeeId).None? ==> rate == 0
    ensures GetEmployeeProgress(data, employeeId).Some? ==>
      rate == CompletionRate(GetEmployeeProgress(data, employeeId).value.completed,
                             GetEmployeeProgress(data, employeeId).value.totalModules)
  {
    match GetEmployeeProgress(data, employeeId)
    case None => 0
    case Some(p) => if p.totalModules == 0 then 0 else CompletionRate(p.completed, p.totalModules)
  }

  /** At most one row per (employee, module). */
  predicate UniquePairs(progress: seq<ProgressRow>) {
    forall i, j :: 0 <= i < j < |progress| ==>
      !(progress[i].employeeId == progress[j].employeeId && progress[i].moduleId == progress[j].moduleId)
  }

  /** Pigeonhole: an employee whose rows name distinct modules, all from `ids`,
      has at most |ids| rows. */
  lemma {:induction false} EmployeeRowsBound(progress: seq<ProgressRow>, employeeId: string, ids: set<string>)
    requires UniquePairs(progress)
    requires forall i :: 0 <= i < |progress| && progress[i].employeeId == employeeId ==> progress[i].moduleId in ids
    ensures Count(progress, OfEmployee(employeeId)) <= |ids|
  {
    if progress != [] {
      CountCons(progress, OfEmployee(employeeId));
      var tail := progress[1..];
      if progress[0].employeeId == employeeId {
        var m := progress[0].moduleId;
        forall i | 0 <= i < |tail| && tail[i].employeeId == employeeId
          ensures tail[i].moduleId in ids - {m}
        {
          assert tail[i] == progress[i + 1];
        }
        EmployeeRowsBound(tail, employeeId, ids - {m});
      } else {
        forall i | 0 <= i < |tail| && tail[i].employeeId == employeeId
          ensures tail[i].moduleId in ids
        {
          assert tail[i] == progress[i + 1];
        }
        EmployeeRowsBound(tail, employeeId, ids);
      }
    }
  }

  /** When the store holds at most one row per (employee, module) and the
      progress read is restricted to the active modules, every rate shown is a
      percentage in 0..100. */
  lemma RateAtMostHundred(employees: seq<UserProfile>, activeModuleIds: seq<string>,
                          progress: seq<ProgressRow>, employeeId: string)
    requires UniquePairs(progress)
    requires forall i :: 0 <= i < |progress| ==> progress[i].moduleId in activeModuleIds
    ensures 0 <= CalculateCompletionRate(ProgressStats(employees, activeModuleIds, progress), employeeId) <= 100
  {
    var data := ProgressStats(employees, activeModuleIds, progress);
    var r := GetEmployeeProgress(data, employeeId);
    if r.Some? {
      var i :| 0 <= i < |data| && data[i] == r.value;
      var p := StatsFor(progress, |activeModuleIds|, employees[i].id);
      assert r.value == p;
      var ids := Elements(activeModuleIds);
      forall j | 0 <= j < |progress| && progress[j].employeeId == employees[i].id
        ensures progress[j].moduleId in ids
      {
        var k :| 0 <= k < |activeModuleIds| && activeModuleIds[k] == progress[j].moduleId;
      }
      EmployeeRowsBound(progress, employees[i].id, ids);
      assert p.completed <= p.totalModules;
    }
  }

  /** Two copies of one completed row give that employee two completed
      modules. */
  lemma DuplicateRowStats(row: ProgressRow)
    requires row.status == Some(Completed)
    ensures StatsFor([row, row], 1, row.employeeId) == EmployeeProgress(row.employeeId, 1, 2, 0)
  {
    var rows := [row, row];
    assert Filter(rows, OfEmployee(row.employeeId)) == rows by {
      assert OfEmployee(row.employeeId)(row);
      FilterAll(rows, OfEmployee(row.employeeId));
    }
    assert RowStatus(row) == Some(Completed);
    CountStatusAll(rows, RowStatus, Some(Completed));
    CountStatusZero(rows, RowStatus, Some(InProgress));
  }

  /** Without the uniqueness the rate can pass 100: two copies of one
      completed row against a single active module show 200%. */
  lemma RateAboveHundredWithDuplicates(e: UserProfile, row: ProgressRow, moduleId: string)
    requires row.employeeId == e.id && row.status == Some(Completed)
    ensures CalculateCompletionRate(ProgressStats([e], [moduleId], [row, row]), e.id) == 200
  {
    var p := EmployeeProgress(e.id, 1, 2, 0);
    var data := ProgressStats([e], [moduleId], [row, row]);
    assert data == [p] by {
      DuplicateRowStats(row);
    }
    assert GetEmployeeProgress(data, e.id) == Some(p) by {
      assert ForEmployee(e.id)(p);
    }
    assert CompletionRate(2, 1) == 200 by {
      RoundDivUnique(200, 1, 200);
    }
  }

  /** "first last" with a missing name read as "" (used by the search). */
  function SearchName(e: UserProfile): string {
    e.firstName.GetOr("") + " " + e.lastName.GetOr("")
  }

  /** The search test, case-insensitively on the name and on the email. */
  function MatchesSearch(term: string): UserProfile -> bool {
    (e: UserProfile) =>
      Text.Contains(Text.ToLower(SearchName(e)), Text.ToLower(term))
      || Text.Contains(Text.ToLower(e.email), Text.ToLower(term))
  }

  /** `filteredEmployees`: exactly the employees matching the search, in order. */
  function FilteredEmployees(employees: seq<UserProfile>, term: string): (r: seq<UserProfile>)
    ensures forall i :: 0 <= i < |r| ==> MatchesSearch(term)(r[i]) && r[i] in employees
    ensures forall i :: 0 <= i < |employees| && MatchesSearch(term)(employees[i]) ==> employees[i] in r
  {
    Filter(employees, MatchesSearch(term))
  }

  /** An employee matches exactly when the lower-cased term occurs somewhere
      in the lower-cased name or email. */
  lemma MatchesSearchMeaning(e: UserProfile, term: string)
    ensures MatchesSearch(term)(e) <==>
      (exists i :: Text.OccursAt(Text.ToLower(SearchName(e)), Text.ToLower(term), i))
      || (exists i :: Text.OccursAt(Text.ToLower(e.email), Text.ToLower(term), i))
  {
    Text.ContainsIffOccurs(Text.ToLower(SearchName(e)), Text.ToLower(term));
    Text.ContainsIffOccurs(Text.ToLower(e.email), Text.ToLower(term));
  }

  /** An empty search keeps everybody, in order. */
  lemma EmptySearchKeepsAll(employees: seq<UserProfile>)
    ensures FilteredEmployees(employees, "") == employees
  {
    forall i | 0 <= i < |employees| ensures MatchesSearch("")(employees[i]) {
      Text.ContainsEmpty(Text.ToLower(SearchName(employees[i])));
    }
    FilterAll(employees, MatchesSearch(""));
  }

  /** The search keeps the relative order of the list. */
  lemma SearchKeepsOrder(a: seq<UserProfile>, b: seq<UserProfile>, term: string)
    ensures FilteredEmployees(a + b, term) == FilteredEmployees(a, term) + FilteredEmployees(b, term)
  {
    FilterAppend(a, b, MatchesSearch(term));
  }

  /** The notice drawn instead of the list when no employee is listed. */
  datatype EmptyNotice = EmptyNotice(heading: string, hint: string, inviteButton: bool)

  /** With a search term the notice says nothing matched; without one it
      says there is nobody yet and offers the invite button. */
  function EmptyNoticeFor(searchTerm: string): (n: EmptyNotice)
    ensures searchTerm != "" <==> n.heading == "No employees found"
    ensures searchTerm == "" <==> n.inviteButton
    ensures searchTerm == "" ==> n.heading == "No employees yet"
  {
    if searchTerm != "" then EmptyNotice("No employees found", "Try adjusting your search terms.", false)
    else EmptyNotice("No employees yet", "Start by inviting team members to join your company.", true)
  }

  /** "No employees yet" is only drawn when the company has no employee at
      all: an empty search hides nobody. */
  lemma NoEmployeesYetMeansNone(employees: seq<UserProfile>)
    requires FilteredEmployees(employees, "") == []
    ensures employees == []
    ensures EmptyNoticeFor("").heading == "No employees yet"
  {
    EmptySearchKeepsAll(employees);
  }

  /** The card title: "first last" when both names are present, else the email. */
  function DisplayName(e: UserProfile): (name: string)
    ensures Present(e.firstName) && Present(e.lastName) ==>
      name == e.firstName.value + " " + e.lastName.value
    ensures !(Present(e.firstName) && Present(e.lastName)) ==> name == e.email
  {
    if Present(e.firstName) && Present(e.lastName) then e.firstName.value + " " + e.lastName.value
    else e.email
  }

  /** The avatar letter: the first character of the first name as typed, else
      the upper-cased first character of the email. With neither the render
      fails (`email[0]` is undefined), which is `None` here. */
  function AvatarLetter(e: UserProfile): (c: Option<char>)
    ensures Present(e.firstName) ==> c == Some(e.firstName.value[0])
    ensures !Present(e.firstName) && e.email != "" ==> c == Some(Text.UpperChar(e.email[0]))
    ensures c.None? <==> !Present(e.firstName) && e.email == ""
  {
    if Present(e.firstName) then Some(e.firstName.value[0])
    else if e.email != "" then Some(Text.UpperChar(e.email[0]))
    else None
  }

  /** The view's state. */
  class EmployeeManagementState {
    var employees: seq<UserProfile>
    var progressData: seq<EmployeeProgress>
    var loading: bool
    var searchTerm: string

    constructor ()
      ensures employees == [] && progressData == [] && loading && searchTerm == ""
    {
      employees := [];
      progressData := [];
      loading := true;
      searchTerm := "";
    }

    /** `fetchEmployees`: nothing without a company; a successful read
        replaces the list; the loading flag drops either way. */
    method FetchEmployees(companyId: Option<string>, response: Result<seq<UserProfile>>)
      modifies this
      ensures !Present(companyId) ==> employees == old(employees) && loading == old(loading)
      ensures Present(companyId) && response.Ok? ==> employees == response.value
      ensures Present(companyId) && response.Err? ==> employees == old(employees)
      ensures Present(companyId) ==> !loading
      ensures progressData == old(progressData) && searchTerm == old(searchTerm)
    {
      if !Present(companyId) {
        return;
      }
      if response.Ok? {
        employees := response.value;
      }
      loading := false;
    }

    /** `fetchEmployeeProgress`: with a company and both reads successful, the
        summaries are recomputed for the employees currently held. */
    method FetchEmployeeProgress(companyId: Option<string>, activeModuleIds: Result<seq<string>>,
                                 progress: Result<seq<ProgressRow>>)
      modifies this
      ensures Present(companyId) && activeModuleIds.Ok? && progress.Ok? ==>
        progressData == ProgressStats(employees, activeModuleIds.value, progress.value)
      ensures !(Present(companyId) && activeModuleIds.Ok? && progress.Ok?) ==> progressData == old(progressData)
      ensures employees == old(employees) && loading == old(loading) && searchTerm == old(searchTerm)
    {
      if !Present(companyId) || activeModuleIds.Err? || progress.Err? {
        return;
      }
      progressData := ProgressStats(employees, activeModuleIds.value, progress.value);
    }

    method SetSearchTerm(term: string)
      modifies this
      ensures searchTerm == term
      ensures employees == old(employees) && progressData == old(progressData) && loading == old(loading)
    {
      searchTerm := term;
    }
  }
}

=== FILE: employee_progress.dfy ===
/** The `useEmployeeProgress` hook: how a requested status change becomes an
    upsert payload, what the upsert does to the progress table, how fetched
    rows are decorated with an employee name and a module title, and the two
    client-side getters.

    The hosted table is modelled as a map from the logical key
    (employee_id, module_id) to its row; an upsert writes the keys present in
    the payload and keeps every other column of an existing row. */
module EmployeeProgressHook {
  import opened Common
  import opened Types
  import Text

  /** The logical key of a progress row. */
  datatype Key = Key(employeeId: string, moduleId: string)

  type Store = map<Key, ProgressRow>

  function KeyOf(ins: ProgressInsert): Key {
    Key(ins.employeeId, ins.moduleId)
  }

  // ---------------------------------------------------------------------
  // Payload of updateProgress
  // ---------------------------------------------------------------------

  /** The `updateData` object: `status` and `updated_at` are always written;
      the other three keys only when a rule adds them. */
  datatype UpdateData = UpdateData(
    status: ProgressStatus,
    updatedAt: nat,
    progressPercentage: Field<int>,
    startedAt: Field<nat>,
    completedAt: Field<nat>)

  /** The payload rules, all at once: a supplied percentage is copied as it
      is (no clamping); `in_progress` always stamps `started_at`; `completed`
      stamps `completed_at` and forces the percentage to 100. */
  function UpdateDataFor(status: ProgressStatus, percentage: Option<int>, now: nat): UpdateData {
    UpdateData(
      status,
      now,
      if status == Completed then Given(100)
      else if percentage.Some? then Given(percentage.value)
      else Absent,
      if status == InProgress then Given(now) else Absent,
      if status == Completed then Given(now) else Absent)
  }

  /** `updateData` built the way the hook builds it, one conditional write at
      a time. The `started_at` guard reads the object under construction, in
      which that key is never present yet, so it never blocks the write. */
  method BuildUpdateData(status: ProgressStatus, percentage: Option<int>, now: nat)
    returns (d: UpdateData)
    ensures d == UpdateDataFor(status, percentage, now)
    ensures d.status == status && d.updatedAt == now
    ensures status == Completed ==> d.progressPercentage == Given(100) && d.completedAt == Given(now)
    ensures status != Completed ==> d.completedAt == Absent
    ensures status != Completed && percentage.Some? ==> d.progressPercentage == Given(percentage.value)
    ensures status != Completed && percentage.None? ==> d.progressPercentage == Absent
    ensures status == InProgress <==> d.startedAt == Given(now)
    ensures status != InProgress ==> d.startedAt == Absent
  {
    d := UpdateData(status, now, Absent, Absent, Absent);
    if percentage.Some? {
      d := d.(progressPercentage := Given(percentage.value));
    }
    if status == InProgress && !d.startedAt.Given? {
      d := d.(startedAt := Given(now));
    }
    if status == Completed {
      d := d.(completedAt := Given(now), progressPercentage := Given(100));
    }
  }

  function Lift<T>(f: Field<T>): Field<Option<T>> {
    match f
    case Absent => Absent
    case Given(v) => Given(Some(v))
  }

  /** `{ employee_id, module_id, ...updateData }`. */
  function UpdatePayload(employeeId: string, moduleId: string, d: UpdateData): (p: ProgressInsert)
    ensures KeyOf(p) == Key(employeeId, moduleId)
    ensures p.status == Given(Some(d.status)) && p.updatedAt == Given(Some(d.updatedAt))
  {
    ProgressInsert(
      employeeId, moduleId,
      Given(Some(d.status)),
      Lift(d.progressPercentage),
      Lift(d.startedAt),
      Lift(d.completedAt),
      Given(Some(d.updatedAt)))
  }

  // ---------------------------------------------------------------------
  // The upsert
  // ---------------------------------------------------------------------

  /** A column after a merge: the payload's value if the key was supplied,
      otherwise the stored one. */
  predicate Merged<T(==)>(f: Field<T>, after: T, before: T) {
    if f.Given? then after == f.value else after == before
  }

  function Pick<T(==)>(f: Field<T>, before: T): (after: T)
    ensures Merged(f, after, before)
  {
    if f.Given? then f.value else before
  }

  /** Merge the supplied keys of `ins` into `row`. */
  function Merge(row: ProgressRow, ins: ProgressInsert): (r: ProgressRow)
    ensures r.employeeId == ins.employeeId && r.moduleId == ins.moduleId
    ensures Merged(ins.status, r.status, row.status)
    ensures Merged(ins.progressPercentage, r.progressPercentage, row.progressPercentage)
    ensures Merged(ins.startedAt, r.startedAt, row.startedAt)
    ensures Merged(ins.completedAt, r.completedAt, row.completedAt)
    ensures Merged(ins.updatedAt, r.updatedAt, row.updatedAt)
  {
    ProgressRow(
      ins.employeeId, ins.moduleId,
      Pick(ins.status, row.status),
      Pick(ins.progressPercentage, row.progressPercentage),
      Pick(ins.startedAt, row.startedAt),
      Pick(ins.completedAt, row.completedAt),
      Pick(ins.updatedAt, row.updatedAt))
  }

  /** The row an insert starts from: every nullable column null. */
  function Blank(k: Key): ProgressRow {
    ProgressRow(k.employeeId, k.moduleId, None, None, None, None, None)
  }

  /** The row a key currently has, or the blank row a new insert starts from. */
  function Current(store: Store, k: Key): ProgressRow {
    if k in store then store[k] else Blank(k)
  }

  /** Upsert of one payload on (employee_id, module_id): the key gets the
      merged row, whether it existed or not, and no other key changes. */
  function Upsert(store: Store, ins: ProgressInsert): (r: Store)
    ensures r.Keys == store.Keys + {KeyOf(ins)}
    ensures r[KeyOf(ins)] == Merge(Current(store, KeyOf(ins)), ins)
    ensures forall k :: k in store && k != KeyOf(ins) ==> r[k] == store[k]
  {
    store[KeyOf(ins) := Merge(Current(store, KeyOf(ins)), ins)]
  }

  /** The keys a batch touches. */
  function BatchKeys(batch: seq<ProgressInsert>): (ks: set<Key>)
    ensures forall i :: 0 <= i < |batch| ==> KeyOf(batch[i]) in ks
    ensures forall k :: k in ks ==> exists i :: 0 <= i < |batch| && KeyOf(batch[i]) == k
  {
    if batch == [] then {}
    else
      var rest := BatchKeys(batch[1..]);
      assert forall i :: 1 <= i < |batch| ==> batch[i] == batch[1..][i - 1];
      {KeyOf(batch[0])} + rest
  }

  /** A batched upsert, applied payload by payload. */
  function UpsertAll(store: Store, batch: seq<ProgressInsert>): (r: Store)
    ensures r.Keys == store.Keys + BatchKeys(batch)
    decreases |batch|
  {
    if batch == [] then store
    else UpsertAll(Upsert(store, batch[0]), batch[1..])
  }

  // ---------------------------------------------------------------------
  // updateProgress with the store call abstracted
  // ---------------------------------------------------------------------

  /** The payload updateProgress sends for a request. */
  function RequestPayload(employeeId: string, moduleId: string, status: ProgressStatus,
                          percentage: Option<int>, now: nat): ProgressInsert
  {
    UpdatePayload(employeeId, moduleId, UpdateDataFor(status, percentage, now))
  }

  /** What one updateProgress write does to the stored row, column by column:
      status and updated_at always; started_at re-stamped by every
      `in_progress` write; completed forces 100 and stamps completed_at; a
      supplied percentage is stored as given; everything else is kept; no
      other key changes. */
  lemma UpdateEffects(store: Store, e: string, m: string, status: ProgressStatus,
                      percentage: Option<int>, now: nat)
    ensures var after := Upsert(store, RequestPayload(e, m, status, percentage, now));
            var before := Current(store, Key(e, m));
            var r := after[Key(e, m)];
            && after.Keys == store.Keys + {Key(e, m)}
            && (forall k :: k in store && k != Key(e, m) ==> after[k] == store[k])
            && r.status == Some(status) && r.updatedAt == Some(now)
            && (status == InProgress ==> r.startedAt == Some(now))
            && (status != InProgress ==> r.startedAt == before.startedAt)
            && (status == Completed ==> r.progressPercentage == Some(100) && r.completedAt == Some(now))
            && (status != Completed ==> r.completedAt == before.completedAt)
            && (status != Completed && percentage.Some? ==> r.progressPercentage == percentage)
            && (status != Completed && percentage.None? ==> r.progressPercentage == before.progressPercentage)
  {
  }

  /** The percentage is not clamped: any integer, even outside 0..100, is stored. */
  lemma PercentageNotClamped(store: Store, e: string, m: string, p: int, now: nat)
    ensures Upsert(store, RequestPayload(e, m, InProgress, Some(p), now))[Key(e, m)].progressPercentage == Some(p)
  {
  }

  /** A second `in_progress` write moves an existing `started_at` forward. */
  lemma StartedAtRestamped(store: Store, e: string, m: string, t0: nat, now: nat, p: Option<int>)
    requires Key(e, m) in store && store[Key(e, m)].startedAt == Some(t0) && t0 != now
    ensures Upsert(store, RequestPayload(e, m, InProgress, p, now))[Key(e, m)].startedAt != Some(t0)
  {
  }

  /** Once set, `started_at` is never cleared by an update. */
  lemma StartedAtNeverCleared(store: Store, e: string, m: string, k: Key, status: ProgressStatus,
                              p: Option<int>, now: nat)
    requires k in store && store[k].startedAt.Some?
    ensures Upsert(store, RequestPayload(e, m, status, p, now))[k].startedAt.Some?
  {
  }

  /** The status is not guarded: writing `not_started` over a completed row
      keeps its `completed_at` and its 100%. */
  lemma ResetKeepsCompletionColumns(store: Store, e: string, m: string, now: nat, t: nat)
    requires Key(e, m) in store
    requires store[Key(e, m)].status == Some(Completed)
    requires store[Key(e, m)].completedAt == Some(t) && store[Key(e, m)].progressPercentage == Some(100)
    ensures var r := Upsert(store, RequestPayload(e, m, NotStarted, None, now))[Key(e, m)];
            r.status == Some(NotStarted) && r.completedAt == Some(t) && r.progressPercentage == Some(100)
  {
  }

  // ---------------------------------------------------------------------
  // Row invariants the update keeps
  // ---------------------------------------------------------------------

  /** completed => 100% and completed_at set; in_progress => started_at set. */
  predicate RowConsistent(r: ProgressRow) {
    && (r.status == Some(Completed) ==> r.progressPercentage == Some(100) && r.completedAt.Some?)
    && (r.status == Some(InProgress) ==> r.startedAt.Some?)
  }

  /** Each row sits under its own key and is consistent. */
  predicate StoreValid(s: Store) {
    forall k :: k in s ==> s[k].employeeId == k.employeeId && s[k].moduleId == k.moduleId && RowConsistent(s[k])
  }

  /** Every updateProgress write keeps the table valid, whatever the row held before. */
  lemma UpdateKeepsStoreValid(store: Store, e: string, m: string, status: ProgressStatus,
                              p: Option<int>, now: nat)
    requires StoreValid(store)
    ensures StoreValid(Upsert(store, RequestPayload(e, m, status, p, now)))
  {
    var after := Upsert(store, RequestPayload(e, m, status, p, now));
    forall k | k in after
      ensures after[k].employeeId == k.employeeId && after[k].moduleId == k.moduleId && RowConsistent(after[k])
    {
      if k == Key(e, m) {
        UpdateEffects(store, e, m, status, p, now);
      }
    }
  }

  // ---------------------------------------------------------------------
  // fetchProgress
  // ---------------------------------------------------------------------

  /** The `user_profiles` join (first and last name), null when it misses. */
  datatype NameJoin = NameJoin(firstName: Option<string>, lastName: Option<string>)

  /** A fetched row with its two joins. */
  datatype JoinedRow = JoinedRow(row: ProgressRow, profile: Option<NameJoin>, moduleTitle: Option<string>)

  /** `ProgressWithDetails`: a row plus its display name and module title. */
  datatype ProgressView = ProgressView(row: ProgressRow, employeeName: string, moduleTitle: string)

  /** The status of a decorated row. */
  function ViewStatus(v: ProgressView): Option<ProgressStatus> {
    v.row.status
  }

  /** The employee name: "first last" trimmed, missing names read as "";
      "Unknown" when the profile join missed. */
  function EmployeeName(p: Option<NameJoin>): (name: string)
    ensures p.None? ==> name == "Unknown"
    ensures p.Some? ==> name == Text.Trim(p.value.firstName.GetOr("") + " " + p.value.lastName.GetOr(""))
  {
    match p
    case None => "Unknown"
    case Some(n) => Text.Trim(n.firstName.GetOr("") + " " + n.lastName.GetOr(""))
  }

  /** A joined name has no white space at either end; without names it is "". */
  lemma EmployeeNameShape(n: NameJoin)
    ensures var name := EmployeeName(Some(n));
            name == [] || (!Text.IsSpace(name[0]) && !Text.IsSpace(name[|name| - 1]))
    ensures n.firstName.None? && n.lastName.None? ==> EmployeeName(Some(n)) == ""
  {
    Text.TrimShape(n.firstName.GetOr("") + " " + n.lastName.GetOr(""));
    if n.firstName.None? && n.lastName.None? {
      Text.TrimEmptyIffBlank(" ");
    }
  }

  /** `training_modules?.title || 'Unknown Module'`: never empty. */
  function ModuleTitle(t: Option<string>): (title: string)
    ensures title != []
    ensures t.Some? && t.value != [] ==> title == t.value
    ensures (t.None? || t.value == []) ==> title == "Unknown Module"
  {
    if t.Some? && t.value != [] then t.value else "Unknown Module"
  }

  function Transform(j: JoinedRow): (v: ProgressView)
    ensures v.row == j.row && v.moduleTitle != []
    ensures v.employeeName == EmployeeName(j.profile) && v.moduleTitle == ModuleTitle(j.moduleTitle)
  {
    ProgressView(j.row, EmployeeName(j.profile), ModuleTitle(j.moduleTitle))
  }

  /** The filter the fetch query carries; its `updated_at` ordering is not modelled. */
  datatype ProgressQuery = ProgressQuery(employeeFilter: Option<string>)

  /** A non-admin asks only for their own rows; an admin adds no filter. */
  function QueryFor(isCompanyAdmin: bool, profileId: string): (q: ProgressQuery)
    ensures isCompanyAdmin <==> q.employeeFilter.None?
  {
    if isCompanyAdmin then ProgressQuery(None) else ProgressQuery(Some(profileId))
  }

  predicate Selects(q: ProgressQuery, r: ProgressRow) {
    q.employeeFilter.None? || r.employeeId == q.employeeFilter.value
  }

  /** An employee's query never selects another employee's row; an admin's selects every row. */
  lemma QueryScope(profileId: string, r: ProgressRow)
    ensures Selects(QueryFor(false, profileId), r) <==> r.employeeId == profileId
    ensures Selects(QueryFor(true, profileId), r)
  {
  }

  /** The hook's state: the decorated rows, the loading flag and the last error. */
  class ProgressState {
    var progress: seq<ProgressView>
    var loading: bool
    var error: Option<string>

    constructor ()
      ensures progress == [] && loading && error == None
    {
      progress := [];
      loading := true;
      error := None;
    }

    /** `fetchProgress` once the store has answered: on success every row is
        decorated, in the order received; on failure the error is recorded and
        the rows already shown stay. A success does not clear an earlier error. */
    method FetchProgress(response: Result<seq<JoinedRow>>)
      modifies this
      ensures response.Ok? ==> progress == Map(response.value, Transform) && error == old(error)
      ensures response.Err? ==> progress == old(progress) && error == Some(response.message)
      ensures !loading
    {
      loading := true;
      if response.Ok? {
        progress := Map(response.value, Transform);
      } else {
        error := Some(response.message);
      }
      loading := false;
    }

    /** `updateProgress`: build the payload and upsert it. On a store error
        the error message is returned, the table is unchanged and the hook's
        state is untouched (the error is only logged). On success the whole
        list is read again (`refetch` is the store's answer to that read),
        exactly as `FetchProgress` handles it, and the stored row is returned. */
    method UpdateProgress(store: Store, employeeId: string, moduleId: string, status: ProgressStatus,
                          percentage: Option<int>, now: nat, storeError: Option<string>,
                          refetch: Result<seq<JoinedRow>>)
      returns (result: Result<ProgressRow>, after: Store)
      modifies this
      ensures storeError.Some? ==> result == Err(storeError.value) && after == store
      ensures storeError.Some? ==>
        progress == old(progress) && loading == old(loading) && error == old(error)
      ensures storeError.None? ==> after == Upsert(store, RequestPayload(employeeId, moduleId, status, percentage, now))
      ensures storeError.None? ==> result == Ok(after[Key(employeeId, moduleId)])
      ensures result.Ok? ==> result.value.status == Some(status) && result.value.updatedAt == Some(now)
      ensures result.Ok? && status == Completed ==>
        result.value.progressPercentage == Some(100) && result.value.completedAt == Some(now)
      ensures result.Ok? && status == InProgress ==> result.value.startedAt == Some(now)
      ensures storeError.None? && refetch.Ok? ==>
        progress == Map(refetch.value, Transform) && error == old(error)
      ensures storeError.None? && refetch.Err? ==>
        progress == old(progress) && error == Some(refetch.message)
      ensures storeError.None? ==> !loading
    {
      var d := BuildUpdateData(status, percentage, now);
      var payload := UpdatePayload(employeeId, moduleId, d);
      if storeError.Some? {
        return Err(storeError.value), store;
      }
      after := Upsert(store, payload);
      FetchProgress(refetch);
      result := Ok(after[Key(employeeId, moduleId)]);
    }
  }

  // ---------------------------------------------------------------------
  // Getters
  // ---------------------------------------------------------------------

  function ModuleIs(moduleId: string): ProgressView -> bool {
    (v: ProgressView) => v.row.moduleId == moduleId
  }

  function EmployeeIs(employeeId: string): ProgressView -> bool {
    (v: ProgressView) => v.row.employeeId == employeeId
  }

  /** `getModuleProgress`: exactly the rows of that module. */
  function GetModuleProgress(progress: seq<ProgressView>, moduleId: string): (r: seq<ProgressView>)
    ensures forall i :: 0 <= i < |r| ==> r[i].row.moduleId == moduleId && r[i] in progress
    ensures forall i :: 0 <= i < |progress| && progress[i].row.moduleId == moduleId ==> progress[i] in r
  {
    Filter(progress, ModuleIs(moduleId))
  }

  /** `getEmployeeProgress`: exactly the rows of that employee. */
  function GetEmployeeProgress(progress: seq<ProgressView>, employeeId: string): (r: seq<ProgressView>)
    ensures forall i :: 0 <= i < |r| ==> r[i].row.employeeId == employeeId && r[i] in progress
    ensures forall i :: 0 <= i < |progress| && progress[i].row.employeeId == employeeId ==> progress[i] in r
  {
    Filter(progress, EmployeeIs(employeeId))
  }

  /** Both getters keep the original order: they split over concatenation. */
  lemma GettersKeepOrder(a: seq<ProgressView>, b: seq<ProgressView>, moduleId: string, employeeId: string)
    ensures GetModuleProgress(a + b, moduleId) == GetModuleProgress(a, moduleId) + GetModuleProgress(b, moduleId)
    ensures GetEmployeeProgress(a + b, employeeId) == GetEmployeeProgress(a, employeeId) + GetEmployeeProgress(b, employeeId)
  {
    FilterAppend(a, b, ModuleIs(moduleId));
    FilterAppend(a, b, EmployeeIs(employeeId));
  }
}

=== FILE: profile_info.dfy ===
/** The profile page's "Profile Information" card: the avatar initials, the
    heading and role line, the read-only fields, and the name editor. */
module ProfileInfoView {
  import opened Common
  import opened Types
  import Text
  import EmployeeManagementView

  /** `profile?.first_name?.[0] || ''`: the first character of a name as a
      one-letter string, or "" when the name is null or empty. */
  function FirstLetter(name: Option<string>): (r: string)
    ensures Present(name) ==> r == [name.value[0]]
    ensures !Present(name) ==> r == ""
  {
    if Present(name) then [name.value[0]] else ""
  }

  /** `getInitials`: the upper-cased first letters of the first and last
      names, each left out when that name is missing; else the upper-cased
      first character of the email; else "U". */
  function Initials(p: UserProfile): (r: string)
    ensures 1 <= |r| <= 2
    ensures forall i :: 0 <= i < |r| ==> !Text.IsAsciiLower(r[i])
  {
    var letters := Text.ToUpper(FirstLetter(p.firstName) + FirstLetter(p.lastName));
    if letters != "" then letters
    else if p.email != "" then [Text.UpperChar(p.email[0])]
    else "U"
  }

  /** Which letters the initials are, case by case. */
  lemma InitialsCases(p: UserProfile)
    ensures Present(p.firstName) && Present(p.lastName) ==>
      Initials(p) == [Text.UpperChar(p.firstName.value[0]), Text.UpperChar(p.lastName.value[0])]
    ensures Present(p.firstName) && !Present(p.lastName) ==>
      Initials(p) == [Text.UpperChar(p.firstName.value[0])]
    ensures !Present(p.firstName) && Present(p.lastName) ==>
      Initials(p) == [Text.UpperChar(p.lastName.value[0])]
    ensures !Present(p.firstName) && !Present(p.lastName) && p.email != "" ==>
      Initials(p) == [Text.UpperChar(p.email[0])]
    ensures !Present(p.firstName) && !Present(p.lastName) && p.email == "" ==>
      Initials(p) == "U"
  {
    var letters := FirstLetter(p.firstName) + FirstLetter(p.lastName);
    assert |Text.ToUpper(letters)| == |letters|;
  }

  /** `formatDate`: "N/A" for a missing date, otherwise the date (its
      locale formatting is left out, so the instant stands for it). */
  datatype ShownDate = NotAvailable | On(instant: nat)

  function FormatDate(d: Option<nat>): (r: ShownDate)
    ensures r == NotAvailable <==> d.None?
    ensures d.Some? ==> r == On(d.value)
  {
    if d.None? then NotAvailable else On(d.value)
  }

  /** What the card shows for a loaded profile. */
  datatype ProfileCard = ProfileCard(
    initials: string,
    heading: string,
    roleLine: string,
    firstName: string,
    lastName: string,
    email: string,
    companyLine: Option<string>,
    memberSince: Option<ShownDate>)

  /** The card: the heading is "first last" when both names are present and
      the email otherwise; the role with its underscore turned into a space;
      a missing name reads "Not provided"; the company and member-since lines
      only for a company admin, with "No company assigned" for a missing
      company. */
  function CardFor(p: UserProfile): (c: ProfileCard)
    ensures c.initials == Initials(p)
    ensures c.heading == EmployeeManagementView.DisplayName(p)
    ensures c.roleLine == RoleLabel(p.role)
    ensures c.firstName == if Present(p.firstName) then p.firstName.value else "Not provided"
    ensures c.lastName == if Present(p.lastName) then p.lastName.value else "Not provided"
    ensures c.companyLine.Some? <==> p.role == CompanyAdmin
    ensures c.memberSince.Some? <==> p.role == CompanyAdmin
    ensures c.companyLine.Some? ==>
      c.companyLine.value == if Present(p.companyId) then p.companyId.value else "No company assigned"
    ensures c.memberSince.Some? ==> c.memberSince.value == FormatDate(p.createdAt)
  {
    var admin := p.role == CompanyAdmin;
    ProfileCard(
      Initials(p),
      EmployeeManagementView.DisplayName(p),
      RoleLabel(p.role),
      if Present(p.firstName) then p.firstName.value else "Not provided",
      if Present(p.lastName) then p.lastName.value else "Not provided",
      p.email,
      if admin then Some(if Present(p.companyId) then p.companyId.value else "No company assigned") else None,
      if admin then Some(FormatDate(p.createdAt)) else None)
  }

  /** The columns the save writes. */
  datatype NamePatch = NamePatch(profileId: string, firstName: string, lastName: string)

  /** The stored profile after a successful save: both names are written as
      typed, an empty one as "" rather than null. */
  function ApplyPatch(p: UserProfile, patch: NamePatch): (q: UserProfile)
    requires patch.profileId == p.id
    ensures q.firstName == Some(patch.firstName) && q.lastName == Some(patch.lastName)
    ensures q.(firstName := p.firstName, lastName := p.lastName) == p
  {
    p.(firstName := Some(patch.firstName), lastName := Some(patch.lastName))
  }

  /** Saving an untouched form over a profile without names stores "" in
      both columns instead of leaving them null; the heading still shows the
      email. */
  lemma UntouchedSaveStoresEmptyNames(p: UserProfile)
    requires p.firstName.None? && p.lastName.None?
    ensures var q := ApplyPatch(p, NamePatch(p.id, "", ""));
            q.firstName == Some("") && q.lastName == Some("")
            && EmployeeManagementView.DisplayName(q) == p.email
            && Initials(q) == Initials(p)
  {
    var q := ApplyPatch(p, NamePatch(p.id, "", ""));
    assert FirstLetter(q.firstName) == "" && FirstLetter(q.lastName) == "";
    assert FirstLetter(p.firstName) == "" && FirstLetter(p.lastName) == "";
  }

  /** The editing state of the card. */
  class ProfileEditor {
    var isEditing: bool
    var firstName: string
    var lastName: string
    var updating: bool

    /** The inputs start from the profile's names, null read as "". */
    constructor (profile: Option<UserProfile>)
      ensures !isEditing && !updating
      ensures firstName == if profile.Some? then profile.value.firstName.GetOr("") else ""
      ensures lastName == if profile.Some? then profile.value.lastName.GetOr("") else ""
    {
      isEditing := false;
      updating := false;
      firstName := if profile.Some? then profile.value.firstName.GetOr("") else "";
      lastName := if profile.Some? then profile.value.lastName.GetOr("") else "";
    }

    /** The Edit/Cancel button: flips editing, and is disabled while a save
        is under way. */
    method ToggleEditing()
      modifies this
      ensures isEditing == if old(updating) then old(isEditing) else !old(isEditing)
      ensures firstName == old(firstName) && lastName == old(lastName) && updating == old(updating)
    {
      if !updating {
        isEditing := !isEditing;
      }
    }

    /** The Cancel button under the inputs: it ends editing (it is disabled
        while a save is under way) but keeps what was typed, so the next Edit
        shows the abandoned values again. */
    method CancelEditing()
      modifies this
      ensures isEditing == (old(isEditing) && old(updating))
      ensures firstName == old(firstName) && lastName == old(lastName) && updating == old(updating)
    {
      if !updating {
        isEditing := false;
      }
    }

    /** Typing into the first-name input. */
    method SetFirstName(value: string)
      modifies this
      ensures firstName == value
      ensures lastName == old(lastName) && isEditing == old(isEditing) && updating == old(updating)
    {
      firstName := value;
    }

    /** Typing into the last-name input. */
    method SetLastName(value: string)
      modifies this
      ensures lastName == value
      ensures firstName == old(firstName) && isEditing == old(isEditing) && updating == old(updating)
    {
      lastName := value;
    }

    /** `handleUpdateProfile`: nothing without a profile; otherwise both
        names are sent as typed; editing ends only when the store accepts
        them; the updating flag is down again either way. */
    method HandleUpdateProfile(profile: Option<UserProfile>, storeError: Option<string>)
      returns (sent: Option<NamePatch>)
      modifies this
      ensures profile.None? ==> sent.None? && isEditing == old(isEditing) && updating == old(updating)
      ensures profile.Some? ==> sent == Some(NamePatch(profile.value.id, old(firstName), old(lastName)))
      ensures profile.Some? ==> !updating
      ensures profile.Some? && storeError.None? ==> !isEditing
      ensures profile.Some? && storeError.Some? ==> isEditing == old(isEditing)
      ensures firstName == old(firstName) && lastName == old(lastName)
    {
      if profile.None? {
        return None;
      }
      updating := true;
      sent := Some(NamePatch(profile.value.id, firstName, lastName));
      if storeError.None? {
        isEditing := false;
      }
      updating := false;
    }
  }
}

=== FILE: profile_training_progress.dfy ===
/** The profile page's "Training Progress" tab: three counts and one line
    per progress row with a status icon, a coloured badge and the percentage. */
module ProfileTrainingProgressView {
  import opened Common
  import opened Types
  import opened Tally
  import opened EmployeeProgressHook

  /** The three icons a row can show. */
  datatype StatusIcon = CheckIcon | ClockIcon | BookIcon

  /** `getStatusIcon`: a check for "completed", a clock for "in_progress",
      the book for any other string. */
  function IconFor(status: string): (icon: StatusIcon)
    ensures icon == CheckIcon <==> status == "completed"
    ensures icon == ClockIcon <==> status == "in_progress"
    ensures icon == BookIcon <==> status != "completed" && status != "in_progress"
  {
    if status == "completed" then CheckIcon
    else if status == "in_progress" then ClockIcon
    else BookIcon
  }

  const Green: string := "bg-green-100 text-green-800"
  const Yellow: string := "bg-yellow-100 text-yellow-800"
  const Gray: string := "bg-gray-100 text-gray-800"

  /** `getStatusColor`: green for "completed", yellow for "in_progress",
      gray for any other string. */
  function ColorFor(status: string): (color: string)
    ensures color == Green <==> status == "completed"
    ensures color == Yellow <==> status == "in_progress"
    ensures color == Gray <==> status != "completed" && status != "in_progress"
  {
    if status == "completed" then Green
    else if status == "in_progress" then Yellow
    else Gray
  }

  /** `item.status || 'not_started'`: the status string the icon and colour
      are chosen from. */
  function StatusKey(s: Option<ProgressStatus>): (key: string)
    ensures s.None? ==> key == "not_started"
    ensures s.Some? ==> key == StatusName(s.value)
  {
    match s
    case None => "not_started"
    case Some(st) => StatusName(st)
  }

  /** The icon and the colour follow the stored status, and a null status
      looks exactly like `not_started`. */
  lemma IconAndColorByStatus(s: Option<ProgressStatus>)
    ensures IconFor(StatusKey(s)) == CheckIcon <==> s == Some(Completed)
    ensures IconFor(StatusKey(s)) == ClockIcon <==> s == Some(InProgress)
    ensures IconFor(StatusKey(s)) == BookIcon <==> s == None || s == Some(NotStarted)
    ensures ColorFor(StatusKey(s)) == Green <==> s == Some(Completed)
    ensures ColorFor(StatusKey(s)) == Yellow <==> s == Some(InProgress)
    ensures ColorFor(StatusKey(s)) == Gray <==> s == None || s == Some(NotStarted)
  {
    match s
    case None =>
      assert "not_started" != "completed" && "not_started" != "in_progress";
    case Some(NotStarted) =>
      assert StatusName(NotStarted) == "not_started";
      assert "not_started" != "completed" && "not_started" != "in_progress";
    case Some(InProgress) =>
      assert StatusName(InProgress) == "in_progress";
    case Some(Completed) =>
      assert StatusName(Completed) == "completed";
  }

  /** `item.status?.replace('_', ' ') || 'Not Started'`. */
  function BadgeText(s: Option<ProgressStatus>): (text: string)
    ensures text != []
    ensures s.None? ==> text == "Not Started"
    ensures s.Some? ==> text == StatusLabel(s)
  {
    var shown := StatusLabel(s);
    if shown != [] then shown else "Not Started"
  }

  /** The badge texts: a null status reads "Not Started" while a stored
      `not_started` reads "not started" in lower case. */
  lemma BadgeTexts()
    ensures BadgeText(None) == "Not Started"
    ensures BadgeText(Some(NotStarted)) == "not started"
    ensures BadgeText(Some(InProgress)) == "in progress"
    ensures BadgeText(Some(Completed)) == "completed"
    ensures BadgeText(None) != BadgeText(Some(NotStarted))
  {
    NotStartedLabel();
    InProgressLabel();
    CompletedLabel();
    assert "Not Started"[0] != "not started"[0];
  }

  /** The three cards at the top. */
  datatype TabCounts = TabCounts(completed: nat, inProgress: nat, total: nat)

  /** `completedCount`, `inProgressCount` and `totalModules`. */
  function CountsFor(progress: seq<ProgressView>): (c: TabCounts)
    ensures c.completed == CountStatus(progress, ViewStatus, Some(Completed))
    ensures c.inProgress == CountStatus(progress, ViewStatus, Some(InProgress))
    ensures c.total == |progress|
    ensures c.completed + c.inProgress <= c.total
  {
    StatusCountsBound(progress, ViewStatus);
    TabCounts(CountStatus(progress, ViewStatus, Some(Completed)),
              CountStatus(progress, ViewStatus, Some(InProgress)),
              |progress|)
  }

  /** One row of the list. */
  datatype ProgressLine = ProgressLine(
    icon: StatusIcon,
    title: string,
    badge: string,
    color: string,
    percent: int,
    completedAt: Option<nat>)

  /** A row: the title falls back to "Unknown Module", a null percentage is
      shown as 0, and the completion date only when `completed_at` is set. */
  function LineFor(v: ProgressView): (l: ProgressLine)
    ensures l.icon == IconFor(StatusKey(v.row.status)) && l.color == ColorFor(StatusKey(v.row.status))
    ensures l.badge == BadgeText(v.row.status)
    ensures l.title != [] && (v.moduleTitle != [] ==> l.title == v.moduleTitle)
    ensures l.percent == PercentOrZero(v.row.progressPercentage)
    ensures l.completedAt.Some? <==> v.row.completedAt.Some?
  {
    ProgressLine(
      IconFor(StatusKey(v.row.status)),
      if v.moduleTitle != [] then v.moduleTitle else "Unknown Module",
      BadgeText(v.row.status),
      ColorFor(StatusKey(v.row.status)),
      PercentOrZero(v.row.progressPercentage),
      v.row.completedAt)
  }

  datatype Screen =
    | Spinner
    | Tab(counts: TabCounts, lines: seq<ProgressLine>, emptyMessage: Option<string>)

  /** The tab: a spinner while loading; otherwise the counts, and either the
      "nothing assigned" message (exactly when there are no rows) or one
      line per row in list order. */
  function Render(loading: bool, progress: seq<ProgressView>): (s: Screen)
    ensures loading <==> s.Spinner?
    ensures s.Tab? ==> s.counts == CountsFor(progress)
    ensures s.Tab? ==> (s.emptyMessage.Some? <==> progress == [])
    ensures s.Tab? ==> |s.lines| == |progress| && forall i :: 0 <= i < |progress| ==> s.lines[i] == LineFor(progress[i])
  {
    if loading then Spinner
    else Tab(CountsFor(progress), Map(progress, LineFor),
             if progress == [] then Some("No training modules assigned yet.") else None)
  }
}

=== FILE: rates.dfy ===
/** The rounding rule shared by every dashboard: `Math.round(x)` is
    `floor(x + 1/2)`, so for an exact ratio a/b (b > 0) it is
    `floor((2a + b) / (2b))`, which is what integer division computes. */
module Rates {

  /** `Math.round(a / b)` for b > 0: the integer nearest to a/b, halves rounded up. */
  function RoundDiv(a: int, b: int): (r: int)
    requires b > 0
    ensures 2 * b * r <= 2 * a + b < 2 * b * r + 2 * b
  {
    var q := (2 * a + b) / (2 * b);
    assert 2 * a + b == (2 * b) * q + (2 * a + b) % (2 * b);
    q
  }

  /** The rounded value is the only integer within half a unit of a/b (ties up). */
  lemma RoundDivUnique(a: int, b: int, r: int)
    requires b > 0
    requires 2 * b * r <= 2 * a + b < 2 * b * r + 2 * b
    ensures r == RoundDiv(a, b)
  {
    var q := RoundDiv(a, b);
    if r < q {
      MulMonotone(2 * b, r + 1, q);
    } else if r > q {
      MulMonotone(2 * b, q + 1, r);
    }
  }

  lemma MulMonotone(k: int, x: int, y: int)
    requires k > 0 && x <= y
    ensures k * x <= k * y
  {
  }

  /** `Math.round(completed / total * 100)`, guarded by `total === 0 -> 0`
      (or `total > 0 ? ... : 0`), as every completion rate in the portal is. */
  function CompletionRate(completed: int, total: nat): (r: int)
    ensures total == 0 ==> r == 0
    ensures total > 0 ==> 2 * total * r <= 200 * completed + total < 2 * total * r + 2 * total
    ensures 0 <= completed <= total ==> 0 <= r <= 100
  {
    if total == 0 then 0
    else
      var r := RoundDiv(100 * completed, total);
      assert 0 <= completed <= total ==> 0 <= r <= 100 by {
        if 0 <= completed <= total {
          RatePercentBounds(completed, total, r);
        }
      }
      r
  }

  lemma RatePercentBounds(completed: int, total: nat, r: int)
    requires 0 <= completed <= total && total > 0
    requires 2 * total * r <= 200 * completed + total < 2 * total * r + 2 * total
    ensures 0 <= r <= 100
  {
    if r < 0 {
      MulMonotone(2 * total, r + 1, 0);
    }
    if r > 100 {
      MulMonotone(2 * total, 101, r);
    }
  }

  /** A rounded quotient stays within any integer bounds the exact quotient lies in. */
  lemma RoundDivWithin(a: int, b: int, lo: int, hi: int)
    requires b > 0 && b * lo <= a <= b * hi
    ensures lo <= RoundDiv(a, b) <= hi
  {
    var r := RoundDiv(a, b);
    if r < lo {
      MulMonotone(2 * b, r + 1, lo);
    }
    if r > hi {
      MulMonotone(2 * b, hi + 1, r);
    }
  }

  /** Every row completed gives exactly 100. */
  lemma RateAllCompleted(total: nat)
    requires total > 0
    ensures CompletionRate(total, total) == 100
  {
    RoundDivUnique(100 * total, total, 100);
  }

  /** No row completed gives exactly 0. */
  lemma RateNoneCompleted(total: nat)
    ensures CompletionRate(0, total) == 0
  {
    if total > 0 {
      RoundDivUnique(0, total, 0);
    }
  }

  /** More completed rows never lower the rate. */
  lemma RateMonotone(c1: int, c2: int, total: nat)
    requires c1 <= c2
    ensures CompletionRate(c1, total) <= CompletionRate(c2, total)
  {
    if total > 0 {
      var r1, r2 := CompletionRate(c1, total), CompletionRate(c2, total);
      if r1 > r2 {
        MulMonotone(2 * total, r2 + 1, r1);
      }
    }
  }

  /** Three of four completed is 75%; one of three is 33%; two of three is 67%. */
  lemma RateExamples()
    ensures CompletionRate(3, 4) == 75
    ensures CompletionRate(1, 3) == 33
    ensures CompletionRate(2, 3) == 67
    ensures CompletionRate(1, 8) == 13
  {
  }
}

=== FILE: tally.dfy ===
/** Counting progress rows by status, as every dashboard does with
    `rows.filter(p => p.status === s).length`. The views count different row
    shapes, so the status is read through a projection. */
module Tally {
  import opened Common
  import opened Types

  function HasStatus<T>(status: T -> Option<ProgressStatus>, s: Option<ProgressStatus>): T -> bool {
    (x: T) => status(x) == s
  }

  /** How many elements have status `s` (`None` counts the null statuses). */
  function CountStatus<T>(xs: seq<T>, status: T -> Option<ProgressStatus>, s: Option<ProgressStatus>): (n: nat)
    ensures n <= |xs|
  {
    Count(xs, HasStatus(status, s))
  }

  /** The status of a stored row. */
  function RowStatus(r: ProgressRow): Option<ProgressStatus> {
    r.status
  }

  /** The three statuses and null split the rows: the four counts add up to
      the number of rows. */
  lemma {:induction false} StatusPartition<T>(xs: seq<T>, status: T -> Option<ProgressStatus>)
    ensures CountStatus(xs, status, Some(Completed)) + CountStatus(xs, status, Some(InProgress))
          + CountStatus(xs, status, Some(NotStarted)) + CountStatus(xs, status, None) == |xs|
  {
    if xs != [] {
      StatusPartition(xs[1..], status);
      CountCons(xs, HasStatus(status, Some(Completed)));
      CountCons(xs, HasStatus(status, Some(InProgress)));
      CountCons(xs, HasStatus(status, Some(NotStarted)));
      CountCons(xs, HasStatus(status, None));
      match status(xs[0])
      case None =>
      case Some(Completed) =>
      case Some(InProgress) =>
      case Some(NotStarted) =>
    }
  }

  /** No element with status `s` means a count of zero. */
  lemma {:induction false} CountStatusZero<T>(xs: seq<T>, status: T -> Option<ProgressStatus>, s: Option<ProgressStatus>)
    requires forall i :: 0 <= i < |xs| ==> status(xs[i]) != s
    ensures CountStatus(xs, status, s) == 0
  {
    if xs != [] {
      CountCons(xs, HasStatus(status, s));
      CountStatusZero(xs[1..], status, s);
    }
  }

  /** Every element with status `s` means all of them are counted. */
  lemma {:induction false} CountStatusAll<T>(xs: seq<T>, status: T -> Option<ProgressStatus>, s: Option<ProgressStatus>)
    requires forall i :: 0 <= i < |xs| ==> status(xs[i]) == s
    ensures CountStatus(xs, status, s) == |xs|
  {
    if xs != [] {
      CountCons(xs, HasStatus(status, s));
      CountStatusAll(xs[1..], status, s);
    }
  }

  /** The three status counts never exceed the row count, and fill it
      exactly when no row has a null status. */
  lemma StatusCountsBound<T>(xs: seq<T>, status: T -> Option<ProgressStatus>)
    ensures CountStatus(xs, status, Some(Completed)) + CountStatus(xs, status, Some(InProgress))
          + CountStatus(xs, status, Some(NotStarted)) <= |xs|
    ensures (forall i :: 0 <= i < |xs| ==> status(xs[i]).Some?) ==>
      CountStatus(xs, status, Some(Completed)) + CountStatus(xs, status, Some(InProgress))
      + CountStatus(xs, status, Some(NotStarted)) == |xs|
  {
    StatusPartition(xs, status);
    if forall i :: 0 <= i < |xs| ==> status(xs[i]).Some? {
      CountStatusZero(xs, status, None);
    }
  }
}

=== FILE: text.dfy ===
/** String primitives of the JavaScript runtime that the views rely on:
    case mapping (restricted to ASCII letters), `trim` (over the full
    ECMAScript white-space and line-terminator set), `includes`,
    `split`/`join` on a one-character separator, and `replace` of a first
    occurrence. */
module Text {

  predicate IsAsciiUpper(c: char) { 'A' <= c <= 'Z' }
  predicate IsAsciiLower(c: char) { 'a' <= c <= 'z' }

  /** String.prototype.toLowerCase on one ASCII character. */
  function LowerChar(c: char): (d: char)
    ensures !IsAsciiUpper(d)
    ensures !IsAsciiUpper(c) ==> d == c
  {
    if IsAsciiUpper(c) then (c as int + 32) as char else c
  }

  /** String.prototype.toUpperCase on one ASCII character. */
  function UpperChar(c: char): (d: char)
    ensures !IsAsciiLower(d)
    ensures !IsAsciiLower(c) ==> d == c
  {
    if IsAsciiLower(c) then (c as int - 32) as char else c
  }

  function ToLower(s: string): (r: string)
    ensures |r| == |s|
    ensures forall i :: 0 <= i < |s| ==> r[i] == LowerChar(s[i])
  {
    seq(|s|, i requires 0 <= i < |s| => LowerChar(s[i]))
  }

  function ToUpper(s: string): (r: string)
    ensures |r| == |s|
    ensures forall i :: 0 <= i < |s| ==> r[i] == UpperChar(s[i])
  {
    seq(|s|, i requires 0 <= i < |s| => UpperChar(s[i]))
  }

  /** Lower-casing twice is lower-casing once. */
  lemma ToLowerIdempotent(s: string)
    ensures ToLower(ToLower(s)) == ToLower(s)
  {
  }

  /** The characters that String.prototype.trim removes: the ECMAScript
      WhiteSpace set (tab, vertical tab, form feed, the byte-order mark and
      every space separator of category Zs) and the LineTerminator set
      (line feed, carriage return, line and paragraph separators). */
  const WhiteSpace: set<char> := {
    '\t', '\U{0B}', '\U{0C}', '\U{FEFF}',
    ' ', '\U{A0}', '\U{1680}',
    '\U{2000}', '\U{2001}', '\U{2002}', '\U{2003}', '\U{2004}', '\U{2005}',
    '\U{2006}', '\U{2007}', '\U{2008}', '\U{2009}', '\U{200A}',
    '\U{202F}', '\U{205F}', '\U{3000}',
    '\n', '\r', '\U{2028}', '\U{2029}'
  }

  predicate IsSpace(c: char) {
    c in WhiteSpace
  }

  predicate AllSpace(s: string) {
    forall i :: 0 <= i < |s| ==> IsSpace(s[i])
  }

  function TrimStart(s: string): string
  {
    if s != [] && IsSpace(s[0]) then TrimStart(s[1..]) else s
  }

  function TrimEnd(s: string): string
  {
    if s != [] && IsSpace(s[|s| - 1]) then TrimEnd(s[..|s| - 1]) else s
  }

  /** `trimStart` drops a white-space prefix and stops at the first other character. */
  lemma {:induction false} TrimStartShape(s: string)
    ensures |TrimStart(s)| <= |s| && TrimStart(s) == s[|s| - |TrimStart(s)|..]
    ensures TrimStart(s) == [] || !IsSpace(TrimStart(s)[0])
    ensures AllSpace(s[..|s| - |TrimStart(s)|])
  {
    if s != [] && IsSpace(s[0]) {
      TrimStartShape(s[1..]);
      var r := TrimStart(s[1..]);
      assert s[1..][|s| - 1 - |r|..] == s[|s| - |r|..];
      assert forall i :: 0 <= i < |s| - |r| ==> s[..|s| - |r|][i] == s[i];
      assert forall i :: 1 <= i < |s| - |r| ==> s[i] == s[1..][..|s| - 1 - |r|][i - 1];
    }
  }

  /** `trimEnd` drops a white-space suffix and stops at the last other character. */
  lemma {:induction false} TrimEndShape(s: string)
    ensures |TrimEnd(s)| <= |s| && TrimEnd(s) == s[..|TrimEnd(s)|]
    ensures TrimEnd(s) == [] || !IsSpace(TrimEnd(s)[|TrimEnd(s)| - 1])
    ensures AllSpace(s[|TrimEnd(s)|..])
  {
    if s != [] && IsSpace(s[|s| - 1]) {
      var p := s[..|s| - 1];
      TrimEndShape(p);
      var r := TrimEnd(p);
      assert p[..|r|] == s[..|r|];
      assert forall i :: |r| <= i < |s| - 1 ==> s[i] == p[|r|..][i - |r|];
      assert forall i :: 0 <= i < |s| - |r| ==> s[|r|..][i] == s[|r| + i];
    }
  }

  /** String.prototype.trim. */
  function Trim(s: string): (r: string)
  {
    TrimEnd(TrimStart(s))
  }

  /** `trim` removes exactly the leading and trailing white space: the result
      is a contiguous piece of the input with no white space at either end. */
  lemma TrimShape(s: string)
    ensures exists i, j :: 0 <= i <= j <= |s| && Trim(s) == s[i..j]
    ensures Trim(s) == [] || (!IsSpace(Trim(s)[0]) && !IsSpace(Trim(s)[|Trim(s)| - 1]))
  {
    var t := TrimStart(s);
    var i := |s| - |t|;
    var r := TrimEnd(t);
    TrimStartShape(s);
    TrimEndShape(t);
    assert r == t[..|r|] == s[i..i + |r|];
    if r != [] {
      assert r[0] == t[0];
    }
  }

  /** A string trims to "" exactly when it is blank (only white space). */
  lemma {:induction false} TrimEmptyIffBlank(s: string)
    ensures Trim(s) == [] <==> AllSpace(s)
  {
    var t := TrimStart(s);
    TrimStartShape(s);
    TrimEndShape(t);
    if t == [] {
      assert s[..|s|] == s;
    } else {
      assert TrimEnd(t) != [] by {
        assert t[0..] == t;
      }
      assert s[|s| - |t|] == t[0];
    }
  }

  /** Trimming is idempotent. */
  lemma TrimIdempotent(s: string)
    ensures Trim(Trim(s)) == Trim(s)
  {
    TrimShape(s);
    var r := Trim(s);
    if r != [] {
      assert TrimStart(r) == r;
      assert TrimEnd(r) == r;
    }
  }

  predicate IsPrefix(t: string, s: string) {
    |t| <= |s| && s[..|t|] == t
  }

  /** `t` occurs in `s` starting at position `i`. */
  predicate OccursAt(s: string, t: string, i: int) {
    0 <= i && i + |t| <= |s| && s[i..i + |t|] == t
  }

  /** String.prototype.includes. */
  function Contains(s: string, t: string): bool
    decreases |s|
  {
    IsPrefix(t, s) || (s != [] && Contains(s[1..], t))
  }

  /** `includes` holds exactly when `t` occurs at some position of `s`. */
  lemma {:induction false} ContainsIffOccurs(s: string, t: string)
    ensures Contains(s, t) <==> exists i :: OccursAt(s, t, i)
    decreases |s|
  {
    if IsPrefix(t, s) {
      assert OccursAt(s, t, 0);
    }
    if s != [] {
      ContainsIffOccurs(s[1..], t);
      if exists i :: OccursAt(s, t, i) {
        var i :| OccursAt(s, t, i);
        if i > 0 {
          assert s[1..][i - 1..i - 1 + |t|] == t;
          assert OccursAt(s[1..], t, i - 1);
        }
      }
      if Contains(s[1..], t) {
        var i :| OccursAt(s[1..], t, i);
        assert s[i + 1..i + 1 + |t|] == t;
        assert OccursAt(s, t, i + 1);
      }
    } else {
      if exists i :: OccursAt(s, t, i) {
        assert IsPrefix(t, s);
      }
    }
  }

  /** Every string includes the empty string. */
  lemma ContainsEmpty(s: string)
    ensures Contains(s, "")
  {
  }

  /** String.prototype.split with a one-character separator: the pieces
      between separators, including empty ones; always at least one piece. */
  function Split(s: string, sep: char): (r: seq<string>)
    ensures |r| >= 1
    ensures forall k :: 0 <= k < |r| ==> sep !in r[k]
  {
    if s == [] then [""]
    else
      var rest := Split(s[1..], sep);
      if s[0] == sep then [""] + rest
      else [[s[0]] + rest[0]] + rest[1..]
  }

  /** Array.prototype.join with a one-character separator. */
  function Join(parts: seq<string>, sep: char): string
  {
    if |parts| == 0 then ""
    else if |parts| == 1 then parts[0]
    else parts[0] + [sep] + Join(parts[1..], sep)
  }

  lemma {:induction false} JoinConsHead(c: char, parts: seq<string>, sep: char)
    requires |parts| >= 1
    ensures Join([[c] + parts[0]] + parts[1..], sep) == [c] + Join(parts, sep)
  {
    var q := [[c] + parts[0]] + parts[1..];
    if |parts| > 1 {
      assert q[1..] == parts[1..];
    }
  }

  /** An empty first piece puts a separator in front. */
  lemma JoinConsEmpty(parts: seq<string>, sep: char)
    requires |parts| >= 1
    ensures Join([""] + parts, sep) == [sep] + Join(parts, sep)
  {
    assert ([""] + parts)[1..] == parts;
    assert "" + [sep] + Join(parts, sep) == [sep] + Join(parts, sep);
  }

  /** Appending one more piece to a non-empty list adds a separator and the piece. */
  lemma {:induction false} JoinSnoc(parts: seq<string>, x: string, sep: char)
    requires |parts| >= 1
    ensures Join(parts + [x], sep) == Join(parts, sep) + [sep] + x
  {
    if |parts| > 1 {
      assert (parts + [x])[1..] == parts[1..] + [x];
      JoinSnoc(parts[1..], x, sep);
    }
  }

  /** `s.split(c).join(c) == s`. */
  lemma {:induction false} JoinSplit(s: string, sep: char)
    ensures Join(Split(s, sep), sep) == s
  {
    if s != [] {
      var rest := Split(s[1..], sep);
      JoinSplit(s[1..], sep);
      if s[0] == sep {
        assert Split(s, sep) == [""] + rest;
        assert ([""] + rest)[1..] == rest;
      } else {
        JoinConsHead(s[0], rest, sep);
      }
    }
  }

  /** Splitting a separator-free word followed by the rest of a string. */
  lemma {:induction false} SplitWordPrefix(w: string, s: string, sep: char)
    requires sep !in w
    ensures Split(w + s, sep) == [w + Split(s, sep)[0]] + Split(s, sep)[1..]
  {
    if w != [] {
      var S := Split(s, sep);
      assert (w + s)[0] == w[0] != sep;
      assert (w + s)[1..] == w[1..] + s;
      SplitWordPrefix(w[1..], s, sep);
      var rest := Split(w[1..] + s, sep);
      assert rest[0] == w[1..] + S[0] && rest[1..] == S[1..];
      assert Split(w + s, sep) == [[w[0]] + rest[0]] + rest[1..];
      assert [w[0]] + (w[1..] + S[0]) == w + S[0];
    } else {
      var S := Split(s, sep);
      assert w + s == s && w + S[0] == S[0];
      assert S == [S[0]] + S[1..];
    }
  }

  /** `parts.join(c).split(c) == parts` when no piece contains the separator. */
  lemma {:induction false} SplitJoin(parts: seq<string>, sep: char)
    requires |parts| >= 1
    requires forall k :: 0 <= k < |parts| ==> sep !in parts[k]
    ensures Split(Join(parts, sep), sep) == parts
  {
    if |parts| == 1 {
      SplitWordPrefix(parts[0], "", sep);
      assert parts[0] + "" == parts[0];
    } else {
      var tail := Join(parts[1..], sep);
      SplitJoin(parts[1..], sep);
      assert Join(parts, sep) == parts[0] + ([sep] + tail);
      SplitWordPrefix(parts[0], [sep] + tail, sep);
      assert ([sep] + tail)[1..] == tail;
      assert Split([sep] + tail, sep) == [""] + parts[1..];
      assert parts[0] + "" == parts[0];
    }
  }

  /** String.prototype.replace(from, to) with one-character strings: only
      the FIRST occurrence is replaced. */
  function ReplaceFirst(s: string, from: char, to: char): (r: string)
    ensures |r| == |s|
  {
    if s == [] then []
    else if s[0] == from then [to] + s[1..]
    else [s[0]] + ReplaceFirst(s[1..], from, to)
  }

  /** `replace` changes at most one position: the first occurrence of `from`. */
  lemma {:induction false} ReplaceFirstAt(s: string, from: char, to: char, k: nat)
    requires k < |s| && s[k] == from
    requires forall j :: 0 <= j < k ==> s[j] != from
    ensures ReplaceFirst(s, from, to) == s[..k] + [to] + s[k + 1..]
  {
    if k > 0 {
      ReplaceFirstAt(s[1..], from, to, k - 1);
      assert [s[0]] + s[1..][..k - 1] == s[..k];
      assert s[1..][k..] == s[k + 1..];
    }
  }

  /** `replace` on a word free of `from`, then `from`, then anything: the
      `from` right after the word is the one replaced. */
  lemma {:induction false} ReplaceFirstAfterWord(w: string, rest: string, from: char, to: char)
    requires from !in w
    ensures ReplaceFirst(w + [from] + rest, from, to) == w + [to] + rest
  {
    if w != [] {
      assert (w + [from] + rest)[1..] == w[1..] + [from] + rest;
      ReplaceFirstAfterWord(w[1..], rest, from, to);
      assert [w[0]] + (w[1..] + [to] + rest) == w + [to] + rest;
    } else {
      assert w + [from] + rest == [from] + rest;
      assert ([from] + rest)[1..] == rest;
    }
  }

  /** Without `from` in it, `replace` leaves the string as it is. */
  lemma {:induction false} ReplaceFirstAbsent(s: string, from: char, to: char)
    requires forall j :: 0 <= j < |s| ==> s[j] != from
    ensures ReplaceFirst(s, from, to) == s
  {
    if s != [] {
      ReplaceFirstAbsent(s[1..], from, to);
    }
  }

  /** `s.charAt(0).toUpperCase() + s.slice(1)`. */
  function Capitalize(s: string): (r: string)
    ensures |r| == |s|
    ensures s != [] ==> r[0] == UpperChar(s[0]) && r[1..] == s[1..]
  {
    if s == [] then [] else [UpperChar(s[0])] + s[1..]
  }
}

=== FILE: training_assignments.dfy ===
/** The admin's "Training Assignments" view: the decorated progress rows
    grouped into one bucket per module (the `reduce` that mutates its
    accumulator), and the completion rate and badge on each module card. */
module TrainingAssignmentsView {
  import opened Common
  import opened Types
  import opened Rates
  import opened Tally
  import opened EmployeeProgressHook

  /** One line of a bucket's employee list. */
  datatype EmployeeEntry = EmployeeEntry(
    name: string,
    status: Option<ProgressStatus>,
    progress: int,
    completedAt: Option<nat>,
    startedAt: Option<nat>)

  /** The accumulator entry of one module. */
  datatype Bucket = Bucket(
    moduleTitle: string,
    total: nat,
    completed: nat,
    inProgress: nat,
    notStarted: nat,
    employees: seq<EmployeeEntry>)

  /** `name || fallback` on a display string. */
  function OrElse(s: string, fallback: string): (r: string)
    ensures r != [] || fallback == []
  {
    if s == "" then fallback else s
  }

  /** The entry pushed for a row: name falls back to "Unknown", progress to 0. */
  function EntryOf(v: ProgressView): EmployeeEntry {
    EmployeeEntry(OrElse(v.employeeName, "Unknown"), v.row.status, PercentOrZero(v.row.progressPercentage),
                  v.row.completedAt, v.row.startedAt)
  }

  /** The bucket created the first time a module is seen. */
  function Fresh(v: ProgressView): Bucket {
    Bucket(OrElse(v.moduleTitle, "Unknown Module"), 0, 0, 0, 0, [])
  }

  function Inc(n: nat, b: bool): nat {
    if b then n + 1 else n
  }

  /** What one row does to its module's bucket: the total, the counter of its
      status (a null status touches none of the three), and one more entry. */
  function Add(b: Bucket, v: ProgressView): Bucket {
    Bucket(
      b.moduleTitle,
      b.total + 1,
      Inc(b.completed, v.row.status == Some(Completed)),
      Inc(b.inProgress, v.row.status == Some(InProgress)),
      Inc(b.notStarted, v.row.status == Some(NotStarted)),
      b.employees + [EntryOf(v)])
  }

  /** The bucket of a module's rows, in the order the rows come. */
  function BucketOf(rows: seq<ProgressView>): Bucket
    requires rows != []
  {
    if |rows| == 1 then Add(Fresh(rows[0]), rows[0])
    else Add(BucketOf(rows[..|rows| - 1]), rows[|rows| - 1])
  }

  /** The counter a bucket keeps for one status. */
  function Counter(b: Bucket, s: ProgressStatus): nat {
    match s
    case Completed => b.completed
    case InProgress => b.inProgress
    case NotStarted => b.notStarted
  }

  /** A row bumps the counter of its own status and no other. */
  lemma AddCounter(b: Bucket, v: ProgressView, s: ProgressStatus)
    ensures Counter(Add(b, v), s) == Counter(b, s) + (if HasStatus(ViewStatus, Some(s))(v) then 1 else 0)
  {
    assert ViewStatus(v) == v.row.status;
    assert HasStatus(ViewStatus, Some(s))(v) == (ViewStatus(v) == Some(s));
  }

  /** Each counter of a bucket is the number of its rows with that status. */
  lemma {:induction false} BucketCounts(rows: seq<ProgressView>, s: ProgressStatus)
    requires rows != []
    ensures Counter(BucketOf(rows), s) == CountStatus(rows, ViewStatus, Some(s))
  {
    var f := HasStatus(ViewStatus, Some(s));
    var last := rows[|rows| - 1];
    CountSnoc(rows, f);
    if |rows| > 1 {
      var init := rows[..|rows| - 1];
      BucketCounts(init, s);
      AddCounter(BucketOf(init), last, s);
      assert BucketOf(rows) == Add(BucketOf(init), last);
      assert Counter(BucketOf(rows), s) == Counter(BucketOf(init), s) + (if f(last) then 1 else 0);
    } else {
      assert rows[..0] == [];
      AddCounter(Fresh(last), last, s);
      assert BucketOf(rows) == Add(Fresh(last), last);
      assert Counter(BucketOf(rows), s) == (if f(last) then 1 else 0);
    }
  }

  /** A bucket's title comes from its first row (or is "Unknown Module"), its
      total is its number of rows, and it lists one entry per row, in order. */
  lemma {:induction false} BucketShape(rows: seq<ProgressView>)
    requires rows != []
    ensures var b := BucketOf(rows);
            && b.moduleTitle == OrElse(rows[0].moduleTitle, "Unknown Module")
            && b.total == |rows|
            && b.employees == Map(rows, EntryOf)
  {
    var n := |rows|;
    if n > 1 {
      var init := rows[..n - 1];
      BucketShape(init);
      assert init[0] == rows[0];
      assert Map(init, EntryOf) + [EntryOf(rows[n - 1])] == Map(rows, EntryOf);
    }
  }

  /** Everything a bucket holds, by status. */
  lemma BucketOfMeaning(rows: seq<ProgressView>)
    requires rows != []
    ensures var b := BucketOf(rows);
            && b.moduleTitle == OrElse(rows[0].moduleTitle, "Unknown Module")
            && b.total == |rows|
            && b.completed == CountStatus(rows, ViewStatus, Some(Completed))
            && b.inProgress == CountStatus(rows, ViewStatus, Some(InProgress))
            && b.notStarted == CountStatus(rows, ViewStatus, Some(NotStarted))
            && b.employees == Map(rows, EntryOf)
  {
    BucketShape(rows);
    BucketCounts(rows, Completed);
    BucketCounts(rows, InProgress);
    BucketCounts(rows, NotStarted);
  }

  /** With no null status among the rows, the three counters fill the total. */
  lemma BucketCountersFillTotal(rows: seq<ProgressView>)
    requires rows != []
    requires forall i :: 0 <= i < |rows| ==> rows[i].row.status.Some?
    ensures var b := BucketOf(rows); b.completed + b.inProgress + b.notStarted == b.total
  {
    BucketOfMeaning(rows);
    StatusCountsBound(rows, ViewStatus);
  }

  predicate NoDuplicates(s: seq<string>) {
    forall i, j :: 0 <= i < j < |s| ==> s[i] != s[j]
  }

  /** The rows of one module arriving one by one. */
  lemma SnocModuleRows(p: seq<ProgressView>, v: ProgressView, m: string)
    ensures GetModuleProgress(p + [v], m) == GetModuleProgress(p, m) + (if v.row.moduleId == m then [v] else [])
  {
    FilterAppend(p, [v], ModuleIs(m));
    assert Filter([v], ModuleIs(m)) == (if v.row.moduleId == m then [v] else []) by {
      assert [v][1..] == [];
      assert ModuleIs(m)(v) == (v.row.moduleId == m);
    }
  }

  /** A module with no row so far has no rows to show. */
  lemma NoRowsYet(p: seq<ProgressView>, m: string)
    requires forall j :: 0 <= j < |p| ==> p[j].row.moduleId != m
    ensures GetModuleProgress(p, m) == []
  {
    FilterNone(p, ModuleIs(m));
  }

  /** A bucket takes its rows one at a time. */
  lemma BucketSnoc(rows: seq<ProgressView>, v: ProgressView)
    requires rows != []
    ensures BucketOf(rows + [v]) == Add(BucketOf(rows), v)
  {
    assert (rows + [v])[..|rows|] == rows;
  }

  /** The keys of `stats` are exactly the module ids of `p`. */
  ghost predicate KeysAreModules(p: seq<ProgressView>, stats: map<string, Bucket>) {
    forall m :: m in stats <==> exists j :: 0 <= j < |p| && p[j].row.moduleId == m
  }

  /** Each entry of `stats` is the bucket of its module's rows in `p`. */
  ghost predicate BucketsMatch(p: seq<ProgressView>, stats: map<string, Bucket>) {
    forall m :: m in stats ==> GetModuleProgress(p, m) != [] && stats[m] == BucketOf(GetModuleProgress(p, m))
  }

  /** What the fold does with one more row: its module's bucket (a fresh one
      the first time) takes the row. */
  function AddRow(stats: map<string, Bucket>, v: ProgressView): map<string, Bucket> {
    var m := v.row.moduleId;
    stats[m := Add(if m in stats then stats[m] else Fresh(v), v)]
  }

  lemma AddRowKeys(p: seq<ProgressView>, v: ProgressView, stats: map<string, Bucket>)
    requires KeysAreModules(p, stats)
    ensures KeysAreModules(p + [v], AddRow(stats, v))
  {
    var after := AddRow(stats, v);
    forall k ensures k in after <==> exists j :: 0 <= j < |p + [v]| && (p + [v])[j].row.moduleId == k {
      if k == v.row.moduleId {
        assert (p + [v])[|p|].row.moduleId == k;
      } else if k in stats {
        var j :| 0 <= j < |p| && p[j].row.moduleId == k;
        assert (p + [v])[j] == p[j];
      } else {
        forall j | 0 <= j < |p + [v]| ensures (p + [v])[j].row.moduleId != k {
          if j < |p| {
            assert (p + [v])[j] == p[j];
          }
        }
      }
    }
  }

  /** One module's bucket after one more row. */
  lemma AddRowBucket(p: seq<ProgressView>, v: ProgressView, stats: map<string, Bucket>, k: string)
    requires k in stats ==> GetModuleProgress(p, k) != [] && stats[k] == BucketOf(GetModuleProgress(p, k))
    requires k !in stats ==> GetModuleProgress(p, k) == []
    requires k in AddRow(stats, v)
    ensures GetModuleProgress(p + [v], k) != []
    ensures AddRow(stats, v)[k] == BucketOf(GetModuleProgress(p + [v], k))
  {
    SnocModuleRows(p, v, k);
    var before := GetModuleProgress(p, k);
    if k != v.row.moduleId {
      assert GetModuleProgress(p + [v], k) == before;
    } else if k in stats {
      BucketSnoc(before, v);
    } else {
      assert GetModuleProgress(p + [v], k) == [v];
    }
  }

  lemma AddRowBuckets(p: seq<ProgressView>, v: ProgressView, stats: map<string, Bucket>)
    requires KeysAreModules(p, stats) && BucketsMatch(p, stats)
    ensures BucketsMatch(p + [v], AddRow(stats, v))
  {
    var m := v.row.moduleId;
    if m !in stats {
      NoRowsYet(p, m);
    }
    forall k | k in AddRow(stats, v)
      ensures GetModuleProgress(p + [v], k) != []
      ensures AddRow(stats, v)[k] == BucketOf(GetModuleProgress(p + [v], k))
    {
      AddRowBucket(p, v, stats, k);
    }
  }

  /** The accumulator after folding `AddRow` over the rows, from an empty object. */
  function GroupAll(p: seq<ProgressView>): map<string, Bucket> {
    if p == [] then map[] else AddRow(GroupAll(p[..|p| - 1]), p[|p| - 1])
  }

  /** The folded accumulator has one key per module id of the rows, and each
      entry is the bucket of that module's rows in the order they came. */
  lemma {:induction false} GroupAllMeaning(p: seq<ProgressView>)
    ensures KeysAreModules(p, GroupAll(p))
    ensures BucketsMatch(p, GroupAll(p))
  {
    if p != [] {
      var init := p[..|p| - 1];
      var last := p[|p| - 1];
      GroupAllMeaning(init);
      assert init + [last] == p;
      assert GroupAll(p) == AddRow(GroupAll(init), last);
      assert KeysAreModules(p, GroupAll(p)) by {
        AddRowKeys(init, last, GroupAll(init));
      }
      assert BucketsMatch(p, GroupAll(p)) by {
        AddRowBuckets(init, last, GroupAll(init));
      }
    }
  }

  /** The module ids of the rows, each once, in the order of their first row:
      the order in which the fold creates its keys. */
  function ModuleOrder(p: seq<ProgressView>): seq<string> {
    if p == [] then []
    else
      var order := ModuleOrder(p[..|p| - 1]);
      var m := p[|p| - 1].row.moduleId;
      if m in order then order else order + [m]
  }

  /** The key list names each module of the rows, once, and nothing else. */
  lemma {:induction false} ModuleOrderMembers(p: seq<ProgressView>)
    ensures NoDuplicates(ModuleOrder(p))
    ensures forall m :: m in ModuleOrder(p) <==> exists k :: 0 <= k < |p| && p[k].row.moduleId == m
  {
    if p != [] {
      var init := p[..|p| - 1];
      ModuleOrderMembers(init);
      forall m | m in ModuleOrder(p)
        ensures exists k :: 0 <= k < |p| && p[k].row.moduleId == m
      {
        if m in ModuleOrder(init) {
          var k :| 0 <= k < |init| && init[k].row.moduleId == m;
          assert p[k] == init[k];
        } else {
          assert p[|p| - 1].row.moduleId == m;
        }
      }
      forall m | exists k :: 0 <= k < |p| && p[k].row.moduleId == m
        ensures m in ModuleOrder(p)
      {
        var k :| 0 <= k < |p| && p[k].row.moduleId == m;
        if k < |p| - 1 {
          assert init[k] == p[k];
        }
      }
    }
  }

  /** Keys come in order of first appearance: every row of the `j`-th module
      is preceded by a row of each earlier module `i`. */
  lemma {:induction false} ModuleOrderFirstAppearance(p: seq<ProgressView>, i: nat, j: nat, k: nat)
    requires i < j < |ModuleOrder(p)|
    requires k < |p| && p[k].row.moduleId == ModuleOrder(p)[j]
    ensures exists l :: 0 <= l < k && p[l].row.moduleId == ModuleOrder(p)[i]
  {
    var init := p[..|p| - 1];
    var order := ModuleOrder(init);
    var m := p[|p| - 1].row.moduleId;
    ModuleOrderMembers(init);
    if j < |order| {
      assert ModuleOrder(p)[i] == order[i] && ModuleOrder(p)[j] == order[j];
      if k < |p| - 1 {
        assert init[k] == p[k];
        ModuleOrderFirstAppearance(init, i, j, k);
        var l :| 0 <= l < k && init[l].row.moduleId == order[i];
        assert p[l] == init[l];
      } else {
        assert order[j] in order;
        var k' :| 0 <= k' < |init| && init[k'].row.moduleId == order[j];
        ModuleOrderFirstAppearance(init, i, j, k');
        var l :| 0 <= l < k' && init[l].row.moduleId == order[i];
        assert p[l] == init[l];
      }
    } else {
      assert m !in order && ModuleOrder(p) == order + [m];
      assert ModuleOrder(p)[i] == order[i] && ModuleOrder(p)[j] == m;
      assert order[i] in order;
      var l :| 0 <= l < |init| && init[l].row.moduleId == order[i];
      assert p[l] == init[l];
      if k < |p| - 1 {
        assert false;
      }
    }
  }

  /** The in-place update of one bucket: `total++`, the counter of the row's
      status `++`, and the entry pushed. */
  method Bump(bucket: Bucket, v: ProgressView) returns (b: Bucket)
    ensures b == Add(bucket, v)
  {
    b := bucket;
    b := b.(total := b.total + 1);
    match v.row.status {
      case Some(Completed) => b := b.(completed := b.completed + 1);
      case Some(InProgress) => b := b.(inProgress := b.inProgress + 1);
      case Some(NotStarted) => b := b.(notStarted := b.notStarted + 1);
      case None =>
    }
    b := b.(employees := b.employees + [EntryOf(v)]);
  }

  /** `moduleStats`: the imperative fold. Each row bumps its module's bucket
      in place; `order` is the key list `Object.entries` walks. */
  method GroupByModule(progress: seq<ProgressView>) returns (stats: map<string, Bucket>, order: seq<string>)
    ensures stats == GroupAll(progress)
    ensures order == ModuleOrder(progress)
    ensures NoDuplicates(order)
    ensures forall m :: m in stats <==> m in order
  {
    stats := map[];
    order := [];
    var i := 0;
    while i < |progress|
      invariant 0 <= i <= |progress|
      invariant stats == GroupAll(progress[..i])
      invariant order == ModuleOrder(progress[..i])
      invariant forall m :: m in stats <==> m in order
    {
      var v := progress[i];
      var m := v.row.moduleId;
      assert progress[..i + 1][..i] == progress[..i];
      ghost var nextOrder := if m in order then order else order + [m];
      assert ModuleOrder(progress[..i + 1]) == nextOrder;
      ghost var next := AddRow(stats, v);
      ghost var base := if m in stats then stats[m] else Fresh(v);
      if m !in stats {
        stats := stats[m := Fresh(v)];
        order := order + [m];
      }
      var b := Bump(stats[m], v);
      assert b == Add(base, v);
      stats := stats[m := b];
      assert stats == next;
      i := i + 1;
    }
    assert progress[..i] == progress;
    ModuleOrderMembers(progress);
  }

  /** What the grouped map holds: exactly the modules present, each with the
      bucket of its own rows. */
  lemma GroupByModuleMeaning(progress: seq<ProgressView>, m: string)
    ensures m in GroupAll(progress) <==> exists j :: 0 <= j < |progress| && progress[j].row.moduleId == m
    ensures m in GroupAll(progress) ==>
      GetModuleProgress(progress, m) != [] && GroupAll(progress)[m] == BucketOf(GetModuleProgress(progress, m))
  {
    GroupAllMeaning(progress);
  }

  /** The card's rate: rounded share of completed rows, 0 for an empty bucket. */
  function CardRate(b: Bucket): (rate: int)
    ensures b.total == 0 ==> rate == 0
    ensures b.total > 0 ==> rate == CompletionRate(b.completed, b.total)
  {
    if b.total > 0 then CompletionRate(b.completed, b.total) else 0
  }

  /** The badge is the default variant exactly at 100%. */
  function Badge(rate: int): (v: BadgeVariant)
    ensures v == Default <==> rate == 100
  {
    if rate == 100 then Default else Secondary
  }

  /** A module whose rows are all completed shows 100% and the default badge. */
  lemma {:induction false} AllCompletedShowsDefault(rows: seq<ProgressView>)
    requires rows != []
    requires forall i :: 0 <= i < |rows| ==> rows[i].row.status == Some(Completed)
    ensures CardRate(BucketOf(rows)) == 100 && Badge(CardRate(BucketOf(rows))) == Default
  {
    var b := BucketOf(rows);
    BucketShape(rows);
    BucketCounts(rows, Completed);
    CountStatusAll(rows, ViewStatus, Some(Completed));
    RateAllCompleted(b.total);
  }

  /** Every card shows a percentage in 0..100. */
  lemma CardRateIsPercentage(rows: seq<ProgressView>)
    requires rows != []
    ensures 0 <= CardRate(BucketOf(rows)) <= 100
  {
    BucketOfMeaning(rows);
  }

  /** Rounding can show the default badge before everyone is done: 199 of 200
      completed rounds to 100%. */
  lemma NearlyCompleteShowsDefault()
    ensures Badge(CardRate(Bucket("m", 200, 199, 1, 0, []))) == Default
  {
    RoundDivUnique(19900, 200, 100);
  }
}

=== FILE: training_management.dfy ===
/** The admin's "Training Modules" view: one progress summary per module,
    looked up by module id, and the completion rate shown on each card. */
module TrainingManagementView {
  import opened Common
  import opened Types
  import opened Rates
  import opened Tally

  /** `ModuleProgress`: the per-module counters. */
  datatype ModuleProgress = ModuleProgress(
    moduleId: string,
    totalAssigned: nat,
    completed: nat,
    inProgress: nat,
    notStarted: nat)

  function OfModule(moduleId: string): ProgressRow -> bool {
    (r: ProgressRow) => r.moduleId == moduleId
  }

  /** The rows of one module that have status `s`. */
  function ModuleRowWith(moduleId: string, s: Option<ProgressStatus>): ProgressRow -> bool {
    (r: ProgressRow) => r.moduleId == moduleId && r.status == s
  }

  /** Counting one status among the modules's own rows is counting, in all
      rows, those of the module with that status. */
  lemma ModuleRowWithCount(progress: seq<ProgressRow>, moduleId: string, s: Option<ProgressStatus>)
    ensures CountStatus(Filter(progress, OfModule(moduleId)), RowStatus, s) == Count(progress, ModuleRowWith(moduleId, s))
  {
    forall i | 0 <= i < |progress|
      ensures ModuleRowWith(moduleId, s)(progress[i]) == (OfModule(moduleId)(progress[i]) && HasStatus(RowStatus, s)(progress[i]))
    {
      assert HasStatus(RowStatus, s)(progress[i]) == (RowStatus(progress[i]) == s);
    }
    CountOfFilter(progress, OfModule(moduleId), HasStatus(RowStatus, s), ModuleRowWith(moduleId, s));
  }

  /** The summary of one module: its rows, and how many of them have each status. */
  function StatsFor(progress: seq<ProgressRow>, moduleId: string): (p: ModuleProgress)
    ensures p.moduleId == moduleId
    ensures p.totalAssigned == Count(progress, OfModule(moduleId))
    ensures p.completed == Count(progress, ModuleRowWith(moduleId, Some(Completed)))
    ensures p.inProgress == Count(progress, ModuleRowWith(moduleId, Some(InProgress)))
    ensures p.notStarted == Count(progress, ModuleRowWith(moduleId, Some(NotStarted)))
    ensures p.completed + p.inProgress + p.notStarted <= p.totalAssigned
  {
    var rows := Filter(progress, OfModule(moduleId));
    StatusCountsBound(rows, RowStatus);
    ModuleRowWithCount(progress, moduleId, Some(Completed));
    ModuleRowWithCount(progress, moduleId, Some(InProgress));
    ModuleRowWithCount(progress, moduleId, Some(NotStarted));
    ModuleProgress(
      moduleId,
      |rows|,
      CountStatus(rows, RowStatus, Some(Completed)),
      CountStatus(rows, RowStatus, Some(InProgress)),
      CountStatus(rows, RowStatus, Some(NotStarted)))
  }

  /** With no null status among a module's rows the three counters add up
      to the number of rows. */
  lemma StatsExactWithoutNulls(progress: seq<ProgressRow>, moduleId: string)
    requires forall i :: 0 <= i < |progress| && progress[i].moduleId == moduleId ==> progress[i].status.Some?
    ensures var p := StatsFor(progress, moduleId);
            p.completed + p.inProgress + p.notStarted == p.totalAssigned
  {
    var rows := Filter(progress, OfModule(moduleId));
    forall i | 0 <= i < |rows| ensures RowStatus(rows[i]).Some? {
      assert OfModule(moduleId)(rows[i]) && rows[i] in progress;
    }
    StatusCountsBound(rows, RowStatus);
  }

  /** `progressStats`: one summary per module, in module order. */
  function ProgressStats(modules: seq<TrainingModule>, progress: seq<ProgressRow>): (r: seq<ModuleProgress>)
    ensures |r| == |modules|
    ensures forall i :: 0 <= i < |modules| ==> r[i] == StatsFor(progress, modules[i].id)
  {
    Map(modules, (m: TrainingModule) => StatsFor(progress, m.id))
  }

  function ForModule(moduleId: string): ModuleProgress -> bool {
    (p: ModuleProgress) => p.moduleId == moduleId
  }

  /** `getModuleProgress`: the first summary for that module, if any. */
  function GetModuleProgress(data: seq<ModuleProgress>, moduleId: string): (r: Option<ModuleProgress>)
    ensures r.None? <==> forall i :: 0 <= i < |data| ==> data[i].moduleId != moduleId
    ensures r.Some? ==> r.value.moduleId == moduleId && r.value in data
  {
    Find(data, ForModule(moduleId))
  }

  /** `calculateCompletionRate`: 0 without a summary or with nothing
      assigned, else the rounded percentage of completed rows. */
  function CalculateCompletionRate(data: seq<ModuleProgress>, moduleId: string): (rate: int)
    ensures GetModuleProgress(data, moduleId).None? ==> rate == 0
    ensures GetModuleProgress(data, moduleId).Some? ==>
      rate == CompletionRate(GetModuleProgress(data, moduleId).value.completed,
                             GetModuleProgress(data, moduleId).value.totalAssigned)
  {
    match GetModuleProgress(data, moduleId)
    case None => 0
    case Some(p) => if p.totalAssigned == 0 then 0 else CompletionRate(p.completed, p.totalAssigned)
  }

  /** Every module of the list finds its own summary, even if its id is repeated. */
  lemma {:induction false} LookupFindsOwnStats(modules: seq<TrainingModule>, progress: seq<ProgressRow>, k: nat)
    requires k < |modules|
    ensures GetModuleProgress(ProgressStats(modules, progress), modules[k].id) == Some(StatsFor(progress, modules[k].id))
  {
    var data := ProgressStats(modules, progress);
    var r := GetModuleProgress(data, modules[k].id);
    assert data[k].moduleId == modules[k].id;
    var i :| 0 <= i < |data| && data[i] == r.value && ForModule(modules[k].id)(data[i]);
    assert data[i] == StatsFor(progress, modules[i].id);
  }

  /** The rate shown for any module id is a percentage in 0..100, and for a
      listed module it is the rounded share of its completed rows. */
  lemma RateIsPercentage(modules: seq<TrainingModule>, progress: seq<ProgressRow>, moduleId: string)
    ensures 0 <= CalculateCompletionRate(ProgressStats(modules, progress), moduleId) <= 100
  {
    var data := ProgressStats(modules, progress);
    var r := GetModuleProgress(data, moduleId);
    if r.Some? {
      var i :| 0 <= i < |data| && data[i] == r.value;
      assert data[i] == StatsFor(progress, modules[i].id);
    }
  }

  /** What a module's card shows: the badge, the description line, and for
      an admin that has a summary of the module, the counters and the rate. */
  datatype ModuleCard = ModuleCard(
    title: string,
    badge: string,
    variant: BadgeVariant,
    description: Option<string>,
    stats: Option<ModuleProgress>,
    rate: Option<int>)

  /** A card: "Active" (default variant) exactly for an active module, a
      null flag reading as inactive; the description only when not empty;
      the progress block only for an admin and only when the module has a
      summary, with the rate `calculateCompletionRate` gives. */
  function CardFor(isCompanyAdmin: bool, data: seq<ModuleProgress>, m: TrainingModule): (c: ModuleCard)
    ensures c.title == m.title
    ensures c.badge == "Active" <==> Truthy(m.isActive)
    ensures c.badge == "Active" <==> c.variant == Default
    ensures c.badge != "Active" ==> c.badge == "Inactive" && c.variant == Secondary
    ensures c.description.Some? <==> Present(m.description)
    ensures c.description.Some? ==> c.description == m.description
    ensures c.stats.Some? <==> isCompanyAdmin && GetModuleProgress(data, m.id).Some?
    ensures c.stats.Some? ==> c.stats == GetModuleProgress(data, m.id)
    ensures c.rate.Some? <==> c.stats.Some?
    ensures c.rate.Some? ==> c.rate.value == CalculateCompletionRate(data, m.id)
  {
    var active := Truthy(m.isActive);
    var summary := GetModuleProgress(data, m.id);
    var shown := isCompanyAdmin && summary.Some?;
    ModuleCard(
      m.title,
      if active then "Active" else "Inactive",
      if active then Default else Secondary,
      if Present(m.description) then m.description else None,
      if shown then summary else None,
      if shown then Some(CalculateCompletionRate(data, m.id)) else None)
  }

  /** On a card drawn from the view's own summaries, an admin always sees the
      progress block with a rate in 0..100. */
  lemma AdminCardShowsRate(modules: seq<TrainingModule>, progress: seq<ProgressRow>, k: nat)
    requires k < |modules|
    ensures var c := CardFor(true, ProgressStats(modules, progress), modules[k]);
            c.stats == Some(StatsFor(progress, modules[k].id)) && c.rate.Some? && 0 <= c.rate.value <= 100
  {
    LookupFindsOwnStats(modules, progress, k);
    RateIsPercentage(modules, progress, modules[k].id);
  }

  /** The view's state. */
  class TrainingManagementState {
    var modules: seq<TrainingModule>
    var progressData: seq<ModuleProgress>
    var loading: bool

    constructor ()
      ensures modules == [] && progressData == [] && loading
    {
      modules := [];
      progressData := [];
      loading := true;
    }

    /** `fetchTrainingModules`: nothing happens without a company; otherwise a
        successful read replaces the list and the loading flag drops either way. */
    method FetchTrainingModules(companyId: Option<string>, response: Result<seq<TrainingModule>>)
      modifies this
      ensures !Present(companyId) ==> modules == old(modules) && loading == old(loading)
      ensures Present(companyId) && response.Ok? ==> modules == response.value
      ensures Present(companyId) && response.Err? ==> modules == old(modules)
      ensures Present(companyId) ==> !loading
      ensures progressData == old(progressData)
    {
      if !Present(companyId) {
        return;
      }
      if response.Ok? {
        modules := response.value;
      }
      loading := false;
    }

    /** `fetchProgressData`: with a company and both reads successful, the
        summaries are recomputed for the modules currently held; any failure
        leaves them as they were. */
    method FetchProgressData(companyId: Option<string>, employeeIds: Result<seq<string>>,
                             progress: Result<seq<ProgressRow>>)
      modifies this
      ensures Present(companyId) && employeeIds.Ok? && progress.Ok? ==>
        progressData == ProgressStats(modules, progress.value)
      ensures !(Present(companyId) && employeeIds.Ok? && progress.Ok?) ==> progressData == old(progressData)
      ensures modules == old(modules) && loading == old(loading)
    {
      if !Present(companyId) || employeeIds.Err? || progress.Err? {
        return;
      }
      progressData := ProgressStats(modules, progress.value);
    }
  }
}

=== FILE: training_management_panel.dfy ===
/** The admin's training management panel: its own module list (with a due
    date and a duration), the new-module form, visibility toggling, deletion,
    the search and status filter, and the bulk assignment of a module to
    every employee of the company. */
module TrainingManagementPanelView {
  import opened Common
  import opened Types
  import Text
  import opened EmployeeProgressHook

  /** The panel's `TrainingModule` shape: `is_active` is a plain boolean and
      `due_date` / `estimated_duration` may be missing. */
  datatype PanelModule = PanelModule(
    id: string,
    title: string,
    description: Option<string>,
    isActive: bool,
    createdAt: nat,
    updatedAt: nat,
    dueDate: Option<string>,
    estimatedDuration: Option<int>)

  /** The panel's `Employee` shape. */
  datatype PanelEmployee = PanelEmployee(
    id: string,
    firstName: Option<string>,
    lastName: Option<string>,
    email: string)

  /** The `newModule` form. */
  datatype NewModuleForm = NewModuleForm(
    title: string,
    description: string,
    isActive: bool,
    dueDate: string,
    estimatedDuration: int)

  /** The form's defaults, also what it is reset to after a create. */
  const EmptyForm: NewModuleForm := NewModuleForm("", "", true, "", 0)

  /** The insert `createModule` sends. */
  datatype PanelInsert = PanelInsert(
    title: string,
    description: string,
    isActive: bool,
    dueDate: Option<string>,
    estimatedDuration: Option<int>,
    companyId: string)

  // ---------------------------------------------------------------------
  // createModule
  // ---------------------------------------------------------------------

  /** The create button acts only with a company and a title that is not blank. */
  predicate CanCreate(companyId: Option<string>, form: NewModuleForm) {
    Present(companyId) && Text.Trim(form.title) != ""
  }

  /** `{ ...newModule, company_id, estimated_duration: d || null,
      due_date: due || null }`: the title and description go as typed. */
  function CreatePayload(form: NewModuleForm, companyId: string): (p: PanelInsert)
    ensures p.title == form.title && p.description == form.description
    ensures p.isActive == form.isActive && p.companyId == companyId
    ensures p.estimatedDuration.None? <==> form.estimatedDuration == 0
    ensures p.estimatedDuration.Some? ==> p.estimatedDuration.value == form.estimatedDuration
    ensures p.dueDate.None? <==> form.dueDate == ""
    ensures p.dueDate.Some? ==> p.dueDate.value == form.dueDate
  {
    PanelInsert(
      form.title,
      form.description,
      form.isActive,
      if form.dueDate == "" then None else Some(form.dueDate),
      if form.estimatedDuration == 0 then None else Some(form.estimatedDuration),
      companyId)
  }

  /** What a press of Create sends: nothing unless the button may act, else
      the payload for the profile's company. */
  function Creation(form: NewModuleForm, companyId: Option<string>): (sent: Option<PanelInsert>)
    ensures sent.None? <==> !CanCreate(companyId, form)
    ensures sent.Some? ==> sent.value == CreatePayload(form, companyId.value)
  {
    if CanCreate(companyId, form) then Some(CreatePayload(form, companyId.value)) else None
  }

  // ---------------------------------------------------------------------
  // The list operations
  // ---------------------------------------------------------------------

  /** `prev.map(m => m.id === id ? { ...m, is_active: active } : m)`. */
  function SetActiveById(list: seq<PanelModule>, id: string, active: bool): (r: seq<PanelModule>)
    ensures |r| == |list|
    ensures forall i :: 0 <= i < |list| && list[i].id == id ==> r[i] == list[i].(isActive := active)
    ensures forall i :: 0 <= i < |list| && list[i].id != id ==> r[i] == list[i]
  {
    Map(list, (m: PanelModule) => if m.id == id then m.(isActive := active) else m)
  }

  /** Hiding a module and showing it again gives back the list. */
  lemma ToggleRoundTrip(list: seq<PanelModule>, id: string, current: bool)
    requires forall i :: 0 <= i < |list| && list[i].id == id ==> list[i].isActive == current
    ensures SetActiveById(SetActiveById(list, id, !current), id, current) == list
  {
  }

  function IdIsNot(id: string): PanelModule -> bool {
    (m: PanelModule) => m.id != id
  }

  /** `prev.filter(m => m.id !== id)`. */
  function RemoveById(list: seq<PanelModule>, id: string): (r: seq<PanelModule>)
    ensures forall i :: 0 <= i < |r| ==> r[i].id != id && r[i] in list
    ensures forall i :: 0 <= i < |list| && list[i].id != id ==> list[i] in r
    ensures |r| <= |list|
  {
    Filter(list, IdIsNot(id))
  }

  /** Removal keeps the order of what remains. */
  lemma RemoveKeepsOrder(a: seq<PanelModule>, b: seq<PanelModule>, id: string)
    ensures RemoveById(a + b, id) == RemoveById(a, id) + RemoveById(b, id)
  {
    FilterAppend(a, b, IdIsNot(id));
  }

  /** Deleting a module just created (with a new id) gives back the old list. */
  lemma DeleteUndoesCreate(list: seq<PanelModule>, created: PanelModule)
    requires forall i :: 0 <= i < |list| ==> list[i].id != created.id
    ensures RemoveById([created] + list, created.id) == list
  {
    RemoveKeepsOrder([created], list, created.id);
    FilterAll(list, IdIsNot(created.id));
  }

  // ---------------------------------------------------------------------
  // filteredModules
  // ---------------------------------------------------------------------

  /** The lower-cased title or description (null read as "") includes the
      lower-cased term. */
  predicate MatchesSearch(m: PanelModule, term: string) {
    Text.Contains(Text.ToLower(m.title), Text.ToLower(term))
    || Text.Contains(Text.ToLower(m.description.GetOr("")), Text.ToLower(term))
  }

  /** `all`, or `active` with an active module, or `inactive` with an
      inactive one; any other filter value keeps nothing. */
  predicate MatchesFilter(m: PanelModule, filter: string) {
    filter == "all" || (filter == "active" && m.isActive) || (filter == "inactive" && !m.isActive)
  }

  function Shown(term: string, filter: string): PanelModule -> bool {
    (m: PanelModule) => MatchesSearch(m, term) && MatchesFilter(m, filter)
  }

  /** `filteredModules`: exactly the modules passing both tests, in order. */
  function FilteredModules(modules: seq<PanelModule>, term: string, filter: string): (r: seq<PanelModule>)
    ensures forall i :: 0 <= i < |r| ==> MatchesSearch(r[i], term) && MatchesFilter(r[i], filter) && r[i] in modules
    ensures forall i :: 0 <= i < |modules| && MatchesSearch(modules[i], term) && MatchesFilter(modules[i], filter) ==>
      modules[i] in r
  {
    var r := Filter(modules, Shown(term, filter));
    assert forall i :: 0 <= i < |r| ==> Shown(term, filter)(r[i]);
    r
  }

  /** With an empty search and the `all` filter every module is listed, in order. */
  lemma NoFilterShowsAll(modules: seq<PanelModule>)
    ensures FilteredModules(modules, "", "all") == modules
  {
    forall i | 0 <= i < |modules| ensures Shown("", "all")(modules[i]) {
      Text.ContainsEmpty(Text.ToLower(modules[i].title));
    }
    FilterAll(modules, Shown("", "all"));
  }

  /** For one search, the `active` and `inactive` lists split the `all` list. */
  lemma {:induction false} ActiveInactiveSplit(modules: seq<PanelModule>, term: string)
    ensures |FilteredModules(modules, term, "active")| + |FilteredModules(modules, term, "inactive")|
         == |FilteredModules(modules, term, "all")|
  {
    if modules != [] {
      CountCons(modules, Shown(term, "active"));
      CountCons(modules, Shown(term, "inactive"));
      CountCons(modules, Shown(term, "all"));
      ActiveInactiveSplit(modules[1..], term);
    }
  }

  /** A filter value other than the three offered keeps nothing. */
  lemma UnknownFilterShowsNothing(modules: seq<PanelModule>, term: string, filter: string)
    requires filter != "all" && filter != "active" && filter != "inactive"
    ensures FilteredModules(modules, term, filter) == []
  {
    FilterNone(modules, Shown(term, filter));
  }

  /** The card drawn when the list is empty: with a search term or a
      filter other than `all` it says nothing matched; otherwise it says
      there are no modules yet and offers the create button. */
  datatype ListNotice = ListNotice(heading: string, hint: string, createButton: bool)

  function EmptyListNotice(searchTerm: string, filterStatus: string): (n: ListNotice)
    ensures n.createButton <==> searchTerm == "" && filterStatus == "all"
    ensures n.createButton <==> n.heading == "No Training Modules"
    ensures !n.createButton ==> n.heading == "No matching modules found"
  {
    if searchTerm != "" || filterStatus != "all" then
      ListNotice("No matching modules found", "Try adjusting your search or filter criteria.", false)
    else
      ListNotice("No Training Modules", "Get started by creating your first training module.", true)
  }

  /** "No Training Modules" is only drawn when the company has no module at all. */
  lemma NoModulesNoticeMeansNone(modules: seq<PanelModule>)
    requires FilteredModules(modules, "", "all") == []
    ensures modules == []
    ensures EmptyListNotice("", "all").createButton
  {
    NoFilterShowsAll(modules);
  }

  // ---------------------------------------------------------------------
  // assignToAllEmployees
  // ---------------------------------------------------------------------

  /** The row built for one employee: `not_started` at 0%. */
  function AssignInsert(employeeId: string, moduleId: string): (ins: ProgressInsert)
    ensures KeyOf(ins) == Key(employeeId, moduleId)
    ensures ins.status == Given(Some(NotStarted)) && ins.progressPercentage == Given(Some(0))
    ensures ins.startedAt == Absent && ins.completedAt == Absent && ins.updatedAt == Absent
  {
    ProgressInsert(employeeId, moduleId, Given(Some(NotStarted)), Given(Some(0)), Absent, Absent, Absent)
  }

  /** `employees.map(...)`: one row per employee, in order. */
  function AssignmentRows(employees: seq<PanelEmployee>, moduleId: string): (rows: seq<ProgressInsert>)
    ensures |rows| == |employees|
    ensures forall i :: 0 <= i < |employees| ==> rows[i] == AssignInsert(employees[i].id, moduleId)
  {
    Map(employees, (e: PanelEmployee) => AssignInsert(e.id, moduleId))
  }

  /** The ids of the employees, in order. */
  function EmployeeIds(employees: seq<PanelEmployee>): (ids: seq<string>)
    ensures |ids| == |employees|
    ensures forall i :: 0 <= i < |employees| ==> ids[i] == employees[i].id
  {
    Map(employees, (e: PanelEmployee) => e.id)
  }

  /** The batch touches key `k`: the module is `moduleId` and some employee has that id. */
  predicate Assigned(employees: seq<PanelEmployee>, moduleId: string, k: Key) {
    k.moduleId == moduleId && k.employeeId in EmployeeIds(employees)
  }

  lemma AssignedCons(employees: seq<PanelEmployee>, moduleId: string, k: Key)
    requires employees != []
    ensures Assigned(employees, moduleId, k) <==>
      k == Key(employees[0].id, moduleId) || Assigned(employees[1..], moduleId, k)
  {
    assert EmployeeIds(employees) == [employees[0].id] + EmployeeIds(employees[1..]);
  }

  /** Merging the same payload twice is merging it once. */
  lemma MergeIdempotent(row: ProgressRow, ins: ProgressInsert)
    ensures Merge(Merge(row, ins), ins) == Merge(row, ins)
  {
  }

  /** The bulk upsert adds exactly the assigned pairs to the table's keys. */
  lemma {:induction false} FanOutKeys(store: Store, employees: seq<PanelEmployee>, moduleId: string, k: Key)
    ensures k in UpsertAll(store, AssignmentRows(employees, moduleId)) <==> k in store || Assigned(employees, moduleId, k)
    decreases |employees|
  {
    if employees != [] {
      var rows := AssignmentRows(employees, moduleId);
      assert rows[1..] == AssignmentRows(employees[1..], moduleId);
      var mid := Upsert(store, rows[0]);
      FanOutKeys(mid, employees[1..], moduleId, k);
      AssignedCons(employees, moduleId, k);
    }
  }

  /** What the bulk upsert does to each row: an assigned pair gets
      `not_started`/0 merged over whatever it held (its timestamps are kept),
      and every other row is left alone. */
  lemma {:induction false} FanOutEffect(store: Store, employees: seq<PanelEmployee>, moduleId: string, k: Key)
    requires k in store || Assigned(employees, moduleId, k)
    ensures var after := UpsertAll(store, AssignmentRows(employees, moduleId));
            && k in after
            && (Assigned(employees, moduleId, k) ==>
                  after[k] == Merge(Current(store, k), AssignInsert(k.employeeId, moduleId)))
            && (!Assigned(employees, moduleId, k) ==> after[k] == store[k])
    decreases |employees|
  {
    FanOutKeys(store, employees, moduleId, k);
    if employees != [] {
      var rows := AssignmentRows(employees, moduleId);
      var first := rows[0];
      assert rows[1..] == AssignmentRows(employees[1..], moduleId);
      var mid := Upsert(store, first);
      AssignedCons(employees, moduleId, k);
      FanOutEffect(mid, employees[1..], moduleId, k);
      if k == KeyOf(first) {
        MergeIdempotent(Current(store, k), first);
      }
    }
  }

  /** The fan-out quirk: an employee already part-way through the module is
      put back to `not_started` at 0%, keeping the old timestamps. */
  lemma FanOutResetsProgress(store: Store, employees: seq<PanelEmployee>, moduleId: string, i: nat)
    requires i < |employees|
    requires Key(employees[i].id, moduleId) in store
    ensures Assigned(employees, moduleId, Key(employees[i].id, moduleId))
    ensures var k := Key(employees[i].id, moduleId);
            var r := UpsertAll(store, AssignmentRows(employees, moduleId))[k];
            && r.status == Some(NotStarted) && r.progressPercentage == Some(0)
            && r.startedAt == store[k].startedAt && r.completedAt == store[k].completedAt
            && r.updatedAt == store[k].updatedAt
  {
    var k := Key(employees[i].id, moduleId);
    assert EmployeeIds(employees)[i] == k.employeeId;
    FanOutEffect(store, employees, moduleId, k);
  }

  /** Assigning twice is assigning once: no duplicate rows, no further change. */
  lemma FanOutIdempotent(store: Store, employees: seq<PanelEmployee>, moduleId: string)
    ensures var rows := AssignmentRows(employees, moduleId);
            UpsertAll(UpsertAll(store, rows), rows) == UpsertAll(store, rows)
  {
    var rows := AssignmentRows(employees, moduleId);
    var once := UpsertAll(store, rows);
    var twice := UpsertAll(once, rows);
    forall k | k in once || k in twice
      ensures k in once && k in twice && twice[k] == once[k]
    {
      FanOutKeys(store, employees, moduleId, k);
      FanOutKeys(once, employees, moduleId, k);
      FanOutEffect(store, employees, moduleId, k);
      FanOutEffect(once, employees, moduleId, k);
      if Assigned(employees, moduleId, k) {
        MergeIdempotent(Current(store, k), AssignInsert(k.employeeId, moduleId));
      }
    }
  }

  /** The bulk assignment keeps the table valid: the reset rows are
      `not_started`, which asks nothing of the other columns. */
  lemma FanOutKeepsStoreValid(store: Store, employees: seq<PanelEmployee>, moduleId: string)
    requires StoreValid(store)
    ensures StoreValid(UpsertAll(store, AssignmentRows(employees, moduleId)))
  {
    var after := UpsertAll(store, AssignmentRows(employees, moduleId));
    forall k | k in after
      ensures after[k].employeeId == k.employeeId && after[k].moduleId == k.moduleId && RowConsistent(after[k])
    {
      FanOutKeys(store, employees, moduleId, k);
      FanOutEffect(store, employees, moduleId, k);
    }
  }

  // ---------------------------------------------------------------------
  // The panel's state
  // ---------------------------------------------------------------------

  class PanelState {
    var modules: seq<PanelModule>
    var employees: seq<PanelEmployee>
    var newModule: NewModuleForm
    var showCreateDialog: bool
    var searchTerm: string
    var filterStatus: string
    var loading: bool
    var showAssignDialog: bool
    var selectedModule: Option<string>

    constructor ()
      ensures modules == [] && employees == [] && newModule == EmptyForm
      ensures !showCreateDialog && searchTerm == "" && filterStatus == "all" && loading
      ensures !showAssignDialog && selectedModule.None?
    {
      modules := [];
      employees := [];
      newModule := EmptyForm;
      showCreateDialog := false;
      searchTerm := "";
      filterStatus := "all";
      loading := true;
      showAssignDialog := false;
      selectedModule := None;
    }

    /** `fetchTrainingModules`: nothing without a company; otherwise a
        successful read replaces the list and the loading flag drops. */
    method FetchTrainingModules(companyId: Option<string>, response: Result<seq<PanelModule>>)
      modifies this
      ensures showAssignDialog == old(showAssignDialog) && selectedModule == old(selectedModule)
      ensures !Present(companyId) ==> modules == old(modules) && loading == old(loading)
      ensures Present(companyId) && response.Ok? ==> modules == response.value
      ensures Present(companyId) && response.Err? ==> modules == old(modules)
      ensures Present(companyId) ==> !loading
      ensures employees == old(employees) && newModule == old(newModule)
      ensures showCreateDialog == old(showCreateDialog)
      ensures searchTerm == old(searchTerm) && filterStatus == old(filterStatus)
    {
      if !Present(companyId) {
        return;
      }
      if response.Ok? {
        modules := response.value;
      }
      loading := false;
    }

    /** `fetchEmployees`: the company's employees (role `employee` only). */
    method FetchEmployees(companyId: Option<string>, response: Result<seq<PanelEmployee>>)
      modifies this
      ensures showAssignDialog == old(showAssignDialog) && selectedModule == old(selectedModule)
      ensures Present(companyId) && response.Ok? ==> employees == response.value
      ensures !(Present(companyId) && response.Ok?) ==> employees == old(employees)
      ensures modules == old(modules) && newModule == old(newModule) && loading == old(loading)
      ensures showCreateDialog == old(showCreateDialog)
      ensures searchTerm == old(searchTerm) && filterStatus == old(filterStatus)
    {
      if Present(companyId) && response.Ok? {
        employees := response.value;
      }
    }

    /** `createModule`: nothing is sent without a company or with a blank
        title. On success the new row goes first, the form is reset and the
        dialog closes; on failure nothing changes. */
    method CreateModule(companyId: Option<string>, response: Result<PanelModule>)
      returns (sent: Option<PanelInsert>)
      modifies this
      ensures showAssignDialog == old(showAssignDialog) && selectedModule == old(selectedModule)
      ensures sent == Creation(old(newModule), companyId)
      ensures sent.Some? && response.Ok? ==>
        modules == [response.value] + old(modules) && newModule == EmptyForm && !showCreateDialog
      ensures !(sent.Some? && response.Ok?) ==>
        modules == old(modules) && newModule == old(newModule) && showCreateDialog == old(showCreateDialog)
      ensures employees == old(employees) && loading == old(loading)
      ensures searchTerm == old(searchTerm) && filterStatus == old(filterStatus)
    {
      var form := newModule;
      sent := Creation(form, companyId);
      if sent.None? || response.Err? {
        return;
      }
      modules := [response.value] + modules;
      newModule := EmptyForm;
      showCreateDialog := false;
    }

    /** `toggleModuleVisibility(id, current)`: after the store accepts
        `is_active = !current`, every module with that id takes that value. */
    method ToggleModuleVisibility(moduleId: string, currentStatus: bool, storeError: Option<string>)
      modifies this
      ensures showAssignDialog == old(showAssignDialog) && selectedModule == old(selectedModule)
      ensures storeError.None? ==> modules == SetActiveById(old(modules), moduleId, !currentStatus)
      ensures storeError.Some? ==> modules == old(modules)
      ensures employees == old(employees) && newModule == old(newModule) && loading == old(loading)
      ensures showCreateDialog == old(showCreateDialog)
      ensures searchTerm == old(searchTerm) && filterStatus == old(filterStatus)
    {
      if storeError.None? {
        modules := SetActiveById(modules, moduleId, !currentStatus);
      }
    }

    /** `deleteModule`: a declined confirmation does nothing; after the store
        deletes, every module with that id leaves the list. */
    method DeleteModule(moduleId: string, confirmed: bool, storeError: Option<string>)
      modifies this
      ensures showAssignDialog == old(showAssignDialog) && selectedModule == old(selectedModule)
      ensures confirmed && storeError.None? ==> modules == RemoveById(old(modules), moduleId)
      ensures !(confirmed && storeError.None?) ==> modules == old(modules)
      ensures employees == old(employees) && newModule == old(newModule) && loading == old(loading)
      ensures showCreateDialog == old(showCreateDialog)
      ensures searchTerm == old(searchTerm) && filterStatus == old(filterStatus)
    {
      if !confirmed {
        return;
      }
      if storeError.None? {
        modules := RemoveById(modules, moduleId);
      }
    }

    /** `assignToAllEmployees`: the batch sent for the employees held now,
        and the table after the store applies it (unchanged if it fails). */
    method AssignToAllEmployees(moduleId: string, store: Store, storeError: Option<string>)
      returns (batch: seq<ProgressInsert>, after: Store)
      ensures batch == AssignmentRows(employees, moduleId)
      ensures storeError.None? ==> after == UpsertAll(store, batch)
      ensures storeError.Some? ==> after == store
    {
      batch := AssignmentRows(employees, moduleId);
      after := if storeError.None? then UpsertAll(store, batch) else store;
    }

    /** The title field. */
    method SetTitle(title: string)
      modifies this
      ensures showAssignDialog == old(showAssignDialog) && selectedModule == old(selectedModule)
      ensures newModule == old(newModule).(title := title)
      ensures modules == old(modules) && employees == old(employees) && loading == old(loading)
      ensures showCreateDialog == old(showCreateDialog)
      ensures searchTerm == old(searchTerm) && filterStatus == old(filterStatus)
    {
      newModule := newModule.(title := title);
    }

    /** The duration field: `parseInt(value) || 0`, with an unparsable value as `None`. */
    method SetEstimatedDuration(parsed: Option<int>)
      modifies this
      ensures showAssignDialog == old(showAssignDialog) && selectedModule == old(selectedModule)
      ensures newModule == old(newModule).(estimatedDuration := parsed.GetOr(0))
      ensures modules == old(modules) && employees == old(employees) && loading == old(loading)
      ensures showCreateDialog == old(showCreateDialog)
      ensures searchTerm == old(searchTerm) && filterStatus == old(filterStatus)
    {
      newModule := newModule.(estimatedDuration := parsed.GetOr(0));
    }

    /** The description field. */
    method SetDescription(description: string)
      modifies this
      ensures showAssignDialog == old(showAssignDialog) && selectedModule == old(selectedModule)
      ensures newModule == old(newModule).(description := description)
      ensures modules == old(modules) && employees == old(employees) && loading == old(loading)
      ensures showCreateDialog == old(showCreateDialog)
      ensures searchTerm == old(searchTerm) && filterStatus == old(filterStatus)
    {
      newModule := newModule.(description := description);
    }

    /** The due-date field. */
    method SetDueDate(dueDate: string)
      modifies this
      ensures showAssignDialog == old(showAssignDialog) && selectedModule == old(selectedModule)
      ensures newModule == old(newModule).(dueDate := dueDate)
      ensures modules == old(modules) && employees == old(employees) && loading == old(loading)
      ensures showCreateDialog == old(showCreateDialog)
      ensures searchTerm == old(searchTerm) && filterStatus == old(filterStatus)
    {
      newModule := newModule.(dueDate := dueDate);
    }

    /** The active switch. */
    method SetActive(isActive: bool)
      modifies this
      ensures showAssignDialog == old(showAssignDialog) && selectedModule == old(selectedModule)
      ensures newModule == old(newModule).(isActive := isActive)
      ensures modules == old(modules) && employees == old(employees) && loading == old(loading)
      ensures showCreateDialog == old(showCreateDialog)
      ensures searchTerm == old(searchTerm) && filterStatus == old(filterStatus)
    {
      newModule := newModule.(isActive := isActive);
    }

    /** Opening or closing the create dialog (the header button, the empty
        state's button, Cancel, or the dialog's own close): the form is kept. */
    method SetCreateDialogOpen(open: bool)
      modifies this
      ensures showAssignDialog == old(showAssignDialog) && selectedModule == old(selectedModule)
      ensures showCreateDialog == open
      ensures modules == old(modules) && employees == old(employees) && loading == old(loading)
      ensures newModule == old(newModule)
      ensures searchTerm == old(searchTerm) && filterStatus == old(filterStatus)
    {
      showCreateDialog := open;
    }

    /** A card's Assign button: remembers the module and opens the dialog. */
    method OpenAssignDialog(moduleId: string)
      modifies this
      ensures selectedModule == Some(moduleId) && showAssignDialog
      ensures modules == old(modules) && employees == old(employees) && loading == old(loading)
      ensures newModule == old(newModule) && showCreateDialog == old(showCreateDialog)
      ensures searchTerm == old(searchTerm) && filterStatus == old(filterStatus)
    {
      selectedModule, showAssignDialog := Some(moduleId), true;
    }

    /** The assign dialog's Cancel or close: the selection is kept. */
    method CloseAssignDialog()
      modifies this
      ensures !showAssignDialog && selectedModule == old(selectedModule)
      ensures modules == old(modules) && employees == old(employees) && loading == old(loading)
      ensures newModule == old(newModule) && showCreateDialog == old(showCreateDialog)
      ensures searchTerm == old(searchTerm) && filterStatus == old(filterStatus)
    {
      showAssignDialog := false;
    }

    /** "Assign to All Employees": with a module selected (an empty id counts
        as none) the batch for it is sent and the dialog closes at once,
        whatever the store answers; with none nothing happens. */
    method ConfirmAssignAll(store: Store, storeError: Option<string>)
      returns (batch: Option<seq<ProgressInsert>>, after: Store)
      modifies this
      ensures !Present(old(selectedModule)) ==>
        batch.None? && after == store && showAssignDialog == old(showAssignDialog)
      ensures Present(old(selectedModule)) ==>
        batch == Some(AssignmentRows(employees, old(selectedModule).value)) && !showAssignDialog
      ensures Present(old(selectedModule)) && storeError.None? ==> after == UpsertAll(store, batch.value)
      ensures Present(old(selectedModule)) && storeError.Some? ==> after == store
      ensures selectedModule == old(selectedModule)
      ensures modules == old(modules) && employees == old(employees) && loading == old(loading)
      ensures newModule == old(newModule) && showCreateDialog == old(showCreateDialog)
      ensures searchTerm == old(searchTerm) && filterStatus == old(filterStatus)
    {
      if !Present(selectedModule) {
        return None, store;
      }
      var rows;
      rows, after := AssignToAllEmployees(selectedModule.value, store, storeError);
      batch := Some(rows);
      showAssignDialog := false;
    }

    /** The search box. */
    method SetSearchTerm(term: string)
      modifies this
      ensures showAssignDialog == old(showAssignDialog) && selectedModule == old(selectedModule)
      ensures searchTerm == term
      ensures modules == old(modules) && employees == old(employees) && loading == old(loading)
      ensures newModule == old(newModule) && showCreateDialog == old(showCreateDialog)
      ensures filterStatus == old(filterStatus)
    {
      searchTerm := term;
    }

    /** The status select. */
    method SetFilterStatus(filter: string)
      modifies this
      ensures showAssignDialog == old(showAssignDialog) && selectedModule == old(selectedModule)
      ensures filterStatus == filter
      ensures modules == old(modules) && employees == old(employees) && loading == old(loading)
      ensures newModule == old(newModule) && showCreateDialog == old(showCreateDialog)
      ensures searchTerm == old(searchTerm)
    {
      filterStatus := filter;
    }

    /** What the list shows now. */
    function Visible(): (r: seq<PanelModule>)
      reads this
      ensures forall i :: 0 <= i < |r| ==> r[i] in modules
    {
      FilteredModules(modules, searchTerm, filterStatus)
    }
  }
}

=== FILE: training_modules.dfy ===
/** The `useTrainingModules` hook: the list of training modules it holds and
    the three mutations that keep that list in step with the store: prepend
    on create, replace on update, remove on delete. Each store call is an
    input that either returns a row or fails with a message. */
module TrainingModulesHook {
  import opened Common
  import opened Types

  /** What a caller hands to `createModule`: an Insert without `company_id`. */
  datatype ModuleDraft = ModuleDraft(
    title: string,
    description: Field<Option<string>>,
    isActive: Field<Option<bool>>)

  const NoCompanyMessage: string := "No company associated with user"

  /** `{ ...moduleData, company_id }`. */
  function InsertFor(draft: ModuleDraft, companyId: string): (ins: ModuleInsert)
    ensures ins.companyId == companyId
  {
    ModuleInsert(companyId, draft.title, draft.description, draft.isActive)
  }

  /** The caller's fields of an insert. */
  function DraftOf(ins: ModuleInsert): ModuleDraft {
    ModuleDraft(ins.title, ins.description, ins.isActive)
  }

  /** The spread keeps every field of the draft: only `company_id` is added. */
  lemma InsertKeepsDraft(draft: ModuleDraft, companyId: string)
    ensures DraftOf(InsertFor(draft, companyId)) == draft
    ensures InsertFor(draft, companyId) == InsertFor(DraftOf(InsertFor(draft, companyId)), companyId)
  {
  }

  predicate HasId(list: seq<TrainingModule>, id: string) {
    exists i :: 0 <= i < |list| && list[i].id == id
  }

  /** `prev.map(module => module.id === id ? data : module)`. */
  function ReplaceById(list: seq<TrainingModule>, id: string, row: TrainingModule): (r: seq<TrainingModule>)
    ensures |r| == |list|
    ensures forall i :: 0 <= i < |list| && list[i].id == id ==> r[i] == row
    ensures forall i :: 0 <= i < |list| && list[i].id != id ==> r[i] == list[i]
  {
    if list == [] then []
    else [if list[0].id == id then row else list[0]] + ReplaceById(list[1..], id, row)
  }

  function IdIsNot(id: string): TrainingModule -> bool {
    (m: TrainingModule) => m.id != id
  }

  /** `prev.filter(module => module.id !== id)`. */
  function RemoveById(list: seq<TrainingModule>, id: string): (r: seq<TrainingModule>)
    ensures !HasId(r, id)
    ensures forall i :: 0 <= i < |r| ==> r[i] in list
    ensures forall i :: 0 <= i < |list| && list[i].id != id ==> list[i] in r
    ensures |r| <= |list|
  {
    Filter(list, IdIsNot(id))
  }

  /** Removing an id that is not in the list changes nothing. */
  lemma RemoveAbsent(list: seq<TrainingModule>, id: string)
    requires !HasId(list, id)
    ensures RemoveById(list, id) == list
  {
    FilterAll(list, IdIsNot(id));
  }

  /** Removal keeps the relative order of what remains. */
  lemma RemoveKeepsOrder(a: seq<TrainingModule>, b: seq<TrainingModule>, id: string)
    ensures RemoveById(a + b, id) == RemoveById(a, id) + RemoveById(b, id)
  {
    FilterAppend(a, b, IdIsNot(id));
  }

  /** Delete undoes create: removing a freshly prepended row whose id was new
      gives back the list as it was. */
  lemma RemoveUndoesPrepend(list: seq<TrainingModule>, row: TrainingModule)
    requires !HasId(list, row.id)
    ensures RemoveById([row] + list, row.id) == list
  {
    RemoveKeepsOrder([row], list, row.id);
    RemoveAbsent(list, row.id);
  }

  /** A replacement that keeps the id is invisible once that id is removed. */
  lemma {:induction false} RemoveAfterReplace(list: seq<TrainingModule>, id: string, row: TrainingModule)
    requires row.id == id
    ensures RemoveById(ReplaceById(list, id, row), id) == RemoveById(list, id)
  {
    if list != [] {
      var head := if list[0].id == id then row else list[0];
      assert ReplaceById(list, id, row) == [head] + ReplaceById(list[1..], id, row);
      RemoveKeepsOrder([head], ReplaceById(list[1..], id, row), id);
      RemoveKeepsOrder([list[0]], list[1..], id);
      assert list == [list[0]] + list[1..];
      RemoveAfterReplace(list[1..], id, row);
    }
  }

  /** Replacing twice with the same row is replacing once. */
  lemma {:induction false} ReplaceIdempotent(list: seq<TrainingModule>, id: string, row: TrainingModule)
    requires row.id == id
    ensures ReplaceById(ReplaceById(list, id, row), id, row) == ReplaceById(list, id, row)
  {
    if list != [] {
      var once := ReplaceById(list, id, row);
      assert once[1..] == ReplaceById(list[1..], id, row);
      ReplaceIdempotent(list[1..], id, row);
    }
  }

  /** The hook's state. */
  class TrainingModulesState {
    var modules: seq<TrainingModule>
    var loading: bool
    var error: Option<string>

    constructor ()
      ensures modules == [] && loading && error == None
    {
      modules := [];
      loading := true;
      error := None;
    }

    /** `fetchModules` once the store has answered (rows already ordered by
        `created_at` descending). A failure keeps the list; a success does not
        clear an earlier error. */
    method FetchModules(response: Result<seq<TrainingModule>>)
      modifies this
      ensures response.Ok? ==> modules == response.value && error == old(error)
      ensures response.Err? ==> modules == old(modules) && error == Some(response.message)
      ensures !loading
    {
      loading := true;
      if response.Ok? {
        modules := response.value;
      } else {
        error := Some(response.message);
      }
      loading := false;
    }

    /** `createModule`: without a company the store is not called and the
        fixed message is returned; otherwise the insert carries the caller's
        company and, on success, the returned row is prepended. */
    method CreateModule(draft: ModuleDraft, companyId: Option<string>, response: Result<TrainingModule>)
      returns (outcome: Result<TrainingModule>, sent: Option<ModuleInsert>)
      modifies this
      ensures !Present(companyId) ==> outcome == Err(NoCompanyMessage) && sent == None && modules == old(modules)
      ensures Present(companyId) ==> sent == Some(InsertFor(draft, companyId.value)) && outcome == response
      ensures Present(companyId) && response.Ok? ==> modules == [response.value] + old(modules)
      ensures response.Err? ==> modules == old(modules)
      ensures loading == old(loading) && error == old(error)
    {
      if !Present(companyId) {
        return Err(NoCompanyMessage), None;
      }
      sent := Some(InsertFor(draft, companyId.value));
      outcome := response;
      if response.Ok? {
        modules := [response.value] + modules;
      }
    }

    /** `updateModule`: on success every entry with that id becomes the
        returned row; on failure the list is unchanged. The patch itself goes
        to the store as it is. */
    method UpdateModule(id: string, response: Result<TrainingModule>) returns (outcome: Result<TrainingModule>)
      modifies this
      ensures outcome == response
      ensures response.Ok? ==> modules == ReplaceById(old(modules), id, response.value)
      ensures response.Err? ==> modules == old(modules)
      ensures loading == old(loading) && error == old(error)
    {
      outcome := response;
      if response.Ok? {
        modules := ReplaceById(modules, id, response.value);
      }
    }

    /** `deleteModule`: on success every entry with that id is dropped; the
        store's error message, if any, is returned and the list kept. */
    method DeleteModule(id: string, storeError: Option<string>) returns (outcome: Option<string>)
      modifies this
      ensures outcome == storeError
      ensures storeError.None? ==> modules == RemoveById(old(modules), id)
      ensures storeError.Some? ==> modules == old(modules)
      ensures loading == old(loading) && error == old(error)
    {
      outcome := storeError;
      if storeError.None? {
        modules := RemoveById(modules, id);
      }
    }
  }
}

=== FILE: training_overview.dfy ===
/** The "Training Overview" tab: the four headline numbers, the five most
    recently updated rows, and the next three rows still to finish. */
module TrainingOverviewView {
  import opened Common
  import opened Types
  import opened Rates
  import opened Tally
  import opened EmployeeProgressHook

  /** The numbers on the four stat cards. */
  datatype OverviewCounts = OverviewCounts(
    totalModules: nat,
    completed: nat,
    inProgress: nat,
    notStarted: nat,
    overallProgress: int)

  /** The stat cards: the row count, the three status counts and the
      rounded share of completed rows (0 without rows). */
  function Counts(progress: seq<ProgressView>): (c: OverviewCounts)
    ensures c.totalModules == |progress|
    ensures c.completed == CountStatus(progress, ViewStatus, Some(Completed))
    ensures c.inProgress == CountStatus(progress, ViewStatus, Some(InProgress))
    ensures c.notStarted == CountStatus(progress, ViewStatus, Some(NotStarted))
    ensures c.completed + c.inProgress + c.notStarted <= c.totalModules
    ensures progress == [] ==> c.overallProgress == 0
    ensures progress != [] ==>
      2 * c.totalModules * c.overallProgress <= 200 * c.completed + c.totalModules
                                             < 2 * c.totalModules * c.overallProgress + 2 * c.totalModules
  {
    StatusCountsBound(progress, ViewStatus);
    var completed := CountStatus(progress, ViewStatus, Some(Completed));
    OverviewCounts(
      |progress|,
      completed,
      CountStatus(progress, ViewStatus, Some(InProgress)),
      CountStatus(progress, ViewStatus, Some(NotStarted)),
      if |progress| > 0 then CompletionRate(completed, |progress|) else 0)
  }

  /** The overall progress card always shows a percentage in 0..100. */
  lemma OverallIsPercentage(progress: seq<ProgressView>)
    ensures 0 <= Counts(progress).overallProgress <= 100
  {
  }

  /** The instant a row was last updated (rows without one are filtered out
      before it is read). */
  function Stamp(v: ProgressView): nat {
    v.row.updatedAt.GetOr(0)
  }

  predicate HasUpdate(v: ProgressView) {
    v.row.updatedAt.Some?
  }

  predicate NewestFirst(s: seq<ProgressView>) {
    forall i, j :: 0 <= i < j < |s| ==> Stamp(s[i]) >= Stamp(s[j])
  }

  /** Every row of `t` is at most as new as `h`. */
  predicate NoNewerThan(h: ProgressView, t: seq<ProgressView>) {
    forall k :: 0 <= k < |t| ==> Stamp(t[k]) <= Stamp(h)
  }

  /** A row placed in front of rows no newer than it keeps the order. */
  lemma ConsNewestFirst(h: ProgressView, t: seq<ProgressView>)
    requires NewestFirst(t) && NoNewerThan(h, t)
    ensures NewestFirst([h] + t)
  {
    var r := [h] + t;
    forall i, j | 0 <= i < j < |r| ensures Stamp(r[i]) >= Stamp(r[j]) {
      assert r[j] == t[j - 1];
      if i > 0 {
        assert r[i] == t[i - 1];
      }
    }
  }

  /** Rows drawn from the tail of a newest-first list, plus one row older
      than its head, are no newer than that head. */
  lemma TailNoNewer(x: ProgressView, s: seq<ProgressView>, rest: seq<ProgressView>)
    requires NewestFirst(s) && s != [] && Stamp(x) < Stamp(s[0])
    requires multiset(rest) == multiset(s[1..]) + multiset{x}
    ensures NoNewerThan(s[0], rest)
  {
    forall k | 0 <= k < |rest| ensures Stamp(rest[k]) <= Stamp(s[0]) {
      assert rest[k] in multiset(rest);
      if rest[k] != x {
        assert rest[k] in multiset(s[1..]);
        var m :| 0 <= m < |s[1..]| && s[1..][m] == rest[k];
        assert s[m + 1] == rest[k];
      }
    }
  }

  /** Insert `x` before the first row that is not newer than it. */
  function InsertByStamp(x: ProgressView, s: seq<ProgressView>): (r: seq<ProgressView>)
    requires NewestFirst(s)
    ensures NewestFirst(r)
    ensures multiset(r) == multiset(s) + multiset{x}
    ensures |r| == |s| + 1
    ensures r[0] == x || (s != [] && r[0] == s[0])
  {
    if s == [] || Stamp(s[0]) <= Stamp(x) then
      ConsNewestFirst(x, s);
      [x] + s
    else
      var rest := InsertByStamp(x, s[1..]);
      assert multiset([s[0]] + rest) == multiset(s) + multiset{x} by {
        assert s == [s[0]] + s[1..];
      }
      TailNoNewer(x, s, rest);
      ConsNewestFirst(s[0], rest);
      [s[0]] + rest
  }

  /** The stable `sort` by descending `updated_at` on a copy of the rows, as
      an insertion sort; its stability is `SortKeepsTiesInOrder`. */
  function SortNewestFirst(s: seq<ProgressView>): (r: seq<ProgressView>)
    ensures NewestFirst(r)
    ensures multiset(r) == multiset(s)
    ensures |r| == |s|
  {
    if s == [] then []
    else
      assert s == [s[0]] + s[1..];
      InsertByStamp(s[0], SortNewestFirst(s[1..]))
  }

  function StampIs(t: nat): ProgressView -> bool {
    (v: ProgressView) => Stamp(v) == t
  }

  /** Inserting behind a strictly newer head: the head stays, and `x` goes
      into the tail, which is itself newest first. */
  lemma InsertBehindHead(x: ProgressView, s: seq<ProgressView>)
    requires NewestFirst(s) && s != [] && Stamp(s[0]) > Stamp(x)
    ensures NewestFirst(s[1..])
    ensures InsertByStamp(x, s) == [s[0]] + InsertByStamp(x, s[1..])
  {
    var tail := s[1..];
    forall i, j | 0 <= i < j < |tail| ensures Stamp(tail[i]) >= Stamp(tail[j]) {
      assert tail[i] == s[i + 1] && tail[j] == s[j + 1];
    }
  }

  /** Inserting `x` keeps the rows of each stamp in the order of `[x] + s`:
      `x` goes after every row of `s` that is strictly newer, so it stays in
      front of the rows that share its stamp. */
  lemma {:induction false} InsertByStampStable(x: ProgressView, s: seq<ProgressView>, t: nat)
    requires NewestFirst(s)
    ensures Filter(InsertByStamp(x, s), StampIs(t)) == Filter([x] + s, StampIs(t))
  {
    var f := StampIs(t);
    if s != [] && Stamp(s[0]) > Stamp(x) {
      InsertBehindHead(x, s);
      var tail := s[1..];
      InsertByStampStable(x, tail, t);
      assert Stamp(s[0]) != Stamp(x);
      PassOver(s[0], x, tail, InsertByStamp(x, tail), f);
      assert [s[0]] + tail == s;
    }
  }

  /** Moving `x` past `h` changes no filtered list when `f` keeps at most one of them. */
  lemma PassOver<T>(h: T, x: T, tail: seq<T>, rest: seq<T>, f: T -> bool)
    requires !(f(h) && f(x))
    requires Filter(rest, f) == Filter([x] + tail, f)
    ensures Filter([h] + rest, f) == Filter([x] + ([h] + tail), f)
  {
    var fh, fx, ft := Filter([h], f), Filter([x], f), Filter(tail, f);
    assert fh == [] || fx == [] by {
      FilterSingle(h, f);
      FilterSingle(x, f);
    }
    calc {
      Filter([h] + rest, f);
      { FilterAppend([h], rest, f); }
      fh + Filter(rest, f);
      { FilterAppend([x], tail, f); }
      fh + (fx + ft);
      { SwapPastEmpty(fh, fx, ft); }
      fx + (fh + ft);
      { FilterAppend([h], tail, f); }
      fx + Filter([h] + tail, f);
      { FilterAppend([x], [h] + tail, f); }
      Filter([x] + ([h] + tail), f);
    }
  }

  lemma SwapPastEmpty<T>(a: seq<T>, b: seq<T>, c: seq<T>)
    requires a == [] || b == []
    ensures a + (b + c) == b + (a + c)
  {
    if a == [] {
      assert a + (b + c) == b + c == b + (a + c);
    } else {
      assert a + (b + c) == a + c == b + (a + c);
    }
  }

  /** The sort is stable, as `Array.prototype.sort` is required to be: the
      rows sharing any one stamp come out in the order they came in. */
  lemma {:induction false} SortKeepsTiesInOrder(s: seq<ProgressView>, t: nat)
    ensures Filter(SortNewestFirst(s), StampIs(t)) == Filter(s, StampIs(t))
  {
    if s != [] {
      var f := StampIs(t);
      var sorted := SortNewestFirst(s[1..]);
      calc {
        Filter(SortNewestFirst(s), f);
        Filter(InsertByStamp(s[0], sorted), f);
        { InsertByStampStable(s[0], sorted, t); }
        Filter([s[0]] + sorted, f);
        { FilterAppend([s[0]], sorted, f); }
        Filter([s[0]], f) + Filter(sorted, f);
        { SortKeepsTiesInOrder(s[1..], t); }
        Filter([s[0]], f) + Filter(s[1..], f);
        { FilterAppend([s[0]], s[1..], f); }
        Filter([s[0]] + s[1..], f);
        { assert [s[0]] + s[1..] == s; }
        Filter(s, f);
      }
    }
  }

  function Updated(): ProgressView -> bool {
    (v: ProgressView) => HasUpdate(v)
  }

  /** `recentActivity`: the rows with an `updated_at`, newest first, at most five. */
  function RecentActivity(progress: seq<ProgressView>): (r: seq<ProgressView>)
    ensures |r| <= 5
    ensures NewestFirst(r)
  {
    Take(SortNewestFirst(Filter(progress, Updated())), 5)
  }

  /** Every row shown as recent is a row of the list with an `updated_at`. */
  lemma RecentAreUpdatedRows(progress: seq<ProgressView>, i: nat)
    requires i < |RecentActivity(progress)|
    ensures RecentActivity(progress)[i] in progress
    ensures HasUpdate(RecentActivity(progress)[i])
  {
    var kept := Filter(progress, Updated());
    var sorted := SortNewestFirst(kept);
    var v := RecentActivity(progress)[i];
    assert v == sorted[i];
    assert v in multiset(sorted);
    assert v in kept;
    var k :| 0 <= k < |kept| && kept[k] == v;
    assert Updated()(kept[k]);
  }

  /** No row left out of the recent list is newer than a row in it: a row with
      an `updated_at` is either shown or not newer than every shown row. */
  lemma RecentAreNewest(progress: seq<ProgressView>, v: ProgressView)
    requires v in progress && HasUpdate(v)
    ensures var recent := RecentActivity(progress);
            v in recent || forall i :: 0 <= i < |recent| ==> Stamp(recent[i]) >= Stamp(v)
  {
    var kept := Filter(progress, Updated());
    var sorted := SortNewestFirst(kept);
    var recent := RecentActivity(progress);
    var j :| 0 <= j < |progress| && progress[j] == v;
    assert Updated()(progress[j]);
    assert v in kept;
    assert v in multiset(sorted);
    var k :| 0 <= k < |sorted| && sorted[k] == v;
    if k < |recent| {
      assert recent[k] == v;
    } else {
      forall i | 0 <= i < |recent| ensures Stamp(recent[i]) >= Stamp(v) {
        assert recent[i] == sorted[i];
      }
    }
  }

  /** When at most five rows have an `updated_at`, all of them are shown. */
  lemma RecentShowsAllWhenFew(progress: seq<ProgressView>)
    requires Count(progress, Updated()) <= 5
    ensures multiset(RecentActivity(progress)) == multiset(Filter(progress, Updated()))
  {
  }

  function NotCompleted(): ProgressView -> bool {
    (v: ProgressView) => v.row.status != Some(Completed)
  }

  /** `upcomingDeadlines`: the first three rows not completed, in list order. */
  function UpcomingDeadlines(progress: seq<ProgressView>): (r: seq<ProgressView>)
    ensures |r| <= 3
    ensures forall i :: 0 <= i < |r| ==> r[i].row.status != Some(Completed) && r[i] in progress
  {
    var open := Filter(progress, NotCompleted());
    assert forall i :: 0 <= i < |open| ==> NotCompleted()(open[i]);
    Take(open, 3)
  }

  /** A row that is not completed (a null status included) is shown as
      upcoming, at the position given by the number of such rows before it,
      when fewer than three come before it; otherwise the list is already
      full with rows from before it. */
  lemma UpcomingTakesEarliest(progress: seq<ProgressView>, i: nat)
    requires i < |progress| && progress[i].row.status != Some(Completed)
    ensures var before := Count(progress[..i], NotCompleted());
            var upcoming := UpcomingDeadlines(progress);
            (before < 3 ==> before < |upcoming| && upcoming[before] == progress[i])
            && (before >= 3 ==> upcoming == UpcomingDeadlines(progress[..i]))
  {
    var f := NotCompleted();
    var v := progress[i];
    var open := Filter(progress, f);
    var head := Filter(progress[..i], f);
    assert open == head + [v] + Filter(progress[i + 1..], f) by {
      assert f(v);
      FilterAround(progress, i, f);
    }
    if |head| < 3 {
      assert open[|head|] == v;
    } else {
      assert Take(open, 3) == Take(head, 3) by {
        assert open[..3] == head[..3];
      }
    }
  }

  /** One entry of the "Recent Activity" card. */
  datatype ActivityItem = ActivityItem(
    title: string,
    variant: BadgeVariant,
    statusText: string,
    byLine: Option<string>,
    percent: int,
    updatedAt: Option<nat>)

  /** A recent row as drawn: the badge is `default` for completed,
      `secondary` for in progress and `outline` otherwise; its text is the
      status with its underscore replaced, and nothing for a null status;
      the employee's name only for an admin and only when it is not empty;
      the percentage with null shown as 0. */
  function ActivityItemFor(isCompanyAdmin: bool, v: ProgressView): (item: ActivityItem)
    ensures item.title == v.moduleTitle
    ensures item.variant == Default <==> v.row.status == Some(Completed)
    ensures item.variant == Secondary <==> v.row.status == Some(InProgress)
    ensures item.statusText == StatusLabel(v.row.status)
    ensures item.statusText == [] <==> v.row.status.None?
    ensures item.byLine.Some? <==> isCompanyAdmin && v.employeeName != []
    ensures item.byLine.Some? ==> item.byLine.value == v.employeeName
    ensures item.percent == PercentOrZero(v.row.progressPercentage)
    ensures item.updatedAt == v.row.updatedAt
  {
    ActivityItem(
      v.moduleTitle,
      if v.row.status == Some(Completed) then Default
      else if v.row.status == Some(InProgress) then Secondary
      else Outline,
      StatusLabel(v.row.status),
      if isCompanyAdmin && v.employeeName != [] then Some(v.employeeName) else None,
      PercentOrZero(v.row.progressPercentage),
      v.row.updatedAt)
  }

  /** One entry of the "Next Steps" card. */
  datatype UpcomingItem = UpcomingItem(
    title: string,
    statusText: string,
    percent: int,
    employeeLine: Option<string>)

  const NotStartedFallback: string := "Not Started"

  /** An upcoming row as drawn: the status with its underscore replaced, or
      "Not Started" for a null status, which no stored status shows as;
      the percentage with null shown as 0; the employee's name only for an
      admin and only when it is not empty. */
  function UpcomingItemFor(isCompanyAdmin: bool, v: ProgressView): (item: UpcomingItem)
    ensures item.title == v.moduleTitle
    ensures item.statusText == NotStartedFallback <==> v.row.status.None?
    ensures v.row.status.Some? ==> item.statusText == StatusLabel(v.row.status)
    ensures item.percent == PercentOrZero(v.row.progressPercentage)
    ensures item.employeeLine.Some? <==> isCompanyAdmin && v.employeeName != []
    ensures item.employeeLine.Some? ==> item.employeeLine.value == v.employeeName
  {
    UpcomingItem(
      v.moduleTitle,
      match v.row.status
      case None => NotStartedFallback
      case Some(st) => (LabelIsNotFallback(st); StatusLabel(Some(st))),
      PercentOrZero(v.row.progressPercentage),
      if isCompanyAdmin && v.employeeName != [] then Some(v.employeeName) else None)
  }

  /** No stored status reads as the fallback: the labels are lower-case. */
  lemma LabelIsNotFallback(st: ProgressStatus)
    ensures StatusLabel(Some(st)) != NotStartedFallback
  {
    match st
    case NotStarted =>
      NotStartedLabel();
      assert "not started"[0] != NotStartedFallback[0];
    case InProgress =>
      InProgressLabel();
      assert "in progress"[0] != NotStartedFallback[0];
    case Completed =>
      CompletedLabel();
      assert "completed"[0] != NotStartedFallback[0];
  }

  /** A card listing rows, or its message when there are none. */
  datatype ListCard<T> = Note(message: string) | Entries(entries: seq<T>)

  const NoRecentActivity: string := "No recent activity"
  const AllCaughtUp: string := "All caught up!"

  /** The "Recent Activity" card: its message exactly when no row has an
      `updated_at`, otherwise one entry per recent row, in order. */
  function RecentCard(isCompanyAdmin: bool, progress: seq<ProgressView>): (c: ListCard<ActivityItem>)
    ensures c.Note? <==> Filter(progress, Updated()) == []
    ensures c.Note? ==> c.message == NoRecentActivity
    ensures c.Entries? ==> |c.entries| == |RecentActivity(progress)|
    ensures c.Entries? ==> forall i :: 0 <= i < |c.entries| ==>
      c.entries[i] == ActivityItemFor(isCompanyAdmin, RecentActivity(progress)[i])
  {
    var recent := RecentActivity(progress);
    if recent == [] then Note(NoRecentActivity)
    else Entries(Map(recent, (v: ProgressView) => ActivityItemFor(isCompanyAdmin, v)))
  }

  /** The "Next Steps" card: its message exactly when every row is
      completed, otherwise one entry per upcoming row, in order. */
  function UpcomingCard(isCompanyAdmin: bool, progress: seq<ProgressView>): (c: ListCard<UpcomingItem>)
    ensures c.Note? <==> forall i :: 0 <= i < |progress| ==> progress[i].row.status == Some(Completed)
    ensures c.Note? ==> c.message == AllCaughtUp
    ensures c.Entries? ==> |c.entries| == |UpcomingDeadlines(progress)|
    ensures c.Entries? ==> forall i :: 0 <= i < |c.entries| ==>
      c.entries[i] == UpcomingItemFor(isCompanyAdmin, UpcomingDeadlines(progress)[i])
  {
    var upcoming := UpcomingDeadlines(progress);
    if upcoming == [] then Note(AllCaughtUp)
    else Entries(Map(upcoming, (v: ProgressView) => UpcomingItemFor(isCompanyAdmin, v)))
  }
}

=== FILE: types.dfy ===
/** The database schema the portal is generated against: the three enums,
    their `Constants` arrays, and the Row / Insert shapes of the tables the
    training-progress logic touches. A nullable column is an `Option`; an
    optional key of an Insert is a `Field` (absent, or given a value). */
module Types {
  import opened Common
  import Text

  datatype ProgressStatus = NotStarted | InProgress | Completed
  datatype UserRole = CompanyAdmin | Employee
  datatype MaterialType = Pdf | Video | Image | Document

  function StatusName(s: ProgressStatus): string {
    match s
    case NotStarted => "not_started"
    case InProgress => "in_progress"
    case Completed => "completed"
  }

  function RoleName(r: UserRole): string {
    match r
    case CompanyAdmin => "company_admin"
    case Employee => "employee"
  }

  function MaterialName(m: MaterialType): string {
    match m
    case Pdf => "pdf"
    case Video => "video"
    case Image => "image"
    case Document => "document"
  }

  /** `Constants.public.Enums.*`, in declaration order. */
  const ProgressStatusConstants: seq<string> := ["not_started", "in_progress", "completed"]
  const UserRoleConstants: seq<string> := ["company_admin", "employee"]
  const MaterialTypeConstants: seq<string> := ["pdf", "video", "image", "document"]

  const AllStatuses: seq<ProgressStatus> := [NotStarted, InProgress, Completed]
  const AllRoles: seq<UserRole> := [CompanyAdmin, Employee]
  const AllMaterials: seq<MaterialType> := [Pdf, Video, Image, Document]

  /** Reads a `progress_status` value from its wire name; any other string is not one. */
  function ParseStatus(name: string): (r: Option<ProgressStatus>)
    ensures r.Some? ==> StatusName(r.value) == name
    ensures r.None? <==> name !in ProgressStatusConstants
  {
    if name == "not_started" then Some(NotStarted)
    else if name == "in_progress" then Some(InProgress)
    else if name == "completed" then Some(Completed)
    else None
  }

  function ParseRole(name: string): (r: Option<UserRole>)
    ensures r.Some? ==> RoleName(r.value) == name
    ensures r.None? <==> name !in UserRoleConstants
  {
    if name == "company_admin" then Some(CompanyAdmin)
    else if name == "employee" then Some(Employee)
    else None
  }

  function ParseMaterial(name: string): (r: Option<MaterialType>)
    ensures r.Some? ==> MaterialName(r.value) == name
    ensures r.None? <==> name !in MaterialTypeConstants
  {
    if name == "pdf" then Some(Pdf)
    else if name == "video" then Some(Video)
    else if name == "image" then Some(Image)
    else if name == "document" then Some(Document)
    else None
  }

  /** `Constants` lists the three statuses once each, in the order of the
      union type, and every status name parses back to its status. */
  lemma StatusConstantsMatch()
    ensures |ProgressStatusConstants| == 3
    ensures forall i :: 0 <= i < 3 ==> StatusName(AllStatuses[i]) == ProgressStatusConstants[i]
    ensures forall s: ProgressStatus :: s in AllStatuses && ParseStatus(StatusName(s)) == Some(s)
    ensures forall i, j :: 0 <= i < j < 3 ==> ProgressStatusConstants[i] != ProgressStatusConstants[j]
  {
    forall s: ProgressStatus ensures s in AllStatuses && ParseStatus(StatusName(s)) == Some(s) {
      match s
      case NotStarted => assert AllStatuses[0] == s;
      case InProgress => assert AllStatuses[1] == s;
      case Completed => assert AllStatuses[2] == s;
    }
  }

  /** The same for the two roles. */
  lemma RoleConstantsMatch()
    ensures |UserRoleConstants| == 2
    ensures forall i :: 0 <= i < 2 ==> RoleName(AllRoles[i]) == UserRoleConstants[i]
    ensures forall r: UserRole :: r in AllRoles && ParseRole(RoleName(r)) == Some(r)
  {
    forall r: UserRole ensures r in AllRoles && ParseRole(RoleName(r)) == Some(r) {
      match r
      case CompanyAdmin => assert AllRoles[0] == r;
      case Employee => assert AllRoles[1] == r;
    }
  }

  /** The same for the four material types. */
  lemma MaterialConstantsMatch()
    ensures |MaterialTypeConstants| == 4
    ensures forall i :: 0 <= i < 4 ==> MaterialName(AllMaterials[i]) == MaterialTypeConstants[i]
    ensures forall m: MaterialType :: m in AllMaterials && ParseMaterial(MaterialName(m)) == Some(m)
  {
    forall m: MaterialType ensures m in AllMaterials && ParseMaterial(MaterialName(m)) == Some(m) {
      match m
      case Pdf => assert AllMaterials[0] == m;
      case Video => assert AllMaterials[1] == m;
      case Image => assert AllMaterials[2] == m;
      case Document => assert AllMaterials[3] == m;
    }
  }

  /** `employee_progress` Row. `employee_id` and `module_id` are required;
      `status`, `progress_percentage` and every timestamp are nullable.
      Timestamps are abstract instants. */
  datatype ProgressRow = ProgressRow(
    employeeId: string,
    moduleId: string,
    status: Option<ProgressStatus>,
    progressPercentage: Option<int>,
    startedAt: Option<nat>,
    completedAt: Option<nat>,
    updatedAt: Option<nat>)

  /** `employee_progress` Insert: only `employee_id` and `module_id` are
      required; every other key may be left out. */
  datatype ProgressInsert = ProgressInsert(
    employeeId: string,
    moduleId: string,
    status: Field<Option<ProgressStatus>>,
    progressPercentage: Field<Option<int>>,
    startedAt: Field<Option<nat>>,
    completedAt: Field<Option<nat>>,
    updatedAt: Field<Option<nat>>)

  /** `training_modules` Row: `company_id` and `title` always present,
      `description` and `is_active` nullable. */
  datatype TrainingModule = TrainingModule(
    id: string,
    companyId: string,
    title: string,
    description: Option<string>,
    isActive: Option<bool>,
    createdAt: Option<nat>,
    updatedAt: Option<nat>)

  /** `training_modules` Insert: `company_id` and `title` required; the
      store fills `id` and the timestamps. */
  datatype ModuleInsert = ModuleInsert(
    companyId: string,
    title: string,
    description: Field<Option<string>>,
    isActive: Field<Option<bool>>)

  /** `user_profiles` Row: `company_id` nullable, `email` and `role` required. */
  datatype UserProfile = UserProfile(
    id: string,
    email: string,
    firstName: Option<string>,
    lastName: Option<string>,
    role: UserRole,
    companyId: Option<string>,
    createdAt: Option<nat>)

  /** JavaScript truthiness of a nullable boolean column (`null` is falsy). */
  function Truthy(b: Option<bool>): bool {
    b == Some(true)
  }

  /** A nullable string that JavaScript treats as true: present and non-empty. */
  predicate Present(s: Option<string>) {
    s.Some? && s.value != ""
  }

  /** `p.progress_percentage || 0`: a null percentage is shown as 0. */
  function PercentOrZero(p: Option<int>): (n: int)
    ensures p.None? ==> n == 0
    ensures p.Some? ==> n == p.value
  {
    p.GetOr(0)
  }

  /** `status?.replace('_', ' ')`: the stored name with its first underscore
      turned into a space; nothing for a null status. */
  function StatusLabel(s: Option<ProgressStatus>): (shown: string)
    ensures s.None? <==> shown == ""
  {
    match s
    case None => ""
    case Some(st) => Text.ReplaceFirst(StatusName(st), '_', ' ')
  }

  /** `not_started` shows as "not started". */
  lemma NotStartedLabel()
    ensures StatusLabel(Some(NotStarted)) == "not started"
  {
    assert StatusName(NotStarted) == "not" + ['_'] + "started";
    Text.ReplaceFirstAfterWord("not", "started", '_', ' ');
    assert "not" + [' '] + "started" == "not started";
  }

  /** `in_progress` shows as "in progress". */
  lemma InProgressLabel()
    ensures StatusLabel(Some(InProgress)) == "in progress"
  {
    assert StatusName(InProgress) == "in" + ['_'] + "progress";
    Text.ReplaceFirstAfterWord("in", "progress", '_', ' ');
    assert "in" + [' '] + "progress" == "in progress";
  }

  /** `completed` has no underscore and shows as it is. */
  lemma CompletedLabel()
    ensures StatusLabel(Some(Completed)) == "completed"
  {
    var c := StatusName(Completed);
    assert c == "completed";
    Text.ReplaceFirstAbsent(c, '_', ' ');
  }

  /** `role.replace('_', ' ')`: the underscore of `company_admin` becomes a
      space, and `employee`, which has none, shows as it is. */
  function RoleLabel(r: UserRole): (shown: string)
    ensures |shown| == |RoleName(r)|
    ensures r == CompanyAdmin ==> shown == "company admin"
    ensures r == Employee ==> shown == "employee"
  {
    assert RoleName(CompanyAdmin) == "company" + ['_'] + "admin";
    Text.ReplaceFirstAfterWord("company", "admin", '_', ' ');
    assert "company" + [' '] + "admin" == "company admin";
    Text.ReplaceFirstAbsent(RoleName(Employee), '_', ' ');
    Text.ReplaceFirst(RoleName(r), '_', ' ')
  }

  /** The badge variants the views choose between. */
  datatype BadgeVariant = Default | Secondary | Outline
}
